=== FILE: README.md ===
# ipcidrtree in Dafny

A model of the core of `ipcidrtree`, a Python library for IPv4 prefixes (CIDR blocks)
and for trees that keep prefixes in their CIDR hierarchy. All of the modelled code is in
`src/ipcidrtree/__init__.py`:

- the value types: `IPNumber`/`Address` (a range-checked 32-bit integer), `Netmask`
  (one of 33 legal masks) and `Prefix` (an address with a netmask and no host bits set).
  Their operations are construction, containment, ordering, indexing and slicing,
  shifting by whole blocks, cutting into subnets and renumbering;
- the tree `PrefixNode`, which covers adding a subtree at the right place, finding,
  pruning, sorting, depth-first iteration and renumbering a branch.

Every operation is a pure function on immutable values. A Python exception becomes the
error case of a `Result` (`Wrappers.Fault` names each exception the source raises).
A mutating tree method returns the new tree, and a generator becomes the sequence it
yields.

Module layout, one file each:

| module | file | models |
|---|---|---|
| `Wrappers` | wrappers.dfy | `Option`, `Result`, the error kinds |
| `Bits` | bits.dfy | powers of two, `&`/`|` on 32-bit integers, the block arithmetic |
| `Addresses` | address.dfy | `IPNumber`, `Address` |
| `Netmasks` | netmask.dfy | `plen2int`, `valid_masks`, `Netmask` |
| `Prefixes` | prefix.dfy | `Prefix.__init__`, `__contains__`, `ishost`, `__len__` |
| `PrefixOrder` | prefix_order.dfy | `Prefix.__eq__`, `__cmp__`, `__lt__` |
| `PrefixIndex` | prefix_index.dfy | `_index_ok`, `__getitem__`, `_int_slice`, `addrs`, `network`, `broadcast`, `hosts` |
| `PrefixShift` | prefix_shift.dfy | `Prefix.__add__`, `__sub__`, `subnet` |
| `PrefixRenumber` | prefix_renumber.dfy | `Prefix.renumber` |
| `Trees` | tree.dfy | `PrefixNode` as a value, `_add_child`, `_rm_child`, `parenting`, the CIDR hierarchy invariant |
| `TreeAdd` | tree_add.dfy | `PrefixNode.add` as written |
| `TreeAddAll` | tree_add_all.dfy | `PrefixNode.add` with every contained child adopted |
| `TreeFind` | tree_find.dfy | `find`, `find_loose`, `prune` |
| `TreeSort` | tree_sort.dfy | `sort` |
| `TreeWalk` | tree_walk.dfy | `dfi`, `dfi_part` |
| `TreeRenumber` | tree_renumber.dfy | `_rrenumber`, `renumber` |

A tree is `Node(prefix, children)`. `Trees.WF` is the invariant the class documentation
promises: every prefix is valid, every child lies strictly inside its parent, and
siblings do not overlap. `Members` is the multiset of the prefixes a tree holds.

## Model

| member | source | states |
|---|---|---|
| Addresses.NewAddress | src/ipcidrtree/__init__.py:267-276 | an integer becomes an address exactly when it lies in [0, 2^32-1], unchanged; anything else is a range error |
| Addresses.AddressAdd | src/ipcidrtree/__init__.py:300-314 | `a + i` succeeds exactly when the sum stays in the address space and is then the sum; otherwise a range error |
| Addresses.AddressSub | src/ipcidrtree/__init__.py:316-325 | `a - o` succeeds exactly when the difference stays in the address space and is then the difference |
| Addresses.AddSubInverse | src/ipcidrtree/__init__.py:300-325 | subtraction undoes a successful addition of the same amount and vice versa |
| Addresses.AddressEquals | src/ipcidrtree/__init__.py:294-298 | an address equals an integer exactly when the integer is its value; an integer outside the address space, which the conversion rejects, is never equal |
| Bits.Bits32IsLowMask | src/ipcidrtree/__init__.py:91-93 | `_bits32` keeps the low 32 bits: on a non-negative integer it is the `&` with 2^32 - 1, and it leaves a 32-bit value unchanged |
| Netmasks.MaskOfLen | src/ipcidrtree/__init__.py:82-85 | `plen2int(plen)` is a legal netmask (in the table of 33 masks) |
| Netmasks.PlenToInt | src/ipcidrtree/__init__.py:82-85 | `plen2int` as the formula itself; what it means is stated by `PlenToIntShape` |
| Netmasks.PlenToIntShape | src/ipcidrtree/__init__.py:82-85 | `plen2int(plen)` is 2^32 - 2^(32-plen), the mask with plen leading one-bits |
| Netmasks.IsIntValidNetmask | src/ipcidrtree/__init__.py:138-142 | `isIntValidNetmask` as membership in the 33-entry table; `MaskTableShape` shows it is exactly the 2^32 - 2^k shape |
| Netmasks.TableShape | src/ipcidrtree/__init__.py:135 | entry k of the mask table is 2^32 - 2^k: the table lists exactly the masks of lengths 32 down to 0 |
| Netmasks.PrefixLen | src/ipcidrtree/__init__.py:373-375 | the prefix length is at most 32 and the mask is 2^32 - 2^(32-length), i.e. length leading one-bits |
| Netmasks.PrefixLenOfPlen | src/ipcidrtree/__init__.py:82-85 | `prefix_len` of `plen2int(plen)` is `plen`: the two conversions are inverse |
| Netmasks.PrefixLenInjective | src/ipcidrtree/__init__.py:373-375 | two legal masks have the same prefix length exactly when they are equal |
| Netmasks.NewNetmask | src/ipcidrtree/__init__.py:356-369 | a netmask is built exactly from 0..32 (read as a length, giving that length) or from a legal mask integer (kept as is); anything else is an invalid-netmask error |
| Netmasks.Netsize | src/ipcidrtree/__init__.py:377-379 | the block size is the host mask plus one, so mask plus size is 2^32 |
| Netmasks.NetsizeIsPow2 | src/ipcidrtree/__init__.py:377-379 | the block size is 2^(32 - prefix length) |
| Prefixes.NewPrefix | src/ipcidrtree/__init__.py:405-424 | construction succeeds exactly for an in-range address with no host bits set under the mask (a missing mask is /32); the result is valid; a range error exactly for an out-of-range address, otherwise the host-bits error |
| Prefixes.Contains | src/ipcidrtree/__init__.py:563-572 | `other in self` for two prefixes as the source tests it; `ContainsInterval` states what it means for blocks |
| Prefixes.ValidIffAligned | src/ipcidrtree/__init__.py:420 | no host bit set is the same as the address being a multiple of the block size |
| Prefixes.ContainsInterval | src/ipcidrtree/__init__.py:554-572 | `inner in outer` holds exactly when inner is strictly longer and its address lies inside outer's block |
| Prefixes.ContainsStrictOrder | src/ipcidrtree/__init__.py:554-572 | containment is irreflexive, asymmetric and transitive |
| Prefixes.ContainsAddressIff | src/ipcidrtree/__init__.py:561-572 | an address is in a prefix exactly when the prefix is not a /32 and the address lies between its first and last address |
| Prefixes.CommonCover | src/ipcidrtree/__init__.py:554-572 | two prefixes that both cover a third are equal or one contains the other |
| Prefixes.NestedOrDisjoint | src/ipcidrtree/__init__.py:554-572 | two valid prefixes are equal, nested, or their blocks are disjoint |
| Prefixes.LastAndLenDetermine | src/ipcidrtree/__init__.py:541-542 | a prefix is determined by its last address and its length |
| PrefixOrder.Cmp | src/ipcidrtree/__init__.py:490-515 | `__cmp__` returns -1, 0 or 1, and -1 exactly when `__lt__` holds |
| PrefixOrder.Less | src/ipcidrtree/__init__.py:517-533 | `__lt__` branch for branch; `LessIsKeyOrder` relates it to an independent order |
| PrefixOrder.LessIsKeyOrder | src/ipcidrtree/__init__.py:517-533 | for valid prefixes `__lt__` is the order by last address, longer prefix first on ties |
| PrefixOrder.LessStrictTotal | src/ipcidrtree/__init__.py:517-533 | `__lt__` is a strict total order on valid prefixes |
| PrefixOrder.CmpConsistent | src/ipcidrtree/__init__.py:472-515 | `__cmp__` is 0 exactly for equal prefixes, 1 exactly when the other is smaller, and antisymmetric |
| PrefixOrder.LessOnNested | src/ipcidrtree/__init__.py:490-533 | a contained prefix sorts before its container, and a block ending before another starts sorts first |
| PrefixIndex.GetItem | src/ipcidrtree/__init__.py:578-586 | an index failing `_index_ok` is an index error; every element is a /32 |
| PrefixIndex.IndexOk | src/ipcidrtree/__init__.py:578-586 | `_index_ok`: a non-negative index below len, or a negative one no larger than len in size; its consequences are in `GetItemValue` |
| PrefixIndex.GetItemValue | src/ipcidrtree/__init__.py:625-634 | indexing succeeds exactly for `_index_ok` indices; index i is the address i places from the start, a negative index counts from the end, and the element lies in the block |
| PrefixIndex.NegativeIndexFromEnd | src/ipcidrtree/__init__.py:628-634 | index i - len and index i name the same element |
| PrefixIndex.NetworkAndBroadcast | src/ipcidrtree/__init__.py:436-444 | `network()` is the /32 of the first address, `broadcast()` the /32 of the last one, both covered by the prefix |
| PrefixIndex.Network | src/ipcidrtree/__init__.py:436-439 | `network()` of a valid prefix succeeds and is the /32 of its first address |
| PrefixIndex.Broadcast | src/ipcidrtree/__init__.py:441-444 | `broadcast()` of a valid prefix succeeds and is the /32 of its last address |
| PrefixIndex.PyRange | src/ipcidrtree/__init__.py:588-606 | Python's `range`: element k is start + k*step, all strictly before stop in the step's direction, and for either sign of step no further element would be; empty when start is already past stop |
| PrefixIndex.IntSlice | src/ipcidrtree/__init__.py:588-606 | slicing fails with the zero-step error exactly when the step is 0; on a valid prefix every other slice succeeds and holds only addresses of the block |
| PrefixIndex.IntSliceSelects | src/ipcidrtree/__init__.py:588-606 | a slice of a valid prefix with a non-zero step is, in `range` order, the block's address at each index of `range(start, stop, step)` that `_index_ok` accepts, a negative one counted from the end; whatever the bounds and the sign of the step |
| PrefixIndex.CollectSelected | src/ipcidrtree/__init__.py:597-606 | on a valid prefix the lookup loop never fails and skips exactly the indices `_index_ok` rejects |
| PrefixIndex.InBlockSlice | src/ipcidrtree/__init__.py:588-606 | with 0 <= start <= stop <= len and no step, the slice is the piece start..stop of `addrs()` |
| PrefixIndex.Collect | src/ipcidrtree/__init__.py:597-606 | the loop body fails only with a range error and yields at most one /32 per index |
| PrefixIndex.CollectInRange | src/ipcidrtree/__init__.py:597-606 | a list of in-range indices is looked up element by element |
| PrefixIndex.Addrs | src/ipcidrtree/__init__.py:431-434 | `addrs()` lists len(prefix) /32 prefixes, the k-th at address start + k |
| PrefixIndex.FullSlice | src/ipcidrtree/__init__.py:588-606 | `prefix[:]` and `prefix[0:sys.maxsize]` are every address in order |
| PrefixIndex.NegativeStartSlice | src/ipcidrtree/__init__.py:588-606 | `prefix[-1:]` is the last address followed by every address, because `range(-1, len)` starts at -1 |
| PrefixIndex.Without | src/ipcidrtree/__init__.py:450-458 | filtering keeps exactly the elements other than the two named ones |
| PrefixIndex.Hosts | src/ipcidrtree/__init__.py:450-458 | `hosts()` holds exactly the addresses of the block other than the first and the last |
| PrefixIndex.HostsInterior | src/ipcidrtree/__init__.py:450-458 | `hosts()` is every address but the first and the last, and nothing for blocks of one or two addresses |
| PrefixShift.PrefixAdd | src/ipcidrtree/__init__.py:654-671 | `p + i` keeps the mask and moves the address by i blocks; leaving the address space is a range error |
| PrefixShift.PrefixSub | src/ipcidrtree/__init__.py:673-680 | `p - i` keeps the mask and moves the address back by i blocks; leaving the address space is a range error |
| PrefixShift.AddSubRoundTrip | src/ipcidrtree/__init__.py:654-680 | subtracting i undoes adding i |
| PrefixShift.AddComposes | src/ipcidrtree/__init__.py:654-671 | adding i and then j is adding i + j |
| PrefixShift.AddOneIsNext | src/ipcidrtree/__init__.py:654-671 | `p + 1` exists exactly when p does not end at 255.255.255.255, and starts right after p's last address |
| PrefixShift.Subnet | src/ipcidrtree/__init__.py:682-696 | an illegal mask is an invalid-netmask error and a mask shorter than the prefix's is the subnet-too-large error |
| PrefixShift.TilesPartition | src/ipcidrtree/__init__.py:682-696 | the subnets are valid, inside the prefix and consecutive; they start at its first address and end at its last, and count times size is the prefix's size |
| PrefixShift.TilesCoverEachAddress | src/ipcidrtree/__init__.py:682-696 | every address of the prefix lies in exactly one subnet |
| PrefixShift.SubnetToHosts | src/ipcidrtree/__init__.py:431-434 | subnetting into /32s gives `addrs()` |
| PrefixShift.SubnetAsWrittenAgrees | src/ipcidrtree/__init__.py:682-696 | the generator as written yields the intended subnets, and raises a range error after them exactly when the prefix ends at 255.255.255.255 |
| PrefixShift.SubnetAsWritten | src/ipcidrtree/__init__.py:682-696 | the generator as written: an illegal mask is the invalid-netmask error and a shorter mask the subnet-too-large error, both before any block; every yielded block is covered by the prefix |
| PrefixShift.Walk | src/ipcidrtree/__init__.py:692-695 | the `cur += 1` loop yields only blocks covered by the prefix, and the only error it raises is the range error after at least one block |
| PrefixShift.WalkMeetsTiles | src/ipcidrtree/__init__.py:692-695 | the `cur += 1` loop yields exactly the consecutive blocks, with the range error exactly at the top of the address space |
| PrefixShift.SubnetAtTopRaises | src/ipcidrtree/__init__.py:692-695 | for a prefix ending at 255.255.255.255 the intended result is every address, and the generator as written yields them and then raises |
| PrefixShift.TopHostAtTop | src/ipcidrtree/__init__.py:692-695 | 255.255.255.255/32 is a valid prefix ending at the top whose only address is itself |
| PrefixRenumber.Renumber | src/ipcidrtree/__init__.py:462-470 | renumbering fails with the stricter-mask error exactly when the target is longer; otherwise the mask is kept |
| PrefixRenumber.RenumberInside | src/ipcidrtree/__init__.py:462-470 | a valid prefix renumbered into a block no longer than itself is valid and inside that block |
| PrefixRenumber.RenumberShift | src/ipcidrtree/__init__.py:468-470 | everything below a common root moves by the same distance, a multiple of the root's size |
| PrefixRenumber.RenumberKeepsNesting | src/ipcidrtree/__init__.py:462-470 | below a common root, renumbering keeps prefixes valid and keeps both containment and equality, in both directions |
| PrefixRenumber.RenumberRoundTrip | src/ipcidrtree/__init__.py:462-470 | renumbering back with the original root restores every prefix below it |
| Trees.AddChild | src/ipcidrtree/__init__.py:770-774 | `_add_child` appends the child and the tree then holds the prefixes of both |
| Trees.RmChild | src/ipcidrtree/__init__.py:776-780 | `_rm_child` drops one child, and the tree loses exactly that child's prefixes |
| Trees.Parenting | src/ipcidrtree/__init__.py:833-843 | `parenting` as a search of the children for the prefix; `TreeAdd.ParentingMember` gives its consequence |
| Trees.NestedCovers | src/ipcidrtree/__init__.py:704-710 | in a nested tree every prefix is valid and covered by the root |
| Trees.NoDuplicates | src/ipcidrtree/__init__.py:704-710 | a correct CIDR hierarchy holds each prefix at most once |
| Trees.NestedHostsAreLeaves | src/ipcidrtree/__init__.py:704-710 | in a tree where every child lies inside its parent, every /32 node is a leaf |
| TreeAdd.Add | src/ipcidrtree/__init__.py:783-830 | `add` as written: refused exactly by a /32 node or one not containing the subtree; on success the tree keeps its root and holds the prefixes of both; a reported duplicate is in both |
| TreeAdd.AddHere | src/ipcidrtree/__init__.py:812-830 | the landing step never refuses, and keeps the same member and duplicate promises |
| TreeAdd.AddBelow | src/ipcidrtree/__init__.py:808-810 | offering the subtree to the children in turn never refuses; on success the members add up, and a reported duplicate is held by both |
| TreeAdd.Adopt | src/ipcidrtree/__init__.py:818-825 | the adoption loop never refuses; on success the members add up, and a reported duplicate is held by both |
| TreeAdd.ParentingMember | src/ipcidrtree/__init__.py:833-838 | a prefix `parenting` reports is held by the tree |
| TreeAdd.AddKeepsNested | src/ipcidrtree/__init__.py:783-830 | `add` as written keeps every child strictly inside its parent |
| TreeAdd.AdoptsFirst | src/ipcidrtree/__init__.py:819-825 | after the first child is adopted the remaining children are left where they are |
| TreeAdd.AddLeavesOverlap | src/ipcidrtree/__init__.py:819-825 | adding a prefix that contains two leaf children moves only the first, leaving a sibling inside the new node: the result is not a correct hierarchy |
| TreeAdd.AddOverlapExample | src/ipcidrtree/__init__.py:819-825 | concretely: 0.0.0.0/0 holding 0.0.0.0/2 and 64.0.0.0/2, then adding 0.0.0.0/1 |
| TreeAddAll.Insert | src/ipcidrtree/__init__.py:783-830 | the corrected `add`: refused exactly as as written; on success the tree holds the prefixes of both; a reported duplicate occurs twice among them |
| TreeAddAll.AdoptAll | src/ipcidrtree/__init__.py:818-825 | adopting every contained child never refuses and keeps the member and duplicate promises |
| TreeAddAll.InsertKeepsWF | src/ipcidrtree/__init__.py:704-710 | inserting a correct hierarchy into a correct hierarchy gives a correct hierarchy |
| TreeAddAll.InsertReportsShared | src/ipcidrtree/__init__.py:814-815 | between correct hierarchies the duplicate error is raised exactly when they share a prefix, and the reported prefix is in both |
| TreeFind.Find | src/ipcidrtree/__init__.py:895-914 | a found node has the key as its prefix and holds only prefixes the tree holds, and the key is covered by the root |
| TreeFind.FindExact | src/ipcidrtree/__init__.py:895-914 | in a nested tree `find` succeeds exactly for the prefixes the tree holds |
| TreeFind.FindLoose | src/ipcidrtree/__init__.py:916-936 | `find_loose` fails exactly when the root does not cover the key; the result covers the key and holds only prefixes the tree holds |
| TreeFind.FindLooseFrom | src/ipcidrtree/__init__.py:931-936 | the loop over the children finds nothing exactly when no remaining child covers the key |
| TreeFind.FindLooseClosest | src/ipcidrtree/__init__.py:916-936 | in a correct hierarchy every held prefix covering the key covers the result: it is the closest match |
| TreeFind.FindLooseExact | src/ipcidrtree/__init__.py:916-936 | for a held key `find_loose` agrees with `find` |
| TreeFind.Prune | src/ipcidrtree/__init__.py:845-872 | pruning the root is an error exactly when the key is the root; otherwise nothing found leaves the tree unchanged, and a found branch has the key and together with the remaining tree holds exactly the original prefixes |
| TreeFind.Cut | src/ipcidrtree/__init__.py:856-872 | outside the root's block nothing is cut and the tree is unchanged; a cut branch has the key as its prefix, and branch and rest together hold exactly the original prefixes |
| TreeFind.CutFrom | src/ipcidrtree/__init__.py:862-872 | the loop over the children keeps the same promises as `Cut` |
| TreeFind.CutIsFind | src/ipcidrtree/__init__.py:845-914 | `prune` removes exactly the node `find` returns |
| TreeFind.PruneExact | src/ipcidrtree/__init__.py:845-872 | in a nested tree a branch is cut exactly when the key is held |
| TreeFind.CutKeepsWF | src/ipcidrtree/__init__.py:845-872 | cutting a correct hierarchy leaves two correct hierarchies |
| TreeFind.PruneRemovesKey | src/ipcidrtree/__init__.py:845-872 | in a correct hierarchy the key is gone from the tree after pruning, and both parts are correct hierarchies |
| TreeSort.InsertNode | src/ipcidrtree/__init__.py:764-768 | one insertion step of the sort adds exactly one element, keeping the others |
| TreeSort.SortNodes | src/ipcidrtree/__init__.py:766 | sorting a list of children is a permutation |
| TreeSort.SortTree | src/ipcidrtree/__init__.py:764-768 | `sort` keeps the root and the number of children; `SortTreeMembers`, `SortTreeSorted` and `SortTreeKeepsWF` state the rest |
| TreeSort.SortNodesMembers | src/ipcidrtree/__init__.py:766 | sorting the children keeps the prefixes they hold |
| TreeSort.SortOrdered | src/ipcidrtree/__init__.py:766 | sorted children are ordered by `__lt__` |
| TreeSort.SortFixed | src/ipcidrtree/__init__.py:766 | an already ordered list of children is returned unchanged |
| TreeSort.SortTreeMembers | src/ipcidrtree/__init__.py:764-768 | `sort` keeps the root and every prefix of the tree |
| TreeSort.SortTreeSorted | src/ipcidrtree/__init__.py:764-768 | after `sort` every node's children are ordered |
| TreeSort.SortTreeFixed | src/ipcidrtree/__init__.py:764-768 | a sorted tree is left as it is |
| TreeSort.SortTwice | src/ipcidrtree/__init__.py:764-768 | `sort` is idempotent |
| TreeSort.SortApart | src/ipcidrtree/__init__.py:766 | sorting keeps siblings apart |
| TreeSort.SortTreeKeepsWF | src/ipcidrtree/__init__.py:764-768 | `sort` keeps a correct hierarchy correct |
| TreeWalk.Walk | src/ipcidrtree/__init__.py:874-881 | `dfi` yields the node first at the given depth and everything else deeper |
| TreeWalk.WalkListsMembers | src/ipcidrtree/__init__.py:874-881 | `dfi` yields each prefix of the tree exactly as often as the tree holds it |
| TreeWalk.WalkDistinct | src/ipcidrtree/__init__.py:874-881 | in a correct hierarchy `dfi` visits no prefix twice |
| TreeWalk.WalkPart | src/ipcidrtree/__init__.py:883-893 | `dfi_part` yields the node first, and each entry's flag tells whether its prefix is in the filter |
| TreeWalk.PartWithinWalk | src/ipcidrtree/__init__.py:883-893 | `dfi_part` yields only visits that `dfi` also yields |
| TreeWalk.PartOfFullFilter | src/ipcidrtree/__init__.py:883-893 | with every prefix of the tree in the filter, `dfi_part` is `dfi` with every entry flagged as in the filter |
| TreeRenumber.RenumberAll | src/ipcidrtree/__init__.py:735-738 | the evidently intended `_rrenumber` (recursing through `_rrenumber`) succeeds exactly when the root can be renumbered and every child branch can; its only error is the stricter-mask one |
| TreeRenumber.RenumberEach | src/ipcidrtree/__init__.py:737-738 | in the evidently intended `_rrenumber` (recursing through `_rrenumber`), the children are renumbered one by one, and the loop fails exactly when one of them does |
| TreeRenumber.RenumberAllExact | src/ipcidrtree/__init__.py:735-738 | for a nested branch, the evidently intended `_rrenumber` fails exactly when the target is longer than the branch's root |
| TreeRenumber.RenumberAllAsWritten | src/ipcidrtree/__init__.py:735-738 | `_rrenumber` as written: a target longer than the root is the stricter-mask error, any child makes it fail with the missing-method error (`c.rrenumber` does not exist), and on a leaf it agrees with the intended recursion |
| TreeRenumber.RenumberAllWF | src/ipcidrtree/__init__.py:735-738 | a renumbered correct hierarchy is a correct hierarchy |
| TreeRenumber.RenumberAllRoundTrip | src/ipcidrtree/__init__.py:757-760 | renumbering a branch and then back to its old root restores it, which the rollback relies on |
| TreeRenumber.RenumberNode | src/ipcidrtree/__init__.py:740-762 | the corrected `renumber`: the not-contained error exactly when either prefix is outside the node; the already-exists error exactly when `find` sees the new prefix; on these errors and on a missing branch the tree is unchanged |
| TreeRenumber.Reinsert | src/ipcidrtree/__init__.py:756-762 | the corrected re-insertion, done with the full-adoption insert: it raises only the duplicate error or the renumber-back error, and on success the tree holds the renumbered branch as well |
| TreeRenumber.ReinsertAsWritten | src/ipcidrtree/__init__.py:756-762 | the same re-insertion through the as-written `add` and the as-written `_rrenumber`: only the duplicate or renumber-back error (the missing-method error only for a branch with children), and on success the members add up |
| TreeRenumber.RenumberNodeAsWritten | src/ipcidrtree/__init__.py:740-762 | `renumber` as written: the same not-contained, already-exists and not-found errors as the corrected version, with the tree unchanged on them; in addition the missing-method error of `_rrenumber` |
| TreeRenumber.RenumberNodeErrors | src/ipcidrtree/__init__.py:740-762 | in a correct hierarchy: already-exists exactly when the new prefix is held; not-found exactly when neither prefix is held; stricter-mask exactly when the old prefix is held, the new is not, and the new is longer |
| TreeRenumber.RenumberNodeKeepsWF | src/ipcidrtree/__init__.py:740-762 | renumbering keeps a correct hierarchy correct. On the stricter-mask error the tree is unchanged. After a duplicate the tree again holds exactly its old prefixes. On success the old branch's prefixes are replaced by the renumbered ones |
| TreeRenumber.RenumberAsWrittenLosesBranch | src/ipcidrtree/__init__.py:752-755 | as written, the stricter-mask error leaves the tree without the old prefix, while the corrected version leaves it as it was |
| TreeRenumber.RenumberLossExample | src/ipcidrtree/__init__.py:752-755 | concretely: 0.0.0.0/0 holding 0.0.0.0/1, renumbered from 0.0.0.0/1 to 0.0.0.0/2, comes back empty |
| TreeRenumber.RenumberAsWrittenLosesChildren | src/ipcidrtree/__init__.py:735-762 | as written, renumbering a held branch that has children into a free, no longer prefix raises the missing-method error after the cut: the tree has lost exactly that branch, and the corrected version never raises it |
| TreeRenumber.RenumberChildLossExample | src/ipcidrtree/__init__.py:735-762 | concretely: 0.0.0.0/0 holding 0.0.0.0/1 holding 0.0.0.0/2, renumbered from 0.0.0.0/1 to 128.0.0.0/1, comes back as a bare 0.0.0.0/0 with the error |

## Left out

- Text parsing and printing are left out. This covers `Parser`, `parseIntQuads`, `parseStrQuads`, `__str__`, `__repr__`, `dump` and the `isValid*`/`parse` helpers. Addresses, masks and prefixes are built from integers only.
- Floating point is left out. `_log2` and `Netmask.by_netsize` use `math.log`. `prefix_len` is modelled as the exact integer logarithm. This assumes the float quotient `log(2^k)/log(2)` never rounds below k before it is truncated; that is not shown here.
- The ordering operators of `IPNumber` (`__lt__`, `__le__`, `__ne__`, `__gt__`, `__ge__`) compare the two integer values. The model uses the integer comparisons on `Addr` directly.
- `Prefix == Address` (src/ipcidrtree/__init__.py:487-488) compares only the prefix's address with the bare address and ignores the mask. The model compares prefixes only with prefixes, where equality is equality of address and mask.
- Hashing is left out: `__hash__` of `IPNumber` and `Prefix`.
- Constructor type dispatch and the `TypeError` paths are left out. They only reject arguments of the wrong Python type, and the model's parameters are typed.
- `Prefix.__contains__` for a `Range` argument (`iprange.py`) and `_other_slice` are not part of this model. They belong to the address-range classes.
- `PPrefixNode` and the `ipset` module are not part of this model. They are parent-linked trees and sets built on top of the core.
- The child dictionary `_children_hash` is left out. `parenting` is modelled as a search of the children, which replaces the dictionary lookup. As written this is exact within the tree's own operations: the only prefix `_rrenumber` changes in place is the root of a branch that `prune` has already removed from its parent's dictionary. The dictionary would go stale only under the intended recursion, which changes the children's prefixes in place as well, or when a caller changes a prefix it still holds a reference to (see the line on mutation and object identity below).
- `_children_pospars` is modelled as the children shorter than /32, filtered where `add` reads it. The tree keeps no separate list. After `sort` the source's list keeps its old order while the children are reordered, so the order in which `add` offers the subtree to the children may differ from the model's.
- Mutation and object identity are left out. Operations return new values, so aliasing between a pruned branch and the caller's reference is not modelled.
- Python 3 defects in the source are not modelled; the evident intent is. These are the uses of `types.InstanceType` and `children.sort()` on `PrefixNode`, which has only `__cmp__`. For the sort, the order is taken from `Prefix.__cmp__`.
- The class documentation promises that the tree is always a correct CIDR hierarchy. The code as written does not keep that promise (Findings 1, 3 and 4). The as-written members (`TreeAdd.Add`, `TreeRenumber.RenumberAllAsWritten`, `TreeRenumber.RenumberNodeAsWritten`) follow the code and the corrected ones prove the promise.
- TreeAddAll.Insert: the function contract only says a reported duplicate occurs twice among the two trees' prefixes. `InsertReportsShared` proves the source's stronger reading, that it is in both trees, for correct hierarchies.
- TreeRenumber.RenumberAll: a failure below the root after the root was renumbered leaves the source's branch partly renumbered. The model returns only the error. For a nested branch this cannot happen (`RenumberAllExact`).
- TreeRenumber.RenumberAllAsWritten: the source renumbers the branch root in place before the call that fails. The model returns only the error; the branch is cut out of the tree either way, so nothing that stays in the tree differs.
- PrefixIndex.Addrs: returns the intended list of addresses. As written, `addrs()` is `subnet` with a /32 mask, which raises after the last address of a block ending at 255.255.255.255. `PrefixShift.SubnetAsWrittenAgrees` and `PrefixShift.SubnetAtTopRaises` state that raise (Finding 2).
- PrefixIndex.Hosts: returns the intended list of hosts. As written, `hosts()` iterates `addrs()`, so for a block ending at 255.255.255.255 it raises after its last host in the same way (Finding 2).
- TreeRenumber.Reinsert: the corrected `renumber` re-inserts with the full-adoption `TreeAddAll.Insert`, where the source calls the as-written `add`. The two can differ: `Insert` may report a duplicate that `add`, which offers the branch only the first contained child, would not see, and then the branch is rolled back. `TreeRenumber.ReinsertAsWritten` is the version with `add`.
- TreeRenumber.RenumberNode: the exception's prefix payload (`DuplicatePrefixError.prefix`) is not returned. After a successful renumber the model proves which prefixes the tree holds, not where in the tree the branch lands.
- TreeRenumber.RenumberNodeKeepsWF: after a duplicate rollback the tree holds its old prefixes, but the branch is appended as its parent's last child, as in the source. The proof covers the prefixes, not the child order.

## Findings

| source | as written | input that shows it | evidently intended | confidence | as-written member | corrected member |
|---|---|---|---|---|---|---|
| src/ipcidrtree/__init__.py:819-825 | `add` makes the new node adopt only the first existing child it contains, then returns | tree 0.0.0.0/0 with children 0.0.0.0/2 and 64.0.0.0/2; add 0.0.0.0/1. 64.0.0.0/2 stays a sibling of the 0.0.0.0/1 that contains it | the new node adopts every child it contains, so the tree stays a correct CIDR hierarchy | not executed | TreeAdd.AddOverlapExample | TreeAddAll.InsertKeepsWF |
| src/ipcidrtree/__init__.py:692-695 | `subnet` computes `cur += 1` after every block, which raises once the last block ends at 255.255.255.255 | `Prefix('255.255.255.255/32').subnet(32)` yields the address and then raises ValueError; so do `addrs()` and `hosts()` on any block ending at 255.255.255.255, since `hosts()` iterates `addrs()` | the generator stops after the last block | not executed | PrefixShift.SubnetAtTopRaises | PrefixShift.TilesPartition |
| src/ipcidrtree/__init__.py:752-755 | `renumber` prunes the branch before `Prefix.renumber` checks the mask lengths, so the stricter-mask error leaves the branch cut out | tree 0.0.0.0/0 holding 0.0.0.0/1; `renumber(0.0.0.0/1, 0.0.0.0/2)` raises ValueError and the tree is left empty | the failed renumber leaves the tree as it was | not executed | TreeRenumber.RenumberLossExample | TreeRenumber.RenumberNodeKeepsWF |
| src/ipcidrtree/__init__.py:735-738 | `_rrenumber` loops over the children calling `c.rrenumber`, a method `PrefixNode` does not have under any Python version, so `renumber` (line 756) raises AttributeError after cutting out any branch with children | tree 0.0.0.0/0 holding 0.0.0.0/1 holding 0.0.0.0/2; `renumber(0.0.0.0/1, 128.0.0.0/1)` raises AttributeError and leaves a bare 0.0.0.0/0 | `_rrenumber` recurses through `_rrenumber`, so the branch moves with its children | not executed | TreeRenumber.RenumberChildLossExample | TreeRenumber.RenumberAllExact |

=== FILE: address.dfy ===
/** IPv4 address values: class `IPNumber` (and its subclass `Address`) in
    src/ipcidrtree/__init__.py, a 32-bit unsigned integer with range-checked `+` and `-`.
 */
module Addresses {
  import opened Wrappers

  const MaxAddress: int := 0xFFFF_FFFF

  /** The integer an `IPNumber` holds. */
  type Addr = n: int | 0 <= n <= MaxAddress

  /** `IPNumber._set_int`: an integer is an address exactly when it lies in
      [0, 2^32-1]; the value is kept unchanged. */
  function NewAddress(v: int): (r: Result<Addr>)
    ensures r.Ok? <==> 0 <= v <= MaxAddress
    ensures r.Ok? ==> r.value as int == v
    ensures r.Err? ==> r.fault == RangeError
  {
    if 0 <= v <= MaxAddress then Ok(v) else Err(RangeError)
  }

  /** `IPNumber.__add__`: checks the upper bound itself and leaves the lower bound to the
      constructor of the result; either way a sum outside [0, 2^32-1] is a range error. */
  function AddressAdd(a: Addr, i: int): (r: Result<Addr>)
    ensures r.Ok? <==> 0 <= a + i <= MaxAddress
    ensures r.Ok? ==> r.value == a + i
    ensures r.Err? ==> r.fault == RangeError
  {
    if a + i > MaxAddress then Err(RangeError) else NewAddress(a + i)
  }

  /** `IPNumber.__sub__`: adding the negated operand. */
  function AddressSub(a: Addr, o: int): (r: Result<Addr>)
    ensures r.Ok? <==> 0 <= a - o <= MaxAddress
    ensures r.Ok? ==> r.value == a - o
  {
    AddressAdd(a, -o)
  }

  /** `IPNumber.__eq__`: the other operand is converted to an address first, and a value
      the conversion rejects compares unequal.  An address therefore equals exactly its own
      integer and nothing outside the address space. */
  function AddressEquals(a: Addr, other: int): (r: bool)
    ensures r <==> other == a as int
    ensures !(0 <= other <= MaxAddress) ==> !r
  {
    match NewAddress(other)
    case Ok(b) => a == b
    case Err(_) => false
  }

  /** Subtraction undoes a successful addition, and addition undoes a successful
      subtraction. */
  lemma AddSubInverse(a: Addr, i: int)
    ensures AddressAdd(a, i).Ok? ==> AddressSub(AddressAdd(a, i).value, i) == Ok(a)
    ensures AddressSub(a, i).Ok? ==> AddressAdd(AddressSub(a, i).value, i) == Ok(a)
  {}
}

=== FILE: bits.dfy ===
/** Integer and bit arithmetic on non-negative integers.

    The library works on Python integers and uses `&`, `|`, `~` and a helper that keeps
    the low 32 bits.  Here `And` and `Or` are defined bit by bit, least significant bit
    first, and the lemmas connect them with division and remainder by powers of two,
    which is the form the rest of the model reasons in.
 */
module Bits {

  /** 2^32, the size of the IPv4 address space. */
  const Modulus: nat := 0x1_0000_0000

  function Pow2(n: nat): (r: nat)
    ensures r >= 1
  {
    if n == 0 then 1 else 2 * Pow2(n - 1)
  }

  /** The library's `_bits32(i)`, that is `i & 4294967295`: for a Python integer of any
      sign this is the remainder modulo 2^32, and Dafny's `%` is never negative. */
  function Bits32(i: int): (r: nat)
    ensures r < Modulus
  {
    i % Modulus
  }

  /** Python's `~i` on an integer: the two's-complement inversion `-i - 1`. */
  function Invert(i: int): int
  {
    -i - 1
  }

  /** Python's `a & b` on non-negative integers. */
  function And(a: nat, b: nat): nat
    decreases a
  {
    if a == 0 || b == 0 then 0
    else 2 * And(a / 2, b / 2) + (if a % 2 == 1 && b % 2 == 1 then 1 else 0)
  }

  /** Python's `a | b` on non-negative integers. */
  function Or(a: nat, b: nat): nat
    decreases a
  {
    if a == 0 then b
    else if b == 0 then a
    else 2 * Or(a / 2, b / 2) + (if a % 2 == 1 || b % 2 == 1 then 1 else 0)
  }

  // ---------------------------------------------------------------------------
  // Division and remainder

  lemma MulMono(d: int, a: int, b: int)
    ensures d > 0 && a <= b ==> d * a <= d * b
  {}

  lemma MulSubOne(a: int, b: int)
    ensures (a - 1) * b == a * b - b
  {}

  lemma MulAddDistrib(a: int, b: int, s: int)
    ensures (a + b) * s == a * s + b * s && (-a) * s == -(a * s) && 0 * s == 0
  {}

  /** Quotient and remainder are unique. */
  lemma DivModUnique(x: int, d: int, q: int, r: int)
    requires d > 0 && 0 <= r < d && x == d * q + r
    ensures x / d == q && x % d == r
  {
    var q0, r0 := x / d, x % d;
    assert x == d * q0 + r0;
    MulMono(d, q0 + 1, q);
    MulMono(d, q + 1, q0);
    assert d * (q0 + 1) == d * q0 + d && d * (q + 1) == d * q + d;
  }

  lemma ModHalf(x: nat, m: nat)
    requires m > 0
    ensures x % (2 * m) == 2 * ((x / 2) % m) + x % 2
    ensures x / (2 * m) == (x / 2) / m
  {
    var q := (x / 2) / m;
    var r := (x / 2) % m;
    assert x / 2 == m * q + r;
    assert x == 2 * (m * q + r) + x % 2;
    assert x == (2 * m) * q + (2 * r + x % 2);
    DivModUnique(x, 2 * m, q, 2 * r + x % 2);
  }

  /** Adding a multiple of `p` leaves the remainder alone. */
  lemma ModAddMultiple(y: int, k: int, p: int)
    requires p > 0
    ensures (y + p * k) % p == y % p
    ensures (y + p * k) / p == y / p + k
  {
    assert y == p * (y / p) + y % p;
    assert y + p * k == p * (y / p + k) + y % p;
    DivModUnique(y + p * k, p, y / p + k, y % p);
  }

  lemma ModNest(x: int, pa: int, pb: int)
    requires pa > 0 && pb > 0 && pa % pb == 0
    ensures (x % pa) % pb == x % pb
  {
    var c := pa / pb;
    assert pa == pb * c;
    var q := x / pa;
    assert x == pa * q + x % pa;
    assert x == (x % pa) + pb * (c * q);
    ModAddMultiple(x % pa, c * q, pb);
  }

  lemma MultipleNest(x: int, pa: int, pb: int)
    requires pa > 0 && pb > 0 && pa % pb == 0 && x % pa == 0
    ensures x % pb == 0
  {
    ModNest(x, pa, pb);
  }

  /** Two distinct multiples of `p` are at least `p` apart. */
  lemma AlignedGap(x: int, y: int, p: int)
    requires p > 0 && x % p == 0 && y % p == 0 && x < y
    ensures x + p <= y
  {
    var i, j := x / p, y / p;
    assert x == p * i && y == p * j;
    MulMono(p, j, i);
    MulMono(p, i + 1, j);
    assert p * (i + 1) == p * i + p;
  }

  /** `x - x % p` is the largest multiple of `p` not above `x`. */
  lemma RoundDown(x: int, p: int)
    requires p > 0
    ensures (x - x % p) % p == 0
    ensures x - p < x - x % p <= x
  {
    assert x - x % p == p * (x / p);
    DivModUnique(x - x % p, p, x / p, 0);
  }

  /** A multiple `a` of `p` is `x` rounded down exactly when `x` lies in `[a, a + p)`. */
  lemma RoundDownIff(x: int, a: int, p: int)
    requires p > 0 && a % p == 0
    ensures x - x % p == a <==> a <= x < a + p
  {
    RoundDown(x, p);
    if a <= x < a + p {
      assert a == p * (a / p);
      DivModUnique(x, p, a / p, x - a);
    }
  }

  /** An aligned block that starts inside a larger aligned block whose size it
      divides ends inside it too. */
  lemma AlignedInside(oa: int, so: int, ia: int, si: int)
    requires so > 0 && si > 0 && so % si == 0
    requires oa % so == 0 && ia % si == 0
    requires oa <= ia < oa + so
    ensures ia + si <= oa + so
  {
    MultipleNest(oa, so, si);
    var c := so / si;
    assert so == si * c;
    ModAddMultiple(oa, c, si);
    AlignedGap(ia, oa + so, si);
  }

  /** Rounding down to a multiple of `sb` and then of `sa`, where `sb` divides `sa`, is
      rounding down to a multiple of `sa`. */
  lemma RoundDownTwice(x: int, y: int, sa: int, sb: int)
    requires sa > 0 && sb > 0 && sa % sb == 0
    requires y == x - x % sb
    ensures y - y % sa == x - x % sa
  {
    var r, q := x % sa, x / sa;
    assert x == sa * q + r;
    ModNest(x, sa, sb);
    var t := r - r % sb;
    RoundDown(r, sb);
    ModBelow(r, sb);
    assert y == sa * q + t;
    DivModUnique(y, sa, q, t);
  }

  lemma ModBelow(r: int, d: int)
    requires r >= 0 && d > 0
    ensures r % d <= r
  {
    if r < d {
      DivModUnique(r, d, 0, r);
    }
  }

  /** Block `k` of `n` blocks of size `s` ends within the `n` blocks. */
  lemma MulBelow(k: int, n: int, s: int)
    requires 0 <= k < n && s > 0
    ensures 0 <= k * s && k * s + s <= n * s
  {
    MulMono(s, k + 1, n);
    MulMono(s, 0, k);
    assert s * (k + 1) == s * k + s;
  }

  /** Block `k` of `n` equal blocks that tile an aligned block is aligned and lies
      inside it. */
  lemma AlignedTile(base: int, total: int, s: int, n: int, k: int)
    requires s > 0 && 0 <= k < n && total == n * s && base % total == 0
    ensures (base + k * s) % s == 0
    ensures base <= base + k * s && base + k * s + s <= base + total
  {
    MulBelow(k, n, s);
    assert total > 0;
    DivModUnique(total, s, n, 0);
    MultipleNest(base, total, s);
    ModAddMultiple(base, k, s);
  }

  /** Offset `d` into `n` consecutive blocks of size `s` falls in block `d / s` and in
      no other. */
  lemma BlockIndex(d: int, s: int, n: int)
    requires s > 0 && 0 <= d < n * s
    ensures 0 <= d / s < n
    ensures forall k :: 0 <= k < n ==> (k * s <= d <= k * s + s - 1 <==> k == d / s)
  {
    BlockIndexRange(d, s, n);
    forall k | 0 <= k < n
      ensures k * s <= d <= k * s + s - 1 <==> k == d / s
    {
      BlockIndexUnique(d, s, k);
    }
  }

  lemma BlockIndexRange(d: int, s: int, n: int)
    requires s > 0 && 0 <= d < n * s
    ensures 0 <= d / s < n
  {
    var q := d / s;
    assert d == s * q + d % s;
    MulMono(s, n, q);
    MulMono(s, q, -1);
  }

  lemma BlockIndexUnique(d: int, s: int, k: int)
    requires s > 0
    ensures k * s <= d <= k * s + s - 1 <==> k == d / s
  {
    if k * s <= d <= k * s + s - 1 {
      DivModUnique(d, s, k, d - k * s);
    }
    assert d == s * (d / s) + d % s;
  }

  /** The last of `n` blocks of size `s` starting at `a` ends where the `n * s`
      addresses from `a` end. */
  lemma LastBlockEnd(a: int, qa: int, n: int, s: int, total: int)
    requires n * s == total && qa == a + (n - 1) * s
    ensures qa + s - 1 == a + total - 1
  {
    MulSubOne(n, s);
  }

  // ---------------------------------------------------------------------------
  // Powers of two

  lemma {:induction false} Pow2Mono(a: nat, b: nat)
    requires a <= b
    ensures Pow2(a) <= Pow2(b)
    ensures Pow2(b) % Pow2(a) == 0
    decreases b
  {
    if a < b {
      Pow2Mono(a, b - 1);
      var k := Pow2(b - 1) / Pow2(a);
      assert Pow2(b - 1) == Pow2(a) * k;
      assert Pow2(b) == Pow2(a) * (2 * k);
      DivModUnique(Pow2(b), Pow2(a), 2 * k, 0);
    }
  }

  lemma {:induction false} Pow2Add(a: nat, b: nat)
    ensures Pow2(a + b) == Pow2(a) * Pow2(b)
    decreases a
  {
    if a > 0 {
      Pow2Add(a - 1, b);
    }
  }

  lemma {:induction false} Pow2Injective(a: nat, b: nat)
    requires Pow2(a) == Pow2(b)
    ensures a == b
  {
    if a < b {
      Pow2Mono(a + 1, b);
    } else if b < a {
      Pow2Mono(b + 1, a);
    }
  }

  lemma Pow2Of32()
    ensures Pow2(32) == Modulus
  {
    assert Pow2(8) == 256;
    Pow2Add(8, 8);
    Pow2Add(16, 16);
  }

  /** Every power of two below the 32nd is an unsigned 32-bit value. */
  lemma Pow2Below32(j: nat)
    requires j < 32
    ensures Pow2(j) < Modulus
  {
    Pow2Mono(j, 31);
    Pow2Of32();
  }


  // ---------------------------------------------------------------------------
  // Bitwise operations against the masks the library uses

  lemma {:induction false} AndComm(a: nat, b: nat)
    ensures And(a, b) == And(b, a)
    decreases a
  {
    if a != 0 && b != 0 {
      AndComm(a / 2, b / 2);
    }
  }

  /** Masking with the low `h` bits keeps the remainder modulo 2^h. */
  lemma {:induction false} AndLow(x: nat, h: nat)
    ensures And(x, Pow2(h) - 1) == x % Pow2(h)
  {
    if h == 0 {
      DivModUnique(x, 1, x, 0);
    } else if x == 0 {
      DivModUnique(0, Pow2(h), 0, 0);
    } else {
      AndLow(x / 2, h - 1);
      AndLowStep(x, h);
    }
  }

  /** On a non-negative integer `_bits32` is exactly the bitwise `&` with 2^32 - 1, and it
      leaves an unsigned 32-bit value unchanged. */
  lemma Bits32IsLowMask(x: nat)
    ensures Bits32(x) == And(x, Modulus - 1)
    ensures x < Modulus ==> Bits32(x) == x
  {
    Pow2Of32();
    AndLow(x, 32);
    if x < Modulus {
      DivModUnique(x, Modulus, 0, x);
    }
  }

  lemma AndLowStep(x: nat, h: nat)
    requires x > 0 && h > 0
    requires And(x / 2, Pow2(h - 1) - 1) == (x / 2) % Pow2(h - 1)
    ensures And(x, Pow2(h) - 1) == x % Pow2(h)
  {
    var p, q := Pow2(h - 1), Pow2(h);
    assert q == 2 * p;
    AndOddStep(x, p);
    ModHalf(x, p);
  }

  /** One bit of `x & (2p - 1)`: the mask's low bit is set. */
  lemma AndOddStep(x: nat, p: nat)
    requires x > 0 && p >= 1
    ensures And(x, 2 * p - 1) == 2 * And(x / 2, p - 1) + x % 2
  {
    var m := 2 * p - 1;
    assert m % 2 == 1 && m / 2 == p - 1;
  }

  /** One bit of `m & x` for an even mask `m`. */
  lemma AndEvenStep(m: nat, x: nat)
    requires m % 2 == 0
    ensures And(m, x) == 2 * And(m / 2, x / 2)
  {
  }

  lemma HalfMask(n: nat, h: nat)
    requires 0 < h < n
    ensures Pow2(h) < Pow2(n)
    ensures Pow2(h - 1) <= Pow2(n - 1)
    ensures (Pow2(n) - Pow2(h)) % 2 == 0
    ensures (Pow2(n) - Pow2(h)) / 2 == Pow2(n - 1) - Pow2(h - 1)
  {
    var a, b := Pow2(n - 1), Pow2(h - 1);
    assert Pow2(n) == 2 * a && Pow2(h) == 2 * b;
    Pow2Mono(h - 1, n - 1);
    Pow2Mono(h, n - 1);
  }

  lemma HalfStep(x: nat, m: nat)
    requires m > 0
    ensures 2 * (x / 2 - (x / 2) % m) == x - x % (2 * m)
  {
    ModHalf(x, m);
  }

  /** Masking an n-bit number with the high `n - h` bits clears its low `h` bits. */
  lemma {:induction false} AndHigh(x: nat, n: nat, h: nat)
    requires h <= n && Pow2(h) <= Pow2(n) && x < Pow2(n)
    ensures And(Pow2(n) - Pow2(h), x) == x - x % Pow2(h)
  {
    if h == 0 {
      AndHighFull(x, n, h);
    } else if h == n {
      AndHighNone(x, n, h);
    } else {
      HalfMask(n, h);
      HalfBelow(x, n);
      AndHigh(x / 2, n - 1, h - 1);
      AndHighStep(x, n, h);
    }
  }

  lemma HalfBelow(x: nat, n: nat)
    requires n > 0 && x < Pow2(n)
    ensures x / 2 < Pow2(n - 1)
  {
  }

  lemma AndHighFull(x: nat, n: nat, h: nat)
    requires h == 0 && x < Pow2(n)
    ensures And(Pow2(n) - Pow2(h), x) == x - x % Pow2(h)
  {
    AndComm(Pow2(n) - 1, x);
    AndLow(x, n);
    DivModUnique(x, Pow2(n), 0, x);
    DivModUnique(x, 1, x, 0);
  }

  lemma AndHighNone(x: nat, n: nat, h: nat)
    requires h == n && x < Pow2(n)
    ensures And(Pow2(n) - Pow2(h), x) == x - x % Pow2(h)
  {
    DivModUnique(x, Pow2(n), 0, x);
  }

  lemma AndHighStep(x: nat, n: nat, h: nat)
    requires 0 < h < n && Pow2(h - 1) <= Pow2(n - 1)
    requires And(Pow2(n - 1) - Pow2(h - 1), x / 2) == x / 2 - (x / 2) % Pow2(h - 1)
    ensures And(Pow2(n) - Pow2(h), x) == x - x % Pow2(h)
  {
    var m, p := Pow2(n) - Pow2(h), Pow2(h - 1);
    HalfMask(n, h);
    AndEvenStep(m, x);
    HalfStep(x, p);
    assert Pow2(h) == 2 * p;
  }

  /** Or-ing a multiple of 2^h with a number below 2^h is addition. */
  lemma {:induction false} OrSplit(a: nat, b: nat, h: nat)
    requires a % Pow2(h) == 0 && b < Pow2(h)
    ensures Or(a, b) == a + b
  {
    if h > 0 && a != 0 && b != 0 {
      ModHalf(a, Pow2(h - 1));
      OrSplit(a / 2, b / 2, h - 1);
    }
  }

  /** Or-ing two numbers below 2^h stays below 2^h. */
  lemma {:induction false} OrBelow(a: nat, b: nat, h: nat)
    requires a < Pow2(h) && b < Pow2(h)
    ensures Or(a, b) < Pow2(h)
  {
    if a != 0 && b != 0 {
      HalfBelow(a, h);
      HalfBelow(b, h);
      OrBelow(a / 2, b / 2, h - 1);
      OrBelowStep(a, b, h);
    }
  }

  lemma OrBelowStep(a: nat, b: nat, h: nat)
    requires h > 0 && a != 0 && b != 0 && Or(a / 2, b / 2) < Pow2(h - 1)
    ensures Or(a, b) < Pow2(h)
  {
  }

  /** The difference of two multiples of `p` is a multiple of `p`. */
  lemma MultipleDiff(a: int, b: int, p: int)
    requires p > 0 && a % p == 0 && b % p == 0
    ensures (a - b) % p == 0
  {
    var i, j := a / p, b / p;
    assert a == p * i && b == p * j;
    assert a - b == p * (i - j);
    DivModUnique(a - b, p, i - j, 0);
  }

  /** The sum of two multiples of `p` is a multiple of `p`. */
  lemma MultipleSum(a: int, b: int, p: int)
    requires p > 0 && a % p == 0 && b % p == 0
    ensures (a + b) % p == 0
  {
    var i, j := a / p, b / p;
    assert a == p * i && b == p * j;
    assert a + b == p * (i + j);
    DivModUnique(a + b, p, i + j, 0);
  }

  /** The remainder of a multiple of `p` by a multiple of `p` is a multiple of `p`. */
  lemma RemainderMultiple(a: int, s: int, p: int)
    requires p > 0 && s > 0 && s % p == 0 && a % p == 0
    ensures (a % s) % p == 0
  {
    var q := a / s;
    assert a % s == a - s * q;
    MultipleOfMultiple(s, q, p);
    MultipleDiff(a, s * q, p);
  }

  /** Moving an address aligned to `so` to the same offset inside another block of the
      larger size `s` moves it by a multiple of `so`. */
  lemma AlignedShift(na: int, oa: int, s: int, so: int)
    requires s > 0 && so > 0 && s % so == 0 && na % s == 0 && oa % so == 0
    ensures (na + oa % s - oa) % so == 0
  {
    MultipleNest(na, s, so);
    RemainderMultiple(oa, s, so);
    MultipleSum(na, oa % s, so);
    MultipleDiff(na + oa % s, oa, so);
  }

  /** A multiple of a multiple of `p` is a multiple of `p`. */
  lemma MultipleOfMultiple(s: int, k: int, p: int)
    requires p > 0 && s % p == 0
    ensures (s * k) % p == 0
  {
    var c := s / p;
    assert s == p * c;
    assert s * k == p * (c * k);
    DivModUnique(s * k, p, c * k, 0);
  }

  /** An offset inside a small aligned block carries over to the remainder by a larger
      block size that the small one divides. */
  lemma ModInBlock(a: int, off: int, so: int, s: int)
    requires so > 0 && s > 0 && s % so == 0 && a % so == 0 && 0 <= off < so
    ensures (a + off) % s == a % s + off
  {
    var q := a / s;
    var r := a % s;
    assert a == s * q + r;
    MultipleOfMultiple(s, q, so);
    MultipleDiff(a, s * q, so);
    AlignedGap(r, s, so);
    DivModUnique(a + off, s, q, r + off);
  }
}

=== FILE: netmask.dfy ===
/** IPv4 netmasks: the 33 legal bit patterns, prefix lengths and block sizes.

    Source: `plen2int`, `valid_masks`/`isIntValidNetmask` and class `Netmask` in
    src/ipcidrtree/__init__.py.
 */
module Netmasks {
  import opened Bits
  import opened Wrappers

  /** The library's table of legal masks, longest first: entry `k` has `32 - k`
      leading one-bits. */
  const ValidMasks: seq<int> := [
      4294967295, 4294967294, 4294967292, 4294967288,
      4294967280, 4294967264, 4294967232, 4294967168,
      4294967040, 4294966784, 4294966272, 4294965248,
      4294963200, 4294959104, 4294950912, 4294934528,
      4294901760, 4294836224, 4294705152, 4294443008,
      4293918720, 4292870144, 4290772992, 4286578688,
      4278190080, 4261412864, 4227858432, 4160749568,
      4026531840, 3758096384, 3221225472, 2147483648,
      0
    ]

  /** `plen2int`: the mask with `plen` leading one-bits. */
  function PlenToInt(plen: nat): int
    requires plen <= 32
  {
    (Pow2(plen) - 1) * Pow2(32 - plen)
  }

  /** `isIntValidNetmask`: membership in the table. */
  predicate IsIntValidNetmask(i: int)
  {
    i in ValidMasks
  }

  /** A power of two, tested by halving. */
  predicate IsPow2(n: nat)
  {
    if n <= 1 then n == 1 else n % 2 == 0 && IsPow2(n / 2)
  }

  /** The shape of a legal mask: 2^32 minus a power of two no larger than 2^32.
      `MaskTableShape` shows this is exactly membership in the table. */
  predicate IsMaskShape(m: int)
  {
    0 <= m < Modulus && IsPow2(Modulus - m)
  }

  /** The integer a `Netmask` object holds; its `_set_int` admits nothing else. */
  type Mask = m: nat | IsMaskShape(m) witness 0xFFFF_FFFF

  /** The all-ones mask, `Netmask(32)`, which the library gives a prefix built without one. */
  const HostOnly: Mask := 0xFFFF_FFFF

  /** `_bits32(~mask)`: the host-bit part of a mask. */
  function HostMask(m: int): nat
  {
    Bits32(Invert(m))
  }

  /** Integer base-2 logarithm, rounded down. */
  function Log2(n: nat): nat
  {
    if n <= 1 then 0 else 1 + Log2(n / 2)
  }

  /** `Netmask.prefix_len`: `32 - log2(_bits32(~mask) + 1)`. The library computes the
      logarithm in floating point and truncates it; here it is exact.  The result is the
      one length whose `plen2int` is this mask. */
  function PrefixLen(m: Mask): (plen: nat)
    ensures plen <= 32 && m == Modulus - Pow2(32 - plen)
  {
    MaskLog(m);
    32 - Log2(HostMask(m) + 1)
  }

  /** `Netmask.netsize`: the number of addresses a block with this mask holds, which is
      one more than the largest host part the mask leaves free. */
  function Netsize(m: Mask): (n: nat)
    ensures n == HostMask(m) + 1
    ensures m + n == Modulus
  {
    MaskLog(m);
    Pow2(32 - PrefixLen(m))
  }

  /** `Netmask(val)`: an integer in 0..32 is a prefix length and goes through
      `plen2int`; the result (or any other integer) must be one of the 33 legal masks. */
  function NewNetmask(val: int): (r: Result<Mask>)
    ensures r.Ok? <==> (0 <= val <= 32 || IsIntValidNetmask(val))
    ensures r.Ok? && 0 <= val <= 32 ==> PrefixLen(r.value) == val
    ensures r.Ok? && val > 32 ==> r.value == val
    ensures r.Err? ==> r.fault == InvalidNetmask
  {
    LengthAsMask(val);
    var v := if 0 <= val <= 32 then PlenToInt(val) else val;
    MaskTableShape(v);
    if IsIntValidNetmask(v) then Ok(v) else Err(InvalidNetmask)
  }

  /** `Netmask(plen)` for a length the caller knows to be in range. */
  function MaskOfLen(plen: nat): (m: Mask)
    requires plen <= 32
    ensures m == PlenToInt(plen)
    ensures IsIntValidNetmask(m)
  {
    PlenToIntShape(plen);
    ShapeOfPow2(PlenToInt(plen), 32 - plen);
    MaskTableShape(PlenToInt(plen));
    PlenToInt(plen)
  }

  // ---------------------------------------------------------------------------

  /** Each entry of the table is twice the one before, less 2^32. */
  lemma TableStep(k: nat)
    requires k < 32
    ensures ValidMasks[k + 1] == 2 * ValidMasks[k] - Modulus
  {
    if k < 8 {
      TableStepFrom0(k);
    } else if k < 16 {
      TableStepFrom8(k);
    } else if k < 24 {
      TableStepFrom16(k);
    } else {
      TableStepFrom24(k);
    }
  }

  lemma TableStepFrom0(k: nat)
    requires 0 <= k < 8
    ensures ValidMasks[k + 1] == 2 * ValidMasks[k] - Modulus
  {
    match k
      case 0 => assert ValidMasks[1] == 4294967294 && ValidMasks[0] == 4294967295;
      case 1 => assert ValidMasks[2] == 4294967292 && ValidMasks[1] == 4294967294;
      case 2 => assert ValidMasks[3] == 4294967288 && ValidMasks[2] == 4294967292;
      case 3 => assert ValidMasks[4] == 4294967280 && ValidMasks[3] == 4294967288;
      case 4 => assert ValidMasks[5] == 4294967264 && ValidMasks[4] == 4294967280;
      case 5 => assert ValidMasks[6] == 4294967232 && ValidMasks[5] == 4294967264;
      case 6 => assert ValidMasks[7] == 4294967168 && ValidMasks[6] == 4294967232;
      case 7 => assert ValidMasks[8] == 4294967040 && ValidMasks[7] == 4294967168;
  }

  lemma TableStepFrom8(k: nat)
    requires 8 <= k < 16
    ensures ValidMasks[k + 1] == 2 * ValidMasks[k] - Modulus
  {
    match k
      case 8 => assert ValidMasks[9] == 4294966784 && ValidMasks[8] == 4294967040;
      case 9 => assert ValidMasks[10] == 4294966272 && ValidMasks[9] == 4294966784;
      case 10 => assert ValidMasks[11] == 4294965248 && ValidMasks[10] == 4294966272;
      case 11 => assert ValidMasks[12] == 4294963200 && ValidMasks[11] == 4294965248;
      case 12 => assert ValidMasks[13] == 4294959104 && ValidMasks[12] == 4294963200;
      case 13 => assert ValidMasks[14] == 4294950912 && ValidMasks[13] == 4294959104;
      case 14 => assert ValidMasks[15] == 4294934528 && ValidMasks[14] == 4294950912;
      case 15 => assert ValidMasks[16] == 4294901760 && ValidMasks[15] == 4294934528;
  }

  lemma TableStepFrom16(k: nat)
    requires 16 <= k < 24
    ensures ValidMasks[k + 1] == 2 * ValidMasks[k] - Modulus
  {
    match k
      case 16 => assert ValidMasks[17] == 4294836224 && ValidMasks[16] == 4294901760;
      case 17 => assert ValidMasks[18] == 4294705152 && ValidMasks[17] == 4294836224;
      case 18 => assert ValidMasks[19] == 4294443008 && ValidMasks[18] == 4294705152;
      case 19 => assert ValidMasks[20] == 4293918720 && ValidMasks[19] == 4294443008;
      case 20 => assert ValidMasks[21] == 4292870144 && ValidMasks[20] == 4293918720;
      case 21 => assert ValidMasks[22] == 4290772992 && ValidMasks[21] == 4292870144;
      case 22 => assert ValidMasks[23] == 4286578688 && ValidMasks[22] == 4290772992;
      case 23 => assert ValidMasks[24] == 4278190080 && ValidMasks[23] == 4286578688;
  }

  lemma TableStepFrom24(k: nat)
    requires 24 <= k < 32
    ensures ValidMasks[k + 1] == 2 * ValidMasks[k] - Modulus
  {
    match k
      case 24 => assert ValidMasks[25] == 4261412864 && ValidMasks[24] == 4278190080;
      case 25 => assert ValidMasks[26] == 4227858432 && ValidMasks[25] == 4261412864;
      case 26 => assert ValidMasks[27] == 4160749568 && ValidMasks[26] == 4227858432;
      case 27 => assert ValidMasks[28] == 4026531840 && ValidMasks[27] == 4160749568;
      case 28 => assert ValidMasks[29] == 3758096384 && ValidMasks[28] == 4026531840;
      case 29 => assert ValidMasks[30] == 3221225472 && ValidMasks[29] == 3758096384;
      case 30 => assert ValidMasks[31] == 2147483648 && ValidMasks[30] == 3221225472;
      case 31 => assert ValidMasks[32] == 0 && ValidMasks[31] == 2147483648;
  }

  /** Entry `k` of the table is 2^32 - 2^k. */
  lemma {:induction false} TableShape(k: nat)
    requires k <= 32
    ensures ValidMasks[k] == Modulus - Pow2(k)
  {
    if k == 0 {
      assert ValidMasks[0] == 4294967295;
    } else {
      TableShape(k - 1);
      TableStep(k - 1);
    }
  }

  lemma PlenToIntShape(plen: nat)
    requires plen <= 32
    ensures PlenToInt(plen) == Modulus - Pow2(32 - plen)
  {
    var a, b := Pow2(plen), Pow2(32 - plen);
    Pow2Add(plen, 32 - plen);
    assert plen + (32 - plen) == 32;
    Pow2Of32();
    assert a * b == Modulus;
    MulSubOne(a, b);
  }

  lemma {:induction false} Pow2IsPow2(k: nat)
    ensures IsPow2(Pow2(k))
  {
    if k > 0 {
      Pow2IsPow2(k - 1);
      assert Pow2(k) / 2 == Pow2(k - 1);
    }
  }

  lemma {:induction false} IsPow2Log(n: nat)
    requires IsPow2(n)
    ensures n == Pow2(Log2(n))
  {
    if n > 1 {
      IsPow2Log(n / 2);
    }
  }

  /** Every 2^32 - 2^k with `k` in 0..32 has the shape of a legal mask. */
  lemma ShapeOfPow2(m: int, k: nat)
    requires k <= 32
    ensures m == Modulus - Pow2(k) ==> IsMaskShape(m)
  {
    if m == Modulus - Pow2(k) {
      Pow2Mono(k, 32);
      Pow2Of32();
      Pow2IsPow2(k);
    }
  }

  lemma MaskShapeLog(m: int) returns (k: nat)
    requires IsMaskShape(m)
    ensures k <= 32 && m == Modulus - Pow2(k) && k == Log2(Modulus - m)
  {
    k := Log2(Modulus - m);
    IsPow2Log(Modulus - m);
    Pow2Of32();
    if k > 32 {
      Pow2Mono(33, k);
      assert false;
    }
  }

  /** The table holds exactly the integers 2^32 - 2^k, k in 0..32. */
  lemma MaskTableShape(i: int)
    ensures IsIntValidNetmask(i) <==> IsMaskShape(i)
  {
    if IsIntValidNetmask(i) {
      var k := IndexIn(ValidMasks, i);
      TableShape(k);
      ShapeOfPow2(i, k);
    }
    if IsMaskShape(i) {
      var k := MaskShapeLog(i);
      TableShape(k);
      assert ValidMasks[k] == i;
    }
  }

  lemma {:induction false} Log2Pow2(k: nat)
    ensures Log2(Pow2(k)) == k
  {
    if k > 0 {
      Log2Pow2(k - 1);
    }
  }

  lemma IndexIn(s: seq<int>, x: int) returns (k: nat)
    requires x in s
    ensures k < |s| && s[k] == x
  {
    k :| 0 <= k < |s| && s[k] == x;
  }

  lemma MaskLog(m: Mask)
    ensures HostMask(m) + 1 == Pow2(Log2(HostMask(m) + 1))
    ensures Log2(HostMask(m) + 1) <= 32
    ensures m == Modulus - Pow2(Log2(HostMask(m) + 1))
  {
    var k := MaskShapeLog(m);
    Pow2Mono(k, 32);
    Pow2Of32();
    DivModUnique(Invert(m), Modulus, -1, Pow2(k) - 1);
    assert HostMask(m) + 1 == Pow2(k);
    Log2Pow2(k);
  }

  /** `Netmask(p).prefix_len()` returns `p`. */
  lemma PrefixLenOfPlen(plen: nat)
    requires plen <= 32
    ensures PrefixLen(MaskOfLen(plen)) == plen
  {
    var m := MaskOfLen(plen);
    var k: nat := 32 - plen;
    PlenToIntShape(plen);
    assert m == Modulus - Pow2(k);
    var n := Netsize(m);
    assert HostMask(m) + 1 == Pow2(k);
    Log2Pow2(k);
  }

  lemma LengthAsMask(val: int)
    ensures 0 <= val <= 32 ==> IsIntValidNetmask(PlenToInt(val)) && PrefixLen(MaskOfLen(val)) == val
  {
    if 0 <= val <= 32 {
      PrefixLenOfPlen(val);
    }
  }

  /** A mask is determined by its prefix length. */
  lemma PrefixLenInjective(m1: Mask, m2: Mask)
    ensures PrefixLen(m1) == PrefixLen(m2) <==> m1 == m2
  {}

  // ---------------------------------------------------------------------------
  // Block sizes and the bit operations on masks, as arithmetic

  lemma PowDivides(i: nat, j: nat, x: nat, y: nat)
    requires i <= j && x == Pow2(i) && y == Pow2(j)
    ensures x <= y && y % x == 0
  {
    Pow2Mono(i, j);
  }

  lemma NetsizeIsPow2(m: Mask)
    ensures Netsize(m) == Pow2(32 - PrefixLen(m))
    ensures HostMask(m) == Netsize(m) - 1
  {
  }

  /** A shorter mask's block size is a multiple of a longer mask's. */
  lemma NetsizeDivides(a: Mask, b: Mask)
    requires PrefixLen(a) <= PrefixLen(b)
    ensures Netsize(b) <= Netsize(a) && Netsize(a) % Netsize(b) == 0
  {
    var i: nat, j: nat := 32 - PrefixLen(b), 32 - PrefixLen(a);
    var sa, sb := Netsize(a), Netsize(b);
    assert sa == Pow2(j) && sb == Pow2(i);
    PowDivides(i, j, sb, sa);
  }

  /** Every block size divides the size of the address space. */
  lemma NetsizeDividesSpace(m: Mask)
    ensures Netsize(m) <= Modulus && Modulus % Netsize(m) == 0
  {
    var i: nat := 32 - PrefixLen(m);
    var s := Netsize(m);
    assert s == Pow2(i);
    Pow2Of32();
    PowDivides(i, 32, s, Modulus);
  }

  /** `x & mask` rounds `x` down to a multiple of the block size. */
  lemma MaskRoundsDown(m: Mask, x: nat)
    requires x < Modulus
    ensures And(m, x) == x - x % Netsize(m)
  {
    var h: nat := 32 - PrefixLen(m);
    var s := Netsize(m);
    assert s == Pow2(h);
    Pow2Of32();
    PowDivides(h, 32, s, Pow2(32));
    AndHigh(x, 32, h);
  }

  /** `x & ~mask` (within 32 bits) keeps the remainder modulo the block size. */
  lemma HostBitsAreRemainder(x: nat, m: Mask)
    ensures And(x, HostMask(m)) == x % Netsize(m)
  {
    var h: nat := 32 - PrefixLen(m);
    var hm, n := HostMask(m), Netsize(m);
    assert hm == Pow2(h) - 1 && n == Pow2(h) by { NetsizeIsPow2(m); }
    AndLow(x, h);
  }
}

=== FILE: prefix.dfy ===
/** IPv4 prefixes: an address together with a netmask, class `Prefix` in
    src/ipcidrtree/__init__.py.  This module holds the construction check and the
    containment test, and the facts about blocks of addresses that the other prefix
    operations and the tree rely on.
 */
module Prefixes {
  import opened Bits
  import opened Wrappers
  import opened Netmasks
  import opened Addresses

  datatype Prefix = Prefix(addr: Addr, mask: Mask)

  /** The prefix length, `netmask.prefix_len()`. */
  function Len(p: Prefix): nat
  {
    PrefixLen(p.mask)
  }

  /** `len(prefix)`: the number of addresses in the block. */
  function Size(p: Prefix): nat
  {
    Netsize(p.mask)
  }

  /** `ishost`: a /32. */
  predicate IsHost(p: Prefix)
  {
    Len(p) == 32
  }

  /** The last address of the block (the broadcast address), as an integer. */
  function Last(p: Prefix): int
  {
    p.addr + Size(p) - 1
  }

  /** The invariant `Prefix.__init__` enforces: no host bit of the address is set. */
  predicate Valid(p: Prefix)
  {
    And(p.addr, HostMask(p.mask)) == 0
  }

  function MaskOrHost(netmask: Option<Mask>): Mask
  {
    if netmask.Some? then netmask.value else HostOnly
  }

  /** `Prefix(address, netmask)` from integers: the address is range-checked, a missing
      netmask means /32, and construction fails exactly when the address is not the
      first address of a block of the mask's size. */
  function NewPrefix(address: int, netmask: Option<Mask>): (r: Result<Prefix>)
    ensures r.Ok? <==> 0 <= address <= MaxAddress && address % Netsize(MaskOrHost(netmask)) == 0
    ensures r.Ok? ==> r.value.addr == address && r.value.mask == MaskOrHost(netmask)
    ensures r.Ok? ==> Valid(r.value)
    ensures r.Err? ==> (r.fault == RangeError <==> !(0 <= address <= MaxAddress))
    ensures r.Err? ==> r.fault in {RangeError, InvalidPrefix}
  {
    var m := MaskOrHost(netmask);
    match NewAddress(address)
    case Err(f) => Err(f)
    case Ok(a) =>
      HostBitsAreRemainder(a, m);
      if And(a, HostMask(m)) != 0 then Err(InvalidPrefix) else Ok(Prefix(a, m))
  }

  /** `other in self` for two prefixes: the other prefix is strictly longer, and its
      address under this prefix's mask is this prefix's address. */
  predicate Contains(outer: Prefix, inner: Prefix)
  {
    Len(inner) > Len(outer) && And(outer.mask, inner.addr) == outer.addr
  }

  /** `address in prefix`: the address is first turned into a /32 prefix. */
  predicate ContainsAddress(p: Prefix, x: Addr)
  {
    Contains(p, Prefix(x, HostOnly))
  }

  /** Contained or equal: the relation between a node and everything in its subtree. */
  predicate Covers(outer: Prefix, inner: Prefix)
  {
    outer == inner || Contains(outer, inner)
  }

  // ---------------------------------------------------------------------------
  // Masks as arithmetic

  /** A shorter prefix's block size is a multiple of a longer one's. */
  lemma SizeDivides(a: Prefix, b: Prefix)
    requires Len(a) <= Len(b)
    ensures Size(b) <= Size(a) && Size(a) % Size(b) == 0
  {
    NetsizeDivides(a.mask, b.mask);
  }

  lemma SameLenSameMask(a: Prefix, b: Prefix)
    requires Len(a) == Len(b)
    ensures a.mask == b.mask && Size(a) == Size(b)
  {
    PrefixLenInjective(a.mask, b.mask);
  }

  /** `mask & x` rounds `x` down to the start of its block. */
  lemma NetworkBits(p: Prefix, x: Addr)
    ensures And(p.mask, x) == x - x % Size(p)
  {
    MaskRoundsDown(p.mask, x);
  }

  lemma ValidIffAligned(p: Prefix)
    ensures Valid(p) <==> p.addr % Size(p) == 0
  {
    HostBitsAreRemainder(p.addr, p.mask);
  }

  /** A valid block lies inside the address space. */
  lemma BlockFits(p: Prefix)
    requires Valid(p)
    ensures p.addr + Size(p) <= Modulus
  {
    ValidIffAligned(p);
    NetsizeDividesSpace(p.mask);
    AlignedGap(p.addr, Modulus, Size(p));
  }

  lemma HostOnlyLen()
    ensures PrefixLen(HostOnly) == 32
  {
    PrefixLenOfPlen(32);
  }

  /** Every /32 prefix is valid and holds one address. */
  lemma HostPrefix(x: Addr)
    ensures Len(Prefix(x, HostOnly)) == 32 && Size(Prefix(x, HostOnly)) == 1
    ensures Valid(Prefix(x, HostOnly))
  {
    HostOnlyLen();
    assert Size(Prefix(x, HostOnly)) == Pow2(0);
    ValidIffAligned(Prefix(x, HostOnly));
  }

  // ---------------------------------------------------------------------------
  // Containment

  /** Containment read as arithmetic: the inner address rounded down to the outer
      block size is the outer address. */
  lemma ContainsArith(outer: Prefix, inner: Prefix)
    ensures Contains(outer, inner) <==>
      Len(inner) > Len(outer) && inner.addr - inner.addr % Size(outer) == outer.addr
  {
    NetworkBits(outer, inner.addr);
  }

  /** Only a valid prefix can contain anything. */
  lemma ContainerValid(outer: Prefix, inner: Prefix)
    requires Contains(outer, inner)
    ensures Valid(outer)
  {
    ContainsArith(outer, inner);
    RoundDown(inner.addr, Size(outer));
    ValidIffAligned(outer);
  }

  /** For a valid outer prefix, containment is: strictly longer, and the inner address
      lies in the outer block. */
  lemma ContainsInterval(outer: Prefix, inner: Prefix)
    requires Valid(outer)
    ensures Contains(outer, inner) <==>
      Len(inner) > Len(outer) && outer.addr <= inner.addr < outer.addr + Size(outer)
  {
    ContainsArith(outer, inner);
    ValidIffAligned(outer);
    RoundDownIff(inner.addr, outer.addr, Size(outer));
  }

  /** A valid contained block lies wholly inside the containing block. */
  lemma ContainsSubBlock(outer: Prefix, inner: Prefix)
    requires Contains(outer, inner) && Valid(inner)
    ensures outer.addr <= inner.addr && Last(inner) <= Last(outer)
  {
    ContainerValid(outer, inner);
    ContainsInterval(outer, inner);
    SizeDivides(outer, inner);
    ValidIffAligned(outer);
    ValidIffAligned(inner);
    AlignedInside(outer.addr, Size(outer), inner.addr, Size(inner));
  }

  /** Containment is a strict partial order: irreflexive, asymmetric and transitive. */
  lemma ContainsStrictOrder(a: Prefix, b: Prefix, c: Prefix)
    ensures !Contains(a, a)
    ensures Contains(a, b) ==> !Contains(b, a)
    ensures Contains(a, b) && Contains(b, c) ==> Contains(a, c)
  {
    if Contains(a, b) && Contains(b, c) {
      ContainerValid(a, b);
      ContainerValid(b, c);
      ContainsSubBlock(a, b);
      ContainsInterval(b, c);
      ContainsInterval(a, c);
    }
  }

  lemma ContainsTransitive(a: Prefix, b: Prefix, c: Prefix)
    requires Contains(a, b) && Contains(b, c)
    ensures Contains(a, c)
  {
    ContainsStrictOrder(a, b, c);
  }

  lemma CoversTransitive(a: Prefix, b: Prefix, c: Prefix)
    requires Covers(a, b) && Covers(b, c)
    ensures Covers(a, c)
  {
    if a != b && b != c {
      ContainsTransitive(a, b, c);
    }
  }

  /** A bare address is in a valid prefix exactly when the prefix is not a /32 and the
      address lies in its block. */
  lemma ContainsAddressIff(p: Prefix, x: Addr)
    requires Valid(p)
    ensures ContainsAddress(p, x) <==> !IsHost(p) && p.addr <= x <= Last(p)
  {
    HostPrefix(x);
    ContainsInterval(p, Prefix(x, HostOnly));
  }

  /** Two prefixes that both cover a third are equal or nested: CIDR blocks never
      partially overlap. */
  lemma CommonCover(a: Prefix, b: Prefix, x: Prefix)
    requires Covers(a, x) && Covers(b, x)
    ensures a == b || Contains(a, b) || Contains(b, a)
  {
    if a == x || b == x {
    } else if Len(a) <= Len(b) {
      CommonCoverOrdered(a, b, x);
    } else {
      CommonCoverOrdered(b, a, x);
    }
  }

  lemma CommonCoverOrdered(a: Prefix, b: Prefix, x: Prefix)
    requires Contains(a, x) && Contains(b, x) && Len(a) <= Len(b)
    ensures a == b || Contains(a, b)
  {
    ContainsArith(a, x);
    ContainsArith(b, x);
    SizeDivides(a, b);
    var sa, sb := Size(a), Size(b);
    if Len(a) == Len(b) {
      SameLenSameMask(a, b);
    } else {
      RoundDownTwice(x.addr, b.addr, sa, sb);
      ContainsArith(a, b);
    }
  }

  /** Two valid prefixes are equal, nested, or their blocks are disjoint. */
  lemma NestedOrDisjoint(a: Prefix, b: Prefix)
    requires Valid(a) && Valid(b)
    ensures a == b || Contains(a, b) || Contains(b, a) || Last(a) < b.addr || Last(b) < a.addr
  {
    if Len(a) <= Len(b) {
      NestedOrDisjointOrdered(a, b);
    } else {
      NestedOrDisjointOrdered(b, a);
    }
  }

  lemma NestedOrDisjointOrdered(a: Prefix, b: Prefix)
    requires Valid(a) && Valid(b) && Len(a) <= Len(b)
    ensures a == b || Contains(a, b) || Last(a) < b.addr || Last(b) < a.addr
  {
    SizeDivides(a, b);
    ValidIffAligned(a);
    ValidIffAligned(b);
    ContainsInterval(a, b);
    if a.addr <= b.addr < a.addr + Size(a) {
      if Len(a) == Len(b) {
        SameLenSameMask(a, b);
        if a.addr < b.addr {
          AlignedGap(a.addr, b.addr, Size(a));
        }
      }
    } else if b.addr < a.addr {
      MultipleNest(a.addr, Size(a), Size(b));
      AlignedGap(b.addr, a.addr, Size(b));
    }
  }

  /** A prefix is determined by its last address and its length. */
  lemma LastAndLenDetermine(a: Prefix, b: Prefix)
    requires Last(a) == Last(b) && Len(a) == Len(b)
    ensures a == b
  {
    SameLenSameMask(a, b);
  }
}

=== FILE: prefix_index.dfy ===
/** A prefix used as a list of its addresses: `_index_ok`, `__getitem__` with an
    integer, `_int_slice`, `network`, `broadcast` and `hosts` of class `Prefix` in
    src/ipcidrtree/__init__.py.  Every element is a /32 prefix.
 */
module PrefixIndex {
  import opened Wrappers
  import opened Netmasks
  import opened Addresses
  import opened Prefixes

  /** Python's `sys.maxsize` on a 64-bit build: an omitted slice end used to arrive
      as this value. */
  const MaxSize: int := 0x7FFF_FFFF_FFFF_FFFF

  /** `_index_ok`: a list index into the block, negative indices counting from the end. */
  predicate IndexOk(p: Prefix, i: int)
  {
    if i < 0 then -i <= Size(p) else i < Size(p)
  }

  /** The /32 prefix of one address. */
  function Host(x: Addr): Prefix
  {
    Prefix(x, HostOnly)
  }

  /** `prefix[i]` for an integer `i`. */
  function GetItem(p: Prefix, i: int): (r: Result<Prefix>)
    ensures !IndexOk(p, i) ==> r == Err(IndexError)
    ensures r.Ok? ==> IsHost(r.value)
  {
    if !IndexOk(p, i) then Err(IndexError)
    else
      HostOnlyLen();
      NewPrefix(if i < 0 then p.addr + Size(p) + i else p.addr + i, None)
  }

  /** `network()`: `prefix[0]`, which for a valid prefix is its first address. */
  function Network(p: Prefix): (r: Result<Prefix>)
    ensures Valid(p) ==> r.Ok? && r.value.addr == p.addr && IsHost(r.value)
  {
    if Valid(p) then
      GetItemValue(p, 0);
      GetItem(p, 0)
    else
      GetItem(p, 0)
  }

  /** `broadcast()`: `prefix[-1]`, which for a valid prefix is its last address. */
  function Broadcast(p: Prefix): (r: Result<Prefix>)
    ensures Valid(p) ==> r.Ok? && r.value.addr == Last(p) && IsHost(r.value)
  {
    if Valid(p) then
      GetItemValue(p, -1);
      GetItem(p, -1)
    else
      GetItem(p, -1)
  }

  /** Element `k` of a valid prefix read as a list: the address `k` places from its
      start, for `0 <= k < Size(p)`. */
  lemma GetItemValue(p: Prefix, i: int)
    requires Valid(p)
    ensures GetItem(p, i).Ok? <==> IndexOk(p, i)
    ensures IndexOk(p, i) && i >= 0 ==> GetItem(p, i).value.addr == p.addr + i
    ensures IndexOk(p, i) && i < 0 ==> GetItem(p, i).value.addr == p.addr + Size(p) + i
    ensures IndexOk(p, i) ==> p.addr <= GetItem(p, i).value.addr <= Last(p)
  {
    BlockFits(p);
    HostPrefix(0);
  }

  /** A negative index names the same address as the non-negative one `Size(p)` above it. */
  lemma NegativeIndexFromEnd(p: Prefix, i: int)
    requires 0 <= i < Size(p)
    ensures GetItem(p, i - Size(p)) == GetItem(p, i)
  {
  }

  /** The network address is the prefix's own address and the broadcast address its
      last, both as /32 prefixes; both lie in the block. */
  lemma NetworkAndBroadcast(p: Prefix)
    requires Valid(p)
    ensures Network(p) == Ok(Host(p.addr))
    ensures Broadcast(p).Ok? && Broadcast(p).value.addr == Last(p)
    ensures Broadcast(p) == Ok(Host(Broadcast(p).value.addr))
    ensures Covers(p, Network(p).value) && Covers(p, Broadcast(p).value)
  {
    GetItemValue(p, 0);
    GetItemValue(p, -1);
    ElementCovered(p, p.addr);
    ElementCovered(p, Last(p));
  }

  /** Every /32 inside the block is covered by the prefix: contained, or the prefix
      itself when it is a /32. */
  lemma ElementCovered(p: Prefix, x: Addr)
    requires Valid(p) && p.addr <= x <= Last(p)
    ensures Covers(p, Host(x))
  {
    HostPrefix(x);
    ContainsAddressIff(p, x);
    if IsHost(p) {
      SameLenSameMask(p, Host(x));
    }
  }

  // ---------------------------------------------------------------------------
  // Slices

  /** Python's `range(start, stop, step)` for a non-zero step. */
  function PyRange(start: int, stop: int, step: int): (r: seq<int>)
    requires step != 0
    ensures forall k :: 0 <= k < |r| ==> r[k] == start + k * step
    ensures step > 0 ==> forall k :: 0 <= k < |r| ==> start <= r[k] < stop
    ensures step < 0 ==> forall k :: 0 <= k < |r| ==> stop < r[k] <= start
    ensures step > 0 && start < stop ==> |r| > 0 && start + (|r| - 1) * step < stop <= start + |r| * step
    ensures step < 0 && start > stop ==> |r| > 0 && start + (|r| - 1) * step > stop >= start + |r| * step
    ensures (step > 0 && start >= stop) || (step < 0 && start <= stop) ==> r == []
    ensures step == 1 ==> |r| == if start < stop then stop - start else 0
    decreases if step > 0 then stop - start else start - stop
  {
    if (step > 0 && start < stop) || (step < 0 && start > stop) then
      var rest := PyRange(start + step, stop, step);
      assert (start + step) + |rest| * step == start + (|rest| + 1) * step;
      assert |rest| > 0 ==> (start + step) + (|rest| - 1) * step == start + |rest| * step;
      [start] + rest
    else
      []
  }

  /** The loop body of `_int_slice` over a list of indices: indices that fail
      `_index_ok` are skipped, the others are looked up. */
  function Collect(p: Prefix, idx: seq<int>): (r: Result<seq<Prefix>>)
    ensures r.Err? ==> r.fault == RangeError
    ensures r.Ok? ==> |r.value| <= |idx| && forall k :: 0 <= k < |r.value| ==> IsHost(r.value[k])
  {
    if |idx| == 0 then Ok([])
    else if !IndexOk(p, idx[0]) then Collect(p, idx[1..])
    else
      match GetItem(p, idx[0])
      case Err(f) => Err(f)
      case Ok(q) =>
        match Collect(p, idx[1..])
        case Err(f) => Err(f)
        case Ok(rest) => Ok([q] + rest)
  }

  /** `prefix[start:stop:step]` with integer (or omitted) bounds: a missing start is 0,
      a missing or `sys.maxsize` stop is the block size, a missing step is 1, and a
      zero step is the error `range` raises. */
  function IntSlice(p: Prefix, start: Option<int>, stop: Option<int>, step: Option<int>)
    : (r: Result<seq<Prefix>>)
    ensures step == Some(0) <==> r == Err(ZeroStep)
    ensures Valid(p) && step != Some(0) ==> r.Ok? && forall k :: 0 <= k < |r.value| ==> r.value[k] in Addrs(p)
  {
    var s := if start.Some? then start.value else 0;
    var e := if stop.None? || stop.value == MaxSize then Size(p) else stop.value;
    if step == Some(0) then Err(ZeroStep)
    else
      var idx := PyRange(s, e, if step.Some? then step.value else 1);
      if Valid(p) then
        CollectSelected(p, idx);
        SelectedInBlock(p, idx);
        Collect(p, idx)
      else
        Collect(p, idx)
  }

  /** The position in the block that an index accepted by `_index_ok` names. */
  function Offset(p: Prefix, i: int): (k: int)
    requires IndexOk(p, i)
    ensures 0 <= k < Size(p)
  {
    if i < 0 then Size(p) + i else i
  }

  /** Reference reading of a slice: of a list of indices, keep those `_index_ok`
      accepts and take the block's address at each, in order. */
  function Selected(p: Prefix, idx: seq<int>): seq<Prefix>
    requires Valid(p)
  {
    if |idx| == 0 then []
    else if IndexOk(p, idx[0]) then [Addrs(p)[Offset(p, idx[0])]] + Selected(p, idx[1..])
    else Selected(p, idx[1..])
  }

  /** On a valid prefix the lookup loop never fails and yields the reference selection. */
  lemma {:induction false} CollectSelected(p: Prefix, idx: seq<int>)
    requires Valid(p)
    ensures Collect(p, idx) == Ok(Selected(p, idx))
  {
    if |idx| > 0 {
      CollectSelected(p, idx[1..]);
      if IndexOk(p, idx[0]) {
        GetItemValue(p, idx[0]);
        assert GetItem(p, idx[0]) == Ok(Addrs(p)[Offset(p, idx[0])]);
      }
    }
  }

  lemma {:induction false} SelectedInBlock(p: Prefix, idx: seq<int>)
    requires Valid(p)
    ensures forall k :: 0 <= k < |Selected(p, idx)| ==> Selected(p, idx)[k] in Addrs(p)
  {
    if |idx| > 0 {
      SelectedInBlock(p, idx[1..]);
    }
  }

  /** Every slice of a valid prefix with a non-zero step succeeds: it is the block's
      addresses at the indices of `range(start, stop, step)` that `_index_ok` accepts,
      in the order `range` yields them. */
  lemma IntSliceSelects(p: Prefix, start: Option<int>, stop: Option<int>, step: Option<int>)
    requires Valid(p) && step != Some(0)
    ensures IntSlice(p, start, stop, step) == Ok(Selected(p, PyRange(
      if start.Some? then start.value else 0,
      if stop.None? || stop.value == MaxSize then Size(p) else stop.value,
      if step.Some? then step.value else 1)))
  {
    CollectSelected(p, PyRange(
      if start.Some? then start.value else 0,
      if stop.None? || stop.value == MaxSize then Size(p) else stop.value,
      if step.Some? then step.value else 1));
  }

  /** With bounds inside the block and no step, a slice is the matching piece of `addrs()`. */
  lemma InBlockSlice(p: Prefix, s: int, e: int)
    requires Valid(p) && 0 <= s <= e <= Size(p)
    ensures IntSlice(p, Some(s), Some(e), None) == Ok(Addrs(p)[s..e])
  {
    var idx := PyRange(s, e, 1);
    CollectInRange(p, idx);
    var r := Collect(p, idx).value;
    assert forall k :: 0 <= k < |r| ==> r[k] == Addrs(p)[s..e][k];
    assert r == Addrs(p)[s..e];
  }

  /** `addrs()` as the list it enumerates: every address of the block, in order, as a
      /32 prefix. */
  function Addrs(p: Prefix): (r: seq<Prefix>)
    requires Valid(p)
    ensures |r| == Size(p)
    ensures forall k :: 0 <= k < |r| ==> r[k].addr == p.addr + k && IsHost(r[k])
  {
    HostOnlyLen();
    seq(Size(p), k requires 0 <= k < Size(p) => HostAt(p, k))
  }

  function HostAt(p: Prefix, k: nat): (q: Prefix)
    requires Valid(p) && k < Size(p)
    ensures q.addr == p.addr + k && q.mask == HostOnly
  {
    BlockFits(p);
    Host(p.addr + k)
  }

  /** On a valid prefix, looking up a list of in-range non-negative indices gives the
      /32s of exactly those offsets. */
  lemma {:induction false} CollectInRange(p: Prefix, idx: seq<int>)
    requires Valid(p)
    requires forall k :: 0 <= k < |idx| ==> 0 <= idx[k] < Size(p)
    ensures Collect(p, idx).Ok?
    ensures |Collect(p, idx).value| == |idx|
    ensures forall k :: 0 <= k < |idx| ==> Collect(p, idx).value[k] == Addrs(p)[idx[k]]
  {
    if |idx| > 0 {
      GetItemValue(p, idx[0]);
      CollectInRange(p, idx[1..]);
      var rest := Collect(p, idx[1..]).value;
      var q := GetItem(p, idx[0]).value;
      assert q == Addrs(p)[idx[0]];
      assert Collect(p, idx).value == [q] + rest;
    }
  }

  /** `prefix[:]` lists every address: the slice with all bounds omitted is `addrs()`. */
  lemma FullSlice(p: Prefix)
    requires Valid(p)
    ensures IntSlice(p, None, None, None) == Ok(Addrs(p))
    ensures IntSlice(p, Some(0), Some(MaxSize), None) == Ok(Addrs(p))
  {
    var idx := PyRange(0, Size(p), 1);
    CollectInRange(p, idx);
    var r := Collect(p, idx).value;
    assert forall k :: 0 <= k < |r| ==> r[k] == Addrs(p)[k];
    assert r == Addrs(p);
  }

  /** A negative start is not clipped to the block as a Python list would do: the
      slice `prefix[-1:]` walks from the last address through every address again. */
  lemma NegativeStartSlice(p: Prefix)
    requires Valid(p)
    ensures IntSlice(p, Some(-1), None, None).Ok?
    ensures IntSlice(p, Some(-1), None, None).value == [Addrs(p)[Size(p) - 1]] + Addrs(p)
  {
    var idx := PyRange(-1, Size(p), 1);
    assert idx == [-1] + PyRange(0, Size(p), 1);
    GetItemValue(p, -1);
    FullSlice(p);
    assert GetItem(p, -1).value == Addrs(p)[Size(p) - 1];
  }

  /** `hosts()`: the addresses of the block other than its network and broadcast
      addresses, in order. */
  function Hosts(p: Prefix): (r: seq<Prefix>)
    requires Valid(p)
    ensures forall q :: q in r <==> q in Addrs(p) && q.addr != p.addr && q.addr != Last(p)
  {
    NetworkAndBroadcast(p);
    Without(Addrs(p), Network(p).value, Broadcast(p).value)
  }

  function Without(s: seq<Prefix>, a: Prefix, b: Prefix): (r: seq<Prefix>)
    ensures forall q :: q in r <==> q in s && q != a && q != b
  {
    if |s| == 0 then []
    else if s[0] == a || s[0] == b then Without(s[1..], a, b)
    else [s[0]] + Without(s[1..], a, b)
  }

  /** `hosts()` drops exactly the first and the last address: the addresses strictly
      inside the block. */
  lemma HostsInterior(p: Prefix)
    requires Valid(p)
    ensures Size(p) >= 2 ==> Hosts(p) == Addrs(p)[1..Size(p) - 1]
    ensures Size(p) <= 2 ==> Hosts(p) == []
  {
    NetworkAndBroadcast(p);
    var s := Addrs(p);
    var a, b := Network(p).value, Broadcast(p).value;
    assert a == s[0];
    assert b == s[Size(p) - 1];
    WithoutEnds(s, a, b);
  }

  /** Removing the first and last element of a list whose elements are all different. */
  lemma WithoutEnds(s: seq<Prefix>, a: Prefix, b: Prefix)
    requires |s| >= 1 && s[0] == a && s[|s| - 1] == b
    requires forall i, j :: 0 <= i < j < |s| ==> s[i].addr < s[j].addr
    ensures |s| >= 2 ==> Without(s, a, b) == s[1..|s| - 1]
    ensures |s| <= 2 ==> Without(s, a, b) == []
  {
    assert Without(s, a, b) == Without(s[1..], a, b);
    KeepsMiddle(s[1..], a, b);
  }

  lemma {:induction false} KeepsMiddle(t: seq<Prefix>, a: Prefix, b: Prefix)
    requires |t| >= 1 ==> t[|t| - 1] == b
    requires forall i :: 0 <= i < |t| ==> a.addr < t[i].addr
    requires forall i, j :: 0 <= i < j < |t| ==> t[i].addr < t[j].addr
    ensures |t| >= 1 ==> Without(t, a, b) == t[..|t| - 1]
    ensures |t| == 0 ==> Without(t, a, b) == []
  {
    if |t| >= 2 {
      assert t[0].addr < t[|t| - 1].addr;
      KeepsMiddle(t[1..], a, b);
      assert t[1..][..|t| - 2] == t[1..|t| - 1];
      assert [t[0]] + t[1..|t| - 1] == t[..|t| - 1];
    } else if |t| == 1 {
      assert Without(t, a, b) == Without(t[1..], a, b);
    }
  }
}

=== FILE: prefix_order.dfy ===
/** Equality and ordering of prefixes: `Prefix.__eq__`, `__cmp__` and `__lt__` in
    src/ipcidrtree/__init__.py.

    The order looks nesting-aware, but for valid prefixes it is plain lexicographic
    order on (last address, longer prefix first); `LessIsKeyOrder` proves that, and the
    order laws follow from it.
 */
module PrefixOrder {
  import opened Addresses
  import opened Prefixes

  /** Either prefix is inside the other (`self in other or other in self`). */
  predicate Nested(a: Prefix, b: Prefix)
  {
    Contains(b, a) || Contains(a, b)
  }

  /** `a < b`. */
  predicate Less(a: Prefix, b: Prefix)
  {
    if Nested(a, b) then
      if Len(a) == Len(b) then a.addr < b.addr
      else Len(a) > Len(b)
    else
      a.addr < b.addr
  }

  /** `a.__cmp__(b)`: -1, 0 or 1. */
  function Cmp(a: Prefix, b: Prefix): (r: int)
    ensures r in {-1, 0, 1}
    ensures r == -1 <==> Less(a, b)
  {
    if Nested(a, b) then
      if Len(a) == Len(b) then
        if a.addr < b.addr then -1 else if a.addr > b.addr then 1 else 0
      else if Len(a) > Len(b) then -1
      else 1
    else
      if a.addr < b.addr then -1 else if a.addr > b.addr then 1 else 0
  }

  /** The reference order: by last address, and for equal last addresses the longer
      (more specific) prefix first. */
  predicate KeyLess(a: Prefix, b: Prefix)
  {
    Last(a) < Last(b) || (Last(a) == Last(b) && Len(a) > Len(b))
  }

  /** For valid prefixes `__lt__` is exactly the reference order. */
  lemma LessIsKeyOrder(a: Prefix, b: Prefix)
    requires Valid(a) && Valid(b)
    ensures Less(a, b) <==> KeyLess(a, b)
  {
    NestedOrDisjoint(a, b);
    if Contains(b, a) {
      ContainsSubBlock(b, a);
    } else if Contains(a, b) {
      ContainsSubBlock(a, b);
    } else if a != b {
      SizeAtLeastOne(a);
      SizeAtLeastOne(b);
    }
  }

  lemma SizeAtLeastOne(p: Prefix)
    ensures Size(p) >= 1 && Last(p) >= p.addr
  {
  }

  /** `__lt__` is a strict total order on valid prefixes. */
  lemma LessStrictTotal(a: Prefix, b: Prefix, c: Prefix)
    requires Valid(a) && Valid(b) && Valid(c)
    ensures !Less(a, a)
    ensures Less(a, b) ==> !Less(b, a)
    ensures Less(a, b) && Less(b, c) ==> Less(a, c)
    ensures a == b || Less(a, b) || Less(b, a)
  {
    LessIsKeyOrder(a, a);
    LessIsKeyOrder(a, b);
    LessIsKeyOrder(b, a);
    LessIsKeyOrder(b, c);
    LessIsKeyOrder(a, c);
    if !KeyLess(a, b) && !KeyLess(b, a) {
      LastAndLenDetermine(a, b);
    }
  }

  /** `__cmp__` agrees with `__lt__` and equality: it is 0 exactly for equal valid
      prefixes, and swapping the arguments negates it. */
  lemma CmpConsistent(a: Prefix, b: Prefix)
    requires Valid(a) && Valid(b)
    ensures Cmp(a, b) == 0 <==> a == b
    ensures Cmp(a, b) == 1 <==> Less(b, a)
    ensures Cmp(b, a) == -Cmp(a, b)
  {
    LessStrictTotal(a, b, a);
    assert Cmp(b, a) == -1 <==> Less(b, a);
  }

  /** The order lists a prefix after everything inside it, and disjoint prefixes by
      address. */
  lemma LessOnNested(a: Prefix, b: Prefix)
    requires Valid(a) && Valid(b)
    ensures Contains(b, a) ==> Less(a, b)
    ensures Last(a) < b.addr ==> Less(a, b)
  {
    LessIsKeyOrder(a, b);
    if Contains(b, a) {
      ContainsSubBlock(b, a);
    }
    SizeAtLeastOne(b);
  }
}

=== FILE: prefix_renumber.dfy ===
/** `Prefix.renumber` in src/ipcidrtree/__init__.py: a prefix is moved into another
    block by taking that block's network bits and keeping its own bits below them.

    Renumbering every prefix of a branch with the same target moves the whole branch
    by one fixed distance, so containment and equality inside the branch survive, and
    renumbering back with the original prefix undoes it.
 */
module PrefixRenumber {
  import opened Bits
  import opened Wrappers
  import opened Netmasks
  import opened Addresses
  import opened Prefixes

  /** `p.renumber(np)`: refused when `np` is longer than `p`; otherwise the address
      becomes `np.addr | (p.addr & ~np.mask)` and the mask stays. */
  function Renumber(p: Prefix, np: Prefix): (r: Result<Prefix>)
    ensures r.Err? <==> Len(p) < Len(np)
    ensures r.Err? ==> r.fault == StricterMask
    ensures r.Ok? ==> r.value.mask == p.mask
  {
    if Len(p) < Len(np) then Err(StricterMask)
    else
      var keep := And(p.addr, HostMask(np.mask));
      HostBitsAreRemainder(p.addr, np.mask);
      Pow2Of32();
      OrBelow(np.addr, keep, 32);
      Ok(Prefix(Or(np.addr, keep), p.mask))
  }

  /** The renumbered address lies in the block of `np` and has the same offset in a
      block of that size as the old address had; these two facts fix it. */
  lemma RenumberSplice(p: Prefix, np: Prefix)
    requires Valid(np) && Len(p) >= Len(np)
    ensures Renumber(p, np).Ok?
    ensures Renumber(p, np).value.addr == np.addr + p.addr % Size(np)
    ensures np.addr <= Renumber(p, np).value.addr <= Last(np)
    ensures Renumber(p, np).value.addr % Size(np) == p.addr % Size(np)
  {
    var s := Size(np);
    var keep := And(p.addr, HostMask(np.mask));
    assert keep == p.addr % s by { HostBitsAreRemainder(p.addr, np.mask); }
    assert s == Pow2(32 - Len(np)) by { NetsizeIsPow2(np.mask); }
    ValidIffAligned(np);
    OrSplit(np.addr, keep, 32 - Len(np));
    SpliceRemainder(np.addr, keep, s);
  }

  lemma SpliceRemainder(a: int, k: int, s: int)
    requires s > 0 && a % s == 0 && 0 <= k < s
    ensures (a + k) % s == k
  {
    var q := a / s;
    assert a == s * q;
    DivModUnique(a + k, s, q, k);
  }

  /** Renumbering a valid prefix into a valid block no longer than it gives a valid
      prefix inside that block, or the block itself when the lengths agree. */
  lemma RenumberInside(p: Prefix, np: Prefix)
    requires Valid(p) && Valid(np) && Len(p) >= Len(np)
    ensures Renumber(p, np).Ok?
    ensures Valid(Renumber(p, np).value)
    ensures Covers(np, Renumber(p, np).value)
  {
    RenumberSplice(p, np);
    var r := Renumber(p, np).value;
    var s, sp := Size(np), Size(p);
    assert Size(r) == sp;
    SizeDivides(np, p);
    ValidIffAligned(np);
    ValidIffAligned(p);
    ValidIffAligned(r);
    MultipleNest(np.addr, s, sp);
    RemainderMultiple(p.addr, s, sp);
    MultipleSum(np.addr, p.addr % s, sp);
    if Len(p) == Len(np) {
      SameLenSameMask(p, np);
      assert p.addr % s == 0;
    } else {
      ContainsInterval(np, r);
    }
  }

  /** The distance by which renumbering with `np` moves everything inside `src`. */
  function Shift(src: Prefix, np: Prefix): int
  {
    np.addr + src.addr % Size(np) - src.addr
  }

  /** Everything inside `src` moves by `Shift(src, np)`, a whole number of `src`-sized
      blocks. */
  lemma RenumberShift(src: Prefix, np: Prefix, x: Prefix)
    requires Valid(src) && Valid(np) && Valid(x) && Len(np) <= Len(src) && Covers(src, x)
    ensures Renumber(x, np).Ok? && Renumber(x, np).value.mask == x.mask
    ensures Renumber(x, np).value.addr == x.addr + Shift(src, np)
    ensures Shift(src, np) % Size(src) == 0
  {
    var s, so := Size(np), Size(src);
    var off := x.addr - src.addr;
    if x != src {
      ContainsSubBlock(src, x);
    }
    SizeDivides(np, src);
    ValidIffAligned(src);
    ModInBlock(src.addr, off, so, s);
    RenumberSplice(x, np);
    ShiftAligned(src, np);
  }

  lemma ShiftAligned(src: Prefix, np: Prefix)
    requires Valid(src) && Valid(np) && Len(np) <= Len(src)
    ensures Shift(src, np) % Size(src) == 0
  {
    SizeDivides(np, src);
    ValidIffAligned(np);
    ValidIffAligned(src);
    AlignedShift(np.addr, src.addr, Size(np), Size(src));
  }

  /** Renumbering two prefixes inside `src` with the same target keeps them valid and
      keeps containment and equality between them exactly as they were. */
  lemma RenumberKeepsNesting(src: Prefix, np: Prefix, x: Prefix, y: Prefix)
    requires Valid(src) && Valid(np) && Len(np) <= Len(src)
    requires Valid(x) && Covers(src, x) && Valid(y) && Covers(src, y)
    ensures Renumber(x, np).Ok? && Renumber(y, np).Ok?
    ensures Valid(Renumber(x, np).value)
    ensures Contains(x, y) <==> Contains(Renumber(x, np).value, Renumber(y, np).value)
    ensures x == y <==> Renumber(x, np).value == Renumber(y, np).value
  {
    RenumberShift(src, np, x);
    RenumberShift(src, np, y);
    var d := Shift(src, np);
    MovedValid(src, x, d);
    var rx := Renumber(x, np).value;
    ContainsInterval(x, y);
    ContainsInterval(rx, Renumber(y, np).value);
  }

  /** Moving a prefix inside `src` by a whole number of `src`-sized blocks keeps it
      aligned. */
  lemma MovedValid(src: Prefix, x: Prefix, d: int)
    requires Valid(x) && Covers(src, x) && d % Size(src) == 0
    requires 0 <= x.addr + d <= MaxAddress
    ensures Valid(Prefix(x.addr + d, x.mask))
  {
    var sx := Size(x);
    if x != src {
      SizeDivides(src, x);
      MultipleNest(d, Size(src), sx);
    }
    ValidIffAligned(x);
    ValidIffAligned(Prefix(x.addr + d, x.mask));
    MultipleSum(x.addr, d, sx);
  }

  /** Renumbering back with the original prefix restores every prefix of the branch. */
  lemma RenumberRoundTrip(src: Prefix, np: Prefix, x: Prefix)
    requires Valid(src) && Valid(np) && Len(np) <= Len(src)
    requires Valid(x) && Covers(src, x)
    ensures Renumber(x, np).Ok?
    ensures Renumber(Renumber(x, np).value, src) == Ok(x)
  {
    RenumberKeepsNesting(src, np, src, x);
    RenumberKeepsNesting(src, np, x, src);
    var rsrc, rx := Renumber(src, np).value, Renumber(x, np).value;
    RenumberShift(src, np, x);
    ShiftBack(src, np);
    RenumberShift(rsrc, src, rx);
  }

  /** The branch moved into `np` is moved back by the opposite distance. */
  lemma ShiftBack(src: Prefix, np: Prefix)
    requires Valid(src) && Valid(np) && Len(np) <= Len(src)
    ensures Renumber(src, np).Ok?
    ensures Shift(Renumber(src, np).value, src) == -Shift(src, np)
  {
    RenumberShift(src, np, src);
    RenumberKeepsNesting(src, np, src, src);
    var rsrc := Renumber(src, np).value;
    ValidIffAligned(rsrc);
    assert Size(rsrc) == Size(src);
  }
}

=== FILE: prefix_shift.dfy ===
/** Moving a prefix by whole blocks and cutting it into smaller blocks: `__add__`,
    `__sub__` and `subnet` of class `Prefix` in src/ipcidrtree/__init__.py.

    `subnet` is a generator that steps `cur += 1` until the block has left the
    prefix.  When the prefix ends at 255.255.255.255 the step after the last block
    leaves the address space and raises; `SubnetAsWritten` models the generator and
    `Subnet` the evident intent, and `SubnetAsWrittenAgrees` relates the two.
 */
module PrefixShift {
  import opened Bits
  import opened Wrappers
  import opened Netmasks
  import opened Addresses
  import opened Prefixes
  import opened PrefixIndex

  /** `prefix + i`: the block `i` block-sizes further on, with the same mask.  Every
      failure on the way is reported as out of range. */
  function PrefixAdd(p: Prefix, i: int): (r: Result<Prefix>)
    ensures r.Err? ==> r.fault == RangeError
    ensures r.Ok? ==> r.value.mask == p.mask && r.value.addr == p.addr + i * Size(p)
  {
    match AddressAdd(p.addr, i * Size(p))
    case Err(_) => Err(RangeError)
    case Ok(a) =>
      match NewPrefix(a, Some(p.mask))
      case Err(_) => Err(RangeError)
      case Ok(q) => Ok(q)
  }

  /** `prefix - i`: the block `i` block-sizes back, with the same mask. */
  function PrefixSub(p: Prefix, i: int): (r: Result<Prefix>)
    ensures r.Err? ==> r.fault == RangeError
    ensures r.Ok? ==> r.value.mask == p.mask && r.value.addr == p.addr - i * Size(p)
  {
    assert (-i) * Size(p) == -(i * Size(p));
    PrefixAdd(p, -i)
  }

  /** Shifting a valid prefix succeeds exactly when the shifted address is an
      address; the shifted block is then valid and lies inside the address space. */
  lemma AddInRange(p: Prefix, i: int)
    requires Valid(p)
    ensures PrefixAdd(p, i).Ok? <==> 0 <= p.addr + i * Size(p) <= MaxAddress
    ensures PrefixAdd(p, i).Ok? ==> Valid(PrefixAdd(p, i).value)
    ensures PrefixAdd(p, i).Ok? ==> p.addr + i * Size(p) + Size(p) <= Modulus
  {
    var s := Size(p);
    var a := p.addr + i * s;
    ValidIffAligned(p);
    ModAddMultiple(p.addr, i, s);
    assert a % s == 0;
    if 0 <= a <= MaxAddress {
      NetsizeDividesSpace(p.mask);
      AlignedGap(a, Modulus, s);
    }
  }

  /** Shifting by zero blocks gives the prefix back. */
  lemma AddZero(p: Prefix)
    requires Valid(p)
    ensures PrefixAdd(p, 0) == Ok(p)
  {
    MulAddDistrib(0, 0, Size(p));
    ValidIffAligned(p);
  }

  /** Shifting back undoes a shift. */
  lemma AddSubRoundTrip(p: Prefix, i: int)
    requires Valid(p) && PrefixAdd(p, i).Ok?
    ensures PrefixSub(PrefixAdd(p, i).value, i) == Ok(p)
  {
    AddComposes(p, i, -i);
    AddZero(p);
  }

  /** Two shifts compose into one. */
  lemma AddComposes(p: Prefix, i: int, j: int)
    requires Valid(p) && PrefixAdd(p, i).Ok?
    ensures PrefixAdd(PrefixAdd(p, i).value, j) == PrefixAdd(p, i + j)
  {
    var q := PrefixAdd(p, i).value;
    assert Size(q) == Size(p);
    MulAddDistrib(i, j, Size(p));
  }

  /** `prefix + 1` is the block that starts right after this one ends. */
  lemma AddOneIsNext(p: Prefix)
    requires Valid(p)
    ensures PrefixAdd(p, 1).Ok? <==> Last(p) < MaxAddress
    ensures PrefixAdd(p, 1).Ok? ==> PrefixAdd(p, 1).value.addr == Last(p) + 1
  {
    AddInRange(p, 1);
  }

  // ---------------------------------------------------------------------------
  // subnet

  /** How many blocks of mask `m` a prefix holds: 2 to the difference of the lengths. */
  function Count(p: Prefix, m: Mask): nat
    requires PrefixLen(m) >= Len(p)
  {
    Pow2(PrefixLen(m) - Len(p))
  }

  lemma CountTimesSize(p: Prefix, m: Mask)
    requires PrefixLen(m) >= Len(p)
    ensures Count(p, m) * Netsize(m) == Size(p) && Count(p, m) >= 1
  {
    var a: nat, b: nat := PrefixLen(m) - Len(p), 32 - PrefixLen(m);
    Pow2Add(a, b);
    NetsizeIsPow2(m);
    NetsizeIsPow2(p.mask);
    assert a + b == 32 - Len(p);
  }

  /** Block `k` of size `Netsize(m)` counted from the start of `p`. */
  function Tile(p: Prefix, m: Mask, k: nat): (q: Prefix)
    requires Valid(p) && PrefixLen(m) >= Len(p) && k < Count(p, m)
    ensures q.addr == p.addr + k * Netsize(m) && q.mask == m
  {
    TileInBlock(p, m, k);
    BlockFits(p);
    Prefix(p.addr + k * Netsize(m), m)
  }

  lemma TileInBlock(p: Prefix, m: Mask, k: nat)
    requires Valid(p) && PrefixLen(m) >= Len(p) && k < Count(p, m)
    ensures (p.addr + k * Netsize(m)) % Netsize(m) == 0
    ensures p.addr <= p.addr + k * Netsize(m)
    ensures p.addr + k * Netsize(m) + Netsize(m) <= p.addr + Size(p)
  {
    CountTimesSize(p, m);
    ValidIffAligned(p);
    AlignedTile(p.addr, Size(p), Netsize(m), Count(p, m), k);
  }

  /** Every tile is a valid prefix covered by `p`. */
  lemma TileInside(p: Prefix, m: Mask, k: nat)
    requires Valid(p) && PrefixLen(m) >= Len(p) && k < Count(p, m)
    ensures Valid(Tile(p, m, k)) && Covers(p, Tile(p, m, k))
  {
    var q := Tile(p, m, k);
    TileInBlock(p, m, k);
    ValidIffAligned(q);
    if PrefixLen(m) == Len(p) {
      assert Count(p, m) == 1;
      SameLenSameMask(p, q);
    } else {
      ContainsInterval(p, q);
    }
  }

  /** The blocks `subnet` is meant to produce: the prefix cut into consecutive blocks
      of the smaller size. */
  function Tiles(p: Prefix, m: Mask): (r: seq<Prefix>)
    requires Valid(p) && PrefixLen(m) >= Len(p)
    ensures |r| == Count(p, m)
    ensures forall k :: 0 <= k < |r| ==> r[k] == Tile(p, m, k)
  {
    seq(Count(p, m), k requires 0 <= k < Count(p, m) => Tile(p, m, k))
  }

  /** `subnet(mask)` as evidently intended: an invalid mask or one shorter than the
      prefix's is an error, otherwise the list of blocks. */
  function Subnet(p: Prefix, subnetMask: int): (r: Result<seq<Prefix>>)
    requires Valid(p)
    ensures NewNetmask(subnetMask).Err? ==> r == Err(InvalidNetmask)
    ensures NewNetmask(subnetMask).Ok? && PrefixLen(NewNetmask(subnetMask).value) < Len(p)
      ==> r == Err(SubnetTooLarge)
  {
    match NewNetmask(subnetMask)
    case Err(f) => Err(f)
    case Ok(m) => if PrefixLen(m) < Len(p) then Err(SubnetTooLarge) else Ok(Tiles(p, m))
  }

  /** The blocks tile the prefix: there are as many as fit, they are valid and
      covered by it, the first starts at its first address, each starts right after
      the one before ends, and the last ends at its last address. */
  lemma TilesPartition(p: Prefix, m: Mask)
    requires Valid(p) && PrefixLen(m) >= Len(p)
    ensures |Tiles(p, m)| * Netsize(m) == Size(p)
    ensures Tiles(p, m)[0].addr == p.addr
    ensures Last(Tiles(p, m)[|Tiles(p, m)| - 1]) == Last(p)
    ensures forall k :: 0 <= k < |Tiles(p, m)| ==>
      Valid(Tiles(p, m)[k]) && Covers(p, Tiles(p, m)[k])
    ensures forall k :: 0 <= k < |Tiles(p, m)| - 1 ==>
      Tiles(p, m)[k + 1].addr == Last(Tiles(p, m)[k]) + 1
  {
    var r := Tiles(p, m);
    CountTimesSize(p, m);
    TileLast(p, m);
    forall k | 0 <= k < |r|
      ensures Valid(r[k]) && Covers(p, r[k])
    {
      TileInside(p, m, k);
    }
    forall k | 0 <= k < |r| - 1
      ensures r[k + 1].addr == Last(r[k]) + 1
    {
      TileNext(p, m, k);
    }
  }

  lemma TileNext(p: Prefix, m: Mask, k: nat)
    requires Valid(p) && PrefixLen(m) >= Len(p) && k + 1 < Count(p, m)
    ensures Tile(p, m, k + 1).addr == Last(Tile(p, m, k)) + 1
  {
    var s := Netsize(m);
    assert (k + 1) * s == k * s + s;
  }

  lemma TileLast(p: Prefix, m: Mask)
    requires Valid(p) && PrefixLen(m) >= Len(p)
    ensures Last(Tile(p, m, Count(p, m) - 1)) == Last(p)
  {
    var s, n := Netsize(m), Count(p, m);
    assert n * s == Size(p) && n >= 1 by { CountTimesSize(p, m); }
    var q := Tile(p, m, n - 1);
    LastBlockEnd(p.addr, q.addr, n, s, Size(p));
  }

  /** Every address of the prefix lies in exactly one block: block number
      `(x - p.addr) / Netsize(m)`. */
  lemma TilesCoverEachAddress(p: Prefix, m: Mask, x: int)
    requires Valid(p) && PrefixLen(m) >= Len(p) && p.addr <= x <= Last(p)
    ensures 0 <= (x - p.addr) / Netsize(m) < |Tiles(p, m)|
    ensures forall k :: 0 <= k < |Tiles(p, m)| ==>
      (Tiles(p, m)[k].addr <= x <= Last(Tiles(p, m)[k]) <==> k == (x - p.addr) / Netsize(m))
  {
    var s := Netsize(m);
    var d := x - p.addr;
    var n := |Tiles(p, m)|;
    CountTimesSize(p, m);
    BlockIndex(d, s, n);
  }

  /** `addrs()` is `subnet(32)`. */
  lemma SubnetToHosts(p: Prefix)
    requires Valid(p)
    ensures Subnet(p, 32) == Ok(Addrs(p))
  {
    HostNetmask();
    HostOnlyLen();
    HostTiles(p);
  }

  lemma HostNetmask()
    ensures NewNetmask(32) == Ok(HostOnly)
  {
    HostOnlyLen();
    PrefixLenInjective(NewNetmask(32).value, HostOnly);
  }

  /** Cutting into /32 blocks lists the addresses. */
  lemma HostTiles(p: Prefix)
    requires Valid(p)
    ensures PrefixLen(HostOnly) >= Len(p) && Tiles(p, HostOnly) == Addrs(p)
  {
    HostOnlyLen();
    var t := Tiles(p, HostOnly);
    CountTimesSize(p, HostOnly);
    assert Netsize(HostOnly) == 1;
    assert |t| == Size(p);
    assert forall k :: 0 <= k < |t| ==> t[k] == Addrs(p)[k];
  }

  // ---------------------------------------------------------------------------
  // The generator as written

  /** The loop of `subnet` from block `cur` on: while `cur in self or cur == self`,
      yield it and step to `cur + 1`.  The result is the blocks yielded and the
      error raised, if any. */
  function Walk(p: Prefix, cur: Prefix): (r: (seq<Prefix>, Option<Fault>))
    ensures forall k :: 0 <= k < |r.0| ==> Covers(p, r.0[k])
    ensures r.1.Some? ==> r.1.value == RangeError && |r.0| > 0
    decreases Modulus - cur.addr
  {
    if !(Contains(p, cur) || cur == p) then ([], None)
    else
      match PrefixAdd(cur, 1)
      case Err(f) => ([cur], Some(f))
      case Ok(next) =>
        var rest := Walk(p, next);
        assert forall k :: 0 <= k < |rest.0| ==> Covers(p, rest.0[k]);
        ([cur] + rest.0, rest.1)
  }

  /** `subnet(mask)` as written, consumed to the end. */
  function SubnetAsWritten(p: Prefix, subnetMask: int): (r: (seq<Prefix>, Option<Fault>))
    ensures NewNetmask(subnetMask).Err? ==> r == ([], Some(InvalidNetmask))
    ensures NewNetmask(subnetMask).Ok? && PrefixLen(NewNetmask(subnetMask).value) < Len(p)
      ==> r == ([], Some(SubnetTooLarge))
    ensures forall k :: 0 <= k < |r.0| ==> Covers(p, r.0[k])
  {
    match NewNetmask(subnetMask)
    case Err(f) => ([], Some(f))
    case Ok(m) => SubnetWalk(p, m)
  }

  /** The generator once the netmask is built: the size check, the first block, and
      the loop. */
  function SubnetWalk(p: Prefix, m: Mask): (r: (seq<Prefix>, Option<Fault>))
    ensures PrefixLen(m) < Len(p) ==> r == ([], Some(SubnetTooLarge))
    ensures forall k :: 0 <= k < |r.0| ==> Covers(p, r.0[k])
  {
    if PrefixLen(m) < Len(p) then ([], Some(SubnetTooLarge))
    else
      match NewPrefix(p.addr, Some(m))
      case Err(f) => ([], Some(f))
      case Ok(cur) => Walk(p, cur)
  }

  /** A run of blocks the loop steps through: each is covered by `p`, and `+ 1` takes
      each to the one after it. */
  predicate Chain(p: Prefix, t: seq<Prefix>)
  {
    && (forall i :: 0 <= i < |t| ==> Covers(p, t[i]))
    && (forall i :: 0 <= i < |t| - 1 ==> PrefixAdd(t[i], 1) == Ok(t[i + 1]))
  }

  /** Started anywhere on a chain whose last step raises or leaves `p`, the loop
      yields the rest of the chain and ends the way that last step does. */
  lemma {:induction false} WalkAlong(p: Prefix, t: seq<Prefix>, k: nat, f: Option<Fault>)
    requires Chain(p, t) && k < |t|
    requires PrefixAdd(t[|t| - 1], 1).Ok? ==> Walk(p, PrefixAdd(t[|t| - 1], 1).value) == ([], None)
    requires f == if PrefixAdd(t[|t| - 1], 1).Ok? then None else Some(RangeError)
    ensures Walk(p, t[k]) == (t[k..], f)
    decreases |t| - k
  {
    if k + 1 < |t| {
      WalkOn(p, t[k], t[k + 1]);
      WalkAlong(p, t, k + 1, f);
      assert t[k..] == [t[k]] + t[k + 1..];
    } else {
      WalkEnd(p, t[k]);
      assert t[k..] == [t[k]];
    }
  }

  /** The intended blocks form a chain, and the step after the last one raises
      exactly when the prefix ends at the top of the address space. */
  lemma TilesChain(p: Prefix, m: Mask)
    requires Valid(p) && PrefixLen(m) >= Len(p)
    ensures Chain(p, Tiles(p, m))
    ensures PrefixAdd(Tiles(p, m)[Count(p, m) - 1], 1).Err? <==> Last(p) == MaxAddress
    ensures PrefixAdd(Tiles(p, m)[Count(p, m) - 1], 1).Ok? ==>
      Walk(p, PrefixAdd(Tiles(p, m)[Count(p, m) - 1], 1).value) == ([], None)
  {
    var t := Tiles(p, m);
    forall i | 0 <= i < |t|
      ensures Covers(p, t[i])
    {
      TileInside(p, m, i);
    }
    forall i | 0 <= i < |t| - 1
      ensures PrefixAdd(t[i], 1) == Ok(t[i + 1])
    {
      TileStep(p, m, i);
    }
    LastTileStep(p, m);
  }

  /** One turn of the loop that yields `cur` and goes on with `next`. */
  lemma WalkOn(p: Prefix, cur: Prefix, next: Prefix)
    requires Covers(p, cur) && PrefixAdd(cur, 1) == Ok(next)
    ensures Walk(p, cur) == ([cur] + Walk(p, next).0, Walk(p, next).1)
  {
  }

  /** The last turn of the loop: `cur` is yielded, then the step raises or leaves the
      prefix. */
  lemma WalkEnd(p: Prefix, cur: Prefix)
    requires Covers(p, cur)
    requires PrefixAdd(cur, 1).Ok? ==> Walk(p, PrefixAdd(cur, 1).value) == ([], None)
    ensures Walk(p, cur).0 == [cur]
    ensures Walk(p, cur).1 == if PrefixAdd(cur, 1).Ok? then None else Some(RangeError)
  {
  }

  /** Stepping from a block that is not the last gives the next block. */
  lemma TileStep(p: Prefix, m: Mask, k: nat)
    requires Valid(p) && PrefixLen(m) >= Len(p) && k + 1 < Count(p, m)
    ensures PrefixAdd(Tile(p, m, k), 1) == Ok(Tile(p, m, k + 1))
  {
    var cur, next := Tile(p, m, k), Tile(p, m, k + 1);
    TileInside(p, m, k);
    TileNext(p, m, k);
    AddOneIsNext(cur);
    TileInBlock(p, m, k + 1);
    BlockFits(p);
  }

  /** Stepping from the last block fails exactly at the top of the address space, and
      otherwise leaves the prefix, which ends the loop. */
  lemma LastTileStep(p: Prefix, m: Mask)
    requires Valid(p) && PrefixLen(m) >= Len(p)
    ensures PrefixAdd(Tile(p, m, Count(p, m) - 1), 1).Err? <==> Last(p) == MaxAddress
    ensures PrefixAdd(Tile(p, m, Count(p, m) - 1), 1).Ok? ==>
      Walk(p, PrefixAdd(Tile(p, m, Count(p, m) - 1), 1).value) == ([], None)
  {
    var cur := Tile(p, m, Count(p, m) - 1);
    assert Valid(cur) by { TileInside(p, m, Count(p, m) - 1); }
    assert Last(cur) == Last(p) by { TileLast(p, m); }
    StepPastEnd(p, cur);
  }

  /** Stepping from a block that ends where `p` ends fails exactly at the top of the
      address space, and otherwise lands outside `p`. */
  lemma StepPastEnd(p: Prefix, cur: Prefix)
    requires Valid(p) && Valid(cur) && Last(cur) == Last(p)
    ensures PrefixAdd(cur, 1).Err? <==> Last(p) == MaxAddress
    ensures PrefixAdd(cur, 1).Ok? ==> Walk(p, PrefixAdd(cur, 1).value) == ([], None)
  {
    AddOneIsNext(cur);
    BlockFits(p);
    if PrefixAdd(cur, 1).Ok? {
      var next := PrefixAdd(cur, 1).value;
      ContainsInterval(p, next);
    }
  }

  /** The generator yields exactly the intended blocks; the only difference is the
      error it raises after the last one when the prefix ends at 255.255.255.255. */
  lemma SubnetAsWrittenAgrees(p: Prefix, subnetMask: int)
    requires Valid(p)
    ensures Subnet(p, subnetMask).Err? ==>
      SubnetAsWritten(p, subnetMask) == ([], Some(Subnet(p, subnetMask).fault))
    ensures Subnet(p, subnetMask).Ok? ==>
      SubnetAsWritten(p, subnetMask).0 == Subnet(p, subnetMask).value
    ensures Subnet(p, subnetMask).Ok? ==>
      (SubnetAsWritten(p, subnetMask).1 == Some(RangeError) <==> Last(p) == MaxAddress)
    ensures Subnet(p, subnetMask).Ok? ==>
      (SubnetAsWritten(p, subnetMask).1 == None <==> Last(p) < MaxAddress)
  {
    if Subnet(p, subnetMask).Ok? {
      var m := NewNetmask(subnetMask).value;
      WalkMeetsTiles(p, m);
      BlockFits(p);
    }
  }

  /** With a mask no shorter than the prefix's, the generator yields the intended
      blocks and then raises exactly when the prefix ends at the top of the address
      space. */
  lemma WalkMeetsTiles(p: Prefix, m: Mask)
    requires Valid(p) && PrefixLen(m) >= Len(p)
    ensures SubnetWalk(p, m) == (Tiles(p, m), if Last(p) == MaxAddress then Some(RangeError) else None)
  {
    var t := Tiles(p, m);
    var f: Option<Fault> := if Last(p) == MaxAddress then Some(RangeError) else None;
    FirstTile(p, m);
    TilesChain(p, m);
    WalkAlong(p, t, 0, f);
    assert t[0..] == t;
  }

  lemma FirstTile(p: Prefix, m: Mask)
    requires Valid(p) && PrefixLen(m) >= Len(p)
    ensures NewPrefix(p.addr, Some(m)) == Ok(Tile(p, m, 0))
  {
    var q := Tile(p, m, 0);
    TileInside(p, m, 0);
    ValidIffAligned(q);
    BlockFits(q);
  }

  /** A prefix that ends at 255.255.255.255, listed as /32 blocks: the intended list
      is its addresses, and the generator yields them and then raises. */
  lemma SubnetAtTopRaises(p: Prefix)
    requires Valid(p) && Last(p) == MaxAddress
    ensures Subnet(p, 32) == Ok(Addrs(p))
    ensures SubnetAsWritten(p, 32) == (Addrs(p), Some(RangeError))
  {
    SubnetToHosts(p);
    SubnetAsWrittenAgrees(p, 32);
  }

  /** One such prefix: 255.255.255.255/32. */
  lemma TopHostAtTop()
    ensures Valid(Prefix(MaxAddress, HostOnly))
    ensures Last(Prefix(MaxAddress, HostOnly)) == MaxAddress
    ensures Addrs(Prefix(MaxAddress, HostOnly)) == [Prefix(MaxAddress, HostOnly)]
  {
    HostPrefix(MaxAddress);
  }
}

=== FILE: tree.dfy ===
/** The CIDR tree, class `PrefixNode` in src/ipcidrtree/__init__.py: a node holds one
    prefix and a list of child nodes.  This module holds the node type, the list
    operations `_add_child`, `_rm_child` and `parenting`, and the two shapes a tree can
    have: `Nested` (every child lies inside its parent) and `WF`, the correct CIDR
    hierarchy the class documentation promises, where in addition no two siblings
    overlap.
 */
module Trees {
  import opened Netmasks
  import opened Prefixes

  datatype Node = Node(prefix: Prefix, children: seq<Node>)

  /** The prefixes held in the tree rooted at `n`, with their multiplicity. */
  function Members(n: Node): multiset<Prefix>
    decreases n
  {
    multiset{n.prefix} + MembersOf(n.children)
  }

  /** The prefixes held in a list of subtrees. */
  function MembersOf(cs: seq<Node>): multiset<Prefix>
    decreases cs
  {
    if |cs| == 0 then multiset{} else MembersOf(cs[..|cs| - 1]) + Members(cs[|cs| - 1])
  }

  /** Neither prefix covers the other: for valid prefixes, their blocks are disjoint. */
  predicate Apart(a: Prefix, b: Prefix)
  {
    a != b && !Contains(a, b) && !Contains(b, a)
  }

  /** Every prefix of a list of nodes is inside `p`. */
  predicate Under(p: Prefix, cs: seq<Node>)
  {
    forall i :: 0 <= i < |cs| ==> Contains(p, cs[i].prefix)
  }

  /** No two nodes of a list overlap. */
  predicate SiblingsApart(cs: seq<Node>)
  {
    forall i, j :: 0 <= i < j < |cs| ==> Apart(cs[i].prefix, cs[j].prefix)
  }

  /** Every prefix is valid and every child lies strictly inside its parent. */
  predicate Nested(n: Node)
    decreases n
  {
    && Valid(n.prefix)
    && Under(n.prefix, n.children)
    && (forall i :: 0 <= i < |n.children| ==> Nested(n.children[i]))
  }

  /** A correct CIDR hierarchy: nested, and siblings never overlap, so that each node's
      children are exactly the largest prefixes below it. */
  predicate WF(n: Node)
    decreases n
  {
    && Valid(n.prefix)
    && Under(n.prefix, n.children)
    && SiblingsApart(n.children)
    && (forall i :: 0 <= i < |n.children| ==> WF(n.children[i]))
  }

  /** `_add_child`: the new child goes at the end of the list. */
  function AddChild(n: Node, c: Node): (r: Node)
    ensures r.prefix == n.prefix && |r.children| == |n.children| + 1
    ensures r.children[..|n.children|] == n.children && r.children[|n.children|] == c
    ensures Members(r) == Members(n) + Members(c)
  {
    MembersOfAppend(n.children, c);
    var r := Node(n.prefix, n.children + [c]);
    assert r.children[..|n.children|] == n.children;
    r
  }

  /** `_rm_child`: child `i` leaves the list, the others keep their order. */
  function RmChild(n: Node, i: nat): (r: Node)
    requires i < |n.children|
    ensures r.prefix == n.prefix && |r.children| == |n.children| - 1
    ensures Members(r) + Members(n.children[i]) == Members(n)
  {
    MembersOfRemove(n.children, i);
    Node(n.prefix, n.children[..i] + n.children[i + 1..])
  }

  /** `parenting`: some child holds exactly this prefix. */
  predicate Parenting(n: Node, p: Prefix)
  {
    exists i :: 0 <= i < |n.children| && n.children[i].prefix == p
  }

  // ---------------------------------------------------------------------------
  // Members of lists

  lemma MembersOfAppend(cs: seq<Node>, x: Node)
    ensures MembersOf(cs + [x]) == MembersOf(cs) + Members(x)
  {
    assert (cs + [x])[..|cs|] == cs;
  }

  /** The members of a concatenation are those of both parts. */
  lemma {:induction false} MembersOfConcat(a: seq<Node>, b: seq<Node>)
    ensures MembersOf(a + b) == MembersOf(a) + MembersOf(b)
    decreases |b|
  {
    if |b| > 0 {
      var b0, x := b[..|b| - 1], b[|b| - 1];
      assert a + b == (a + b0) + [x];
      assert b == b0 + [x];
      MembersOfConcat(a, b0);
      MembersOfAppend(a + b0, x);
      MembersOfAppend(b0, x);
    } else {
      assert a + b == a;
    }
  }

  /** Removing entry `i` removes exactly that subtree's members. */
  lemma MembersOfRemove(cs: seq<Node>, i: nat)
    requires i < |cs|
    ensures MembersOf(cs[..i] + cs[i + 1..]) + Members(cs[i]) == MembersOf(cs)
  {
    var front, back := cs[..i], cs[i + 1..];
    var f, m, b := MembersOf(front), Members(cs[i]), MembersOf(back);
    var g := MembersOf(cs[..i + 1]);
    assert g == f + m by {
      MembersOfFront(cs, i);
    }
    assert MembersOf(cs) == g + b by {
      assert cs == cs[..i + 1] + back;
      MembersOfConcat(cs[..i + 1], back);
    }
    assert MembersOf(front + back) == f + b by {
      MembersOfConcat(front, back);
    }
    Swap(MembersOf(front + back), MembersOf(cs), f, m, b, g);
  }

  lemma Swap(x: multiset<Prefix>, y: multiset<Prefix>, f: multiset<Prefix>, m: multiset<Prefix>,
             b: multiset<Prefix>, g: multiset<Prefix>)
    requires x == f + b && y == g + b && g == f + m
    ensures x + m == y
  {
  }

  /** Replacing entry `i` swaps that subtree's members for the new one's. */
  lemma MembersOfUpdate(cs: seq<Node>, i: nat, t: Node)
    requires i < |cs|
    ensures MembersOf(cs[i := t]) + Members(cs[i]) == MembersOf(cs) + Members(t)
  {
    var ds := cs[i := t];
    MembersOfRemove(cs, i);
    MembersOfRemove(ds, i);
    assert ds[..i] + ds[i + 1..] == cs[..i] + cs[i + 1..];
  }

  /** A child replaced by a tree that holds its prefixes and those of `c`: the parent
      now holds `c`'s prefixes as well. */
  lemma GrowChild(n: Node, i: nat, t: Node, c: Node)
    requires i < |n.children| && Members(t) == Members(n.children[i]) + Members(c)
    ensures Members(Node(n.prefix, n.children[i := t])) == Members(n) + Members(c)
  {
    var cs := n.children;
    var ds := cs[i := t];
    MembersOfRemove(cs, i);
    MembersOfRemove(ds, i);
    assert ds[..i] + ds[i + 1..] == cs[..i] + cs[i + 1..];
  }

  /** `_add_child(c2)` then `_rm_child` of child `j`, where `c2` holds that child's
      prefixes and those of `c`: the parent now holds `c`'s prefixes as well. */
  lemma MoveUnder(n: Node, j: nat, c2: Node, c: Node)
    requires j < |n.children| && Members(c2) == Members(c) + Members(n.children[j])
    ensures AddChild(n, c2).children[j] == n.children[j]
    ensures Members(RmChild(AddChild(n, c2), j)) == Members(n) + Members(c)
  {
    var cs := n.children;
    var grown := AddChild(n, c2);
    assert grown.children[j] == (grown.children[..|cs|])[j];
    var ds := grown.children;
    assert ds[..j] + ds[j + 1..] == (cs[..j] + cs[j + 1..]) + [c2];
    MembersOfAppend(cs[..j] + cs[j + 1..], c2);
    MembersOfRemove(cs, j);
  }

  /** A member of a list of subtrees is a member of one of them, and each subtree's
      members are members of the list. */
  lemma {:induction false} MemberOfSome(cs: seq<Node>, q: Prefix) returns (i: nat)
    requires q in MembersOf(cs)
    ensures i < |cs| && q in Members(cs[i])
    decreases |cs|
  {
    var k := |cs| - 1;
    if q in Members(cs[k]) {
      i := k;
    } else {
      i := MemberOfSome(cs[..k], q);
    }
  }

  /** Growing a front part of a list by one entry adds that entry's members, and a
      front part holds no more than the whole list. */
  lemma MembersOfFront(cs: seq<Node>, k: nat)
    requires k < |cs|
    ensures MembersOf(cs[..k + 1]) == MembersOf(cs[..k]) + Members(cs[k])
    ensures MembersOf(cs[..k + 1]) <= MembersOf(cs)
    ensures |MembersOf(cs[..k + 1])| <= |MembersOf(cs)|
  {
    assert cs[..k + 1][..k] == cs[..k];
    MembersOfPart(cs, k + 1);
  }

  /** A front part of a list holds no more than the whole list. */
  lemma MembersOfPart(cs: seq<Node>, k: nat)
    requires k <= |cs|
    ensures MembersOf(cs[..k]) <= MembersOf(cs)
    ensures |MembersOf(cs[..k])| <= |MembersOf(cs)|
  {
    var front, back := cs[..k], cs[k..];
    assert cs == front + back;
    MembersOfConcat(front, back);
    Part(MembersOf(cs), MembersOf(front), MembersOf(back));
  }

  lemma Part(x: multiset<Prefix>, y: multiset<Prefix>, z: multiset<Prefix>)
    requires x == y + z
    ensures y <= x && |y| <= |x|
  {
  }

  lemma MemberOfChild(cs: seq<Node>, i: nat)
    requires i < |cs|
    ensures Members(cs[i]) <= MembersOf(cs)
    ensures |Members(cs[i])| <= |MembersOf(cs)|
  {
    MembersOfRemove(cs, i);
  }

  // ---------------------------------------------------------------------------
  // Shapes

  /** A correct hierarchy is nested. */
  lemma {:induction false} WFNested(n: Node)
    requires WF(n)
    ensures Nested(n)
    decreases n
  {
    forall i | 0 <= i < |n.children|
      ensures Nested(n.children[i])
    {
      WFNested(n.children[i]);
    }
  }

  /** In a nested tree every member is a valid prefix covered by the root: the root,
      or strictly inside it. */
  lemma {:induction false} NestedCovers(n: Node, q: Prefix)
    requires Nested(n) && q in Members(n)
    ensures Valid(q) && Covers(n.prefix, q)
    decreases n
  {
    if q != n.prefix {
      var i := MemberOfSome(n.children, q);
      var c := n.children[i];
      NestedCovers(c, q);
      if c.prefix != q {
        ContainsTransitive(n.prefix, c.prefix, q);
      }
    }
  }

  /** Everything below the root of a nested tree is strictly inside it. */
  lemma StrictlyBelow(n: Node, q: Prefix)
    requires Nested(n)
    ensures q in MembersOf(n.children) ==> Contains(n.prefix, q)
  {
    if q in MembersOf(n.children) {
      var i := MemberOfSome(n.children, q);
      var c := n.children[i];
      NestedCovers(c, q);
      if c.prefix != q {
        ContainsTransitive(n.prefix, c.prefix, q);
      }
    }
  }

  /** Every /32 node of the tree is a leaf. */
  predicate HostsAreLeaves(n: Node)
    decreases n
  {
    && (IsHost(n.prefix) ==> |n.children| == 0)
    && (forall i :: 0 <= i < |n.children| ==> HostsAreLeaves(n.children[i]))
  }

  /** Nothing lies strictly inside a /32, so a nested tree keeps hosts as leaves. */
  lemma {:induction false} NestedHostsAreLeaves(n: Node)
    requires Nested(n)
    ensures HostsAreLeaves(n)
    decreases n
  {
    if |n.children| > 0 {
      ContainsArith(n.prefix, n.children[0].prefix);
    }
    forall i | 0 <= i < |n.children|
      ensures HostsAreLeaves(n.children[i])
    {
      NestedHostsAreLeaves(n.children[i]);
    }
  }

  /** Two nested subtrees sharing a member have overlapping roots. */
  lemma SharedMemberOverlaps(a: Node, b: Node, q: Prefix)
    requires Nested(a) && Nested(b)
    ensures q in Members(a) && q in Members(b) ==> !Apart(a.prefix, b.prefix)
  {
    if q in Members(a) && q in Members(b) {
      NestedCovers(a, q);
      NestedCovers(b, q);
      CommonCover(a.prefix, b.prefix, q);
    }
  }

  /** A correct hierarchy holds every prefix at most once. */
  lemma {:induction false} NoDuplicates(n: Node)
    requires WF(n)
    ensures forall q :: Members(n)[q] <= 1
    decreases n, 1
  {
    WFNested(n);
    ChildrenUnique(n.children, |n.children|);
    assert n.children[..|n.children|] == n.children;
    StrictlyBelow(n, n.prefix);
    ContainsStrictOrder(n.prefix, n.prefix, n.prefix);
  }

  lemma {:induction false} ChildrenUnique(cs: seq<Node>, k: nat)
    requires k <= |cs| && SiblingsApart(cs)
    requires forall i :: 0 <= i < |cs| ==> WF(cs[i])
    ensures forall q :: MembersOf(cs[..k])[q] <= 1
    decreases cs, k
  {
    if k > 0 {
      var front, last := cs[..k - 1], cs[k - 1];
      assert cs[..k][..k - 1] == front;
      ChildrenUnique(cs, k - 1);
      NoDuplicates(last);
      WFNested(last);
      forall q | q in MembersOf(front)
        ensures q !in Members(last)
      {
        var i := MemberOfSome(front, q);
        WFNested(cs[i]);
        SharedMemberOverlaps(cs[i], last, q);
      }
    }
  }

  // ---------------------------------------------------------------------------
  // The shapes under the list operations

  /** A child may be replaced by a nested tree with the same root prefix. */
  lemma NestedReplace(n: Node, i: nat, t: Node)
    requires Nested(n) && i < |n.children| && Nested(t) && t.prefix == n.children[i].prefix
    ensures Nested(Node(n.prefix, n.children[i := t]))
  {
  }

  /** A nested subtree inside the parent may be appended. */
  lemma NestedAppend(n: Node, c: Node)
    requires Nested(n) && Nested(c) && Contains(n.prefix, c.prefix)
    ensures Nested(AddChild(n, c))
  {
    var r := AddChild(n, c);
    assert forall k :: 0 <= k < |n.children| ==> r.children[k] == n.children[k];
  }

  /** Removing a child keeps a tree nested. */
  lemma NestedRemove(n: Node, j: nat)
    requires Nested(n) && j < |n.children|
    ensures Nested(RmChild(n, j))
  {
    var ds := RmChild(n, j).children;
    forall k | 0 <= k < |ds|
      ensures Contains(n.prefix, ds[k].prefix) && Nested(ds[k])
    {
      RemovedAt(n.children, j, k);
    }
  }

  /** Entry `k` of a list with entry `j` removed. */
  lemma RemovedAt(cs: seq<Node>, j: nat, k: nat)
    requires j < |cs| && k < |cs| - 1
    ensures (cs[..j] + cs[j + 1..])[k] == cs[if k < j then k else k + 1]
  {
  }

  /** A child may be replaced by a correct hierarchy with the same root prefix. */
  lemma WFReplace(n: Node, i: nat, t: Node)
    requires WF(n) && i < |n.children| && WF(t) && t.prefix == n.children[i].prefix
    ensures WF(Node(n.prefix, n.children[i := t]))
  {
    var r := Node(n.prefix, n.children[i := t]);
    assert forall k :: 0 <= k < |r.children| ==> r.children[k].prefix == n.children[k].prefix;
  }

  /** Removing a child keeps a correct hierarchy. */
  lemma WFRemove(n: Node, j: nat)
    requires WF(n) && j < |n.children|
    ensures WF(RmChild(n, j))
  {
    var cs, ds := n.children, RmChild(n, j).children;
    forall k | 0 <= k < |ds|
      ensures Contains(n.prefix, ds[k].prefix) && WF(ds[k])
    {
      RemovedAt(cs, j, k);
    }
    forall k1, k2 | 0 <= k1 < k2 < |ds|
      ensures Apart(ds[k1].prefix, ds[k2].prefix)
    {
      RemovedAt(cs, j, k1);
      RemovedAt(cs, j, k2);
      var o1, o2 := if k1 < j then k1 else k1 + 1, if k2 < j then k2 else k2 + 1;
      assert o1 < o2;
    }
  }
}

=== FILE: tree_add.dfy ===
/** `PrefixNode.add` in src/ipcidrtree/__init__.py, as the library writes it.

    A node offers the new subtree first to each of its non-/32 children in turn; if none
    takes it, an equal child means a duplicate; otherwise the new subtree offers to
    adopt the node's children, and the first child it manages to take is moved under
    it.  Only that first child moves: a second child that also lies inside the new
    prefix stays where it was, as a sibling of a prefix that contains it.
    `AddLeavesOverlap` shows the result is then no longer a correct hierarchy;
    `TreeAddAll.Insert` is the corrected operation the rest of the model uses.
 */
module TreeAdd {
  import opened Bits
  import opened Addresses
  import opened Netmasks
  import opened Prefixes
  import opened Trees

  /** What `add` does: returns False, returns True with the updated tree, or raises
      `DuplicatePrefixError` for a prefix (and then leaves the tree as it was). */
  datatype AddOutcome = NotAdded | Added(tree: Node) | Duplicate(prefix: Prefix)

  /** `n.add(c)`: a /32 node and a node that does not contain `c` refuse it; otherwise
      the subtree goes somewhere below `n`, and the prefixes of `n` and `c` together
      are the new tree's.  A reported duplicate is held by both. */
  function Add(n: Node, c: Node): (r: AddOutcome)
    ensures r.NotAdded? <==> IsHost(n.prefix) || !Contains(n.prefix, c.prefix)
    ensures r.Added? ==> r.tree.prefix == n.prefix && Members(r.tree) == Members(n) + Members(c)
    ensures r.Duplicate? ==> r.prefix in Members(n) && r.prefix in Members(c)
    decreases |Members(n)| + |Members(c)|, 3
  {
    if IsHost(n.prefix) || !Contains(n.prefix, c.prefix) then NotAdded
    else AddBelow(n, c, 0)
  }

  /** The loop over the children that are possible parents (those shorter than /32),
      from child `i` on. */
  function AddBelow(n: Node, c: Node, i: nat): (r: AddOutcome)
    requires i <= |n.children| && Contains(n.prefix, c.prefix)
    ensures !r.NotAdded?
    ensures r.Added? ==> r.tree.prefix == n.prefix && Members(r.tree) == Members(n) + Members(c)
    ensures r.Duplicate? ==> r.prefix in Members(n) && r.prefix in Members(c)
    decreases |Members(n)| + |Members(c)|, 2, |n.children| - i
  {
    if i == |n.children| then AddHere(n, c)
    else if IsHost(n.children[i].prefix) then AddBelow(n, c, i + 1)
    else
      MemberOfChild(n.children, i);
      match Add(n.children[i], c)
      case Added(t) =>
        GrowChild(n, i, t, c);
        Added(Node(n.prefix, n.children[i := t]))
      case Duplicate(q) => Duplicate(q)
      case NotAdded => AddBelow(n, c, i + 1)
  }

  /** No child took the subtree: an equal child is a duplicate, a /32 becomes a child,
      anything else first tries to adopt. */
  function AddHere(n: Node, c: Node): (r: AddOutcome)
    requires Contains(n.prefix, c.prefix)
    ensures !r.NotAdded?
    ensures r.Added? ==> r.tree.prefix == n.prefix && Members(r.tree) == Members(n) + Members(c)
    ensures r.Duplicate? ==> r.prefix in Members(n) && r.prefix in Members(c)
    decreases |Members(n)| + |Members(c)|, 1
  {
    if Parenting(n, c.prefix) then
      ParentingMember(n, c.prefix);
      Duplicate(c.prefix)
    else if Len(c.prefix) < 32 then Adopt(n, c, 0)
    else Added(AddChild(n, c))
  }

  /** The adoption loop from child `j` on: the first child the new subtree takes is
      moved under it, and the loop ends there. */
  function Adopt(n: Node, c: Node, j: nat): (r: AddOutcome)
    requires j <= |n.children| && Contains(n.prefix, c.prefix)
    ensures !r.NotAdded?
    ensures r.Added? ==> r.tree.prefix == n.prefix && Members(r.tree) == Members(n) + Members(c)
    ensures r.Duplicate? ==> r.prefix in Members(n) && r.prefix in Members(c)
    decreases |Members(n)| + |Members(c)|, 0, |n.children| - j
  {
    if j == |n.children| then Added(AddChild(n, c))
    else
      MemberOfChild(n.children, j);
      match Add(c, n.children[j])
      case Added(c2) =>
        MoveUnder(n, j, c2, c);
        Added(RmChild(AddChild(n, c2), j))
      case Duplicate(q) => Duplicate(q)
      case NotAdded => Adopt(n, c, j + 1)
  }

  lemma ParentingMember(n: Node, p: Prefix)
    requires Parenting(n, p)
    ensures p in Members(n)
  {
    var k :| 0 <= k < |n.children| && n.children[k].prefix == p;
    MemberOfChild(n.children, k);
  }

  // ---------------------------------------------------------------------------
  // What `add` does keep

  /** `add` keeps a nested tree nested: every child still lies inside its parent. */
  lemma {:induction false} AddKeepsNested(n: Node, c: Node)
    requires Nested(n) && Nested(c)
    ensures Add(n, c).Added? ==> Nested(Add(n, c).tree)
    decreases |Members(n)| + |Members(c)|, 3
  {
    if !IsHost(n.prefix) && Contains(n.prefix, c.prefix) {
      AddBelowKeepsNested(n, c, 0);
    }
  }

  lemma {:induction false} AddBelowKeepsNested(n: Node, c: Node, i: nat)
    requires Nested(n) && Nested(c) && i <= |n.children| && Contains(n.prefix, c.prefix)
    ensures AddBelow(n, c, i).Added? ==> Nested(AddBelow(n, c, i).tree)
    decreases |Members(n)| + |Members(c)|, 2, |n.children| - i
  {
    if i == |n.children| {
      AddHereKeepsNested(n, c);
    } else if IsHost(n.children[i].prefix) {
      AddBelowKeepsNested(n, c, i + 1);
    } else {
      MemberOfChild(n.children, i);
      var r := Add(n.children[i], c);
      AddKeepsNested(n.children[i], c);
      if r.Added? {
        NestedReplace(n, i, r.tree);
      } else if r.NotAdded? {
        AddBelowKeepsNested(n, c, i + 1);
      }
    }
  }

  lemma {:induction false} AddHereKeepsNested(n: Node, c: Node)
    requires Nested(n) && Nested(c) && Contains(n.prefix, c.prefix)
    ensures AddHere(n, c).Added? ==> Nested(AddHere(n, c).tree)
    decreases |Members(n)| + |Members(c)|, 1
  {
    if !Parenting(n, c.prefix) {
      if Len(c.prefix) < 32 {
        AdoptKeepsNested(n, c, 0);
      } else {
        NestedAppend(n, c);
      }
    }
  }

  lemma {:induction false} AdoptKeepsNested(n: Node, c: Node, j: nat)
    requires Nested(n) && Nested(c) && j <= |n.children| && Contains(n.prefix, c.prefix)
    ensures Adopt(n, c, j).Added? ==> Nested(Adopt(n, c, j).tree)
    decreases |Members(n)| + |Members(c)|, 0, |n.children| - j
  {
    if j == |n.children| {
      NestedAppend(n, c);
    } else {
      AdoptStep(n, c, j);
    }
  }

  lemma {:induction false} AdoptStep(n: Node, c: Node, j: nat)
    requires Nested(n) && Nested(c) && j < |n.children| && Contains(n.prefix, c.prefix)
    ensures Adopt(n, c, j).Added? ==> Nested(Adopt(n, c, j).tree)
    decreases |Members(n)| + |Members(c)|, 0, |n.children| - j, 0
  {
    MemberOfChild(n.children, j);
    AddKeepsNested(c, n.children[j]);
    AdoptCases(n, c, j);
    AdoptKeepsNested(n, c, j + 1);
  }

  /** One round of the adoption loop: the child is taken, the loop moves on, or the
      duplicate is reported. */
  lemma AdoptCases(n: Node, c: Node, j: nat)
    requires Nested(n) && j < |n.children| && Contains(n.prefix, c.prefix)
    ensures Add(c, n.children[j]).NotAdded? ==> Adopt(n, c, j) == Adopt(n, c, j + 1)
    ensures Add(c, n.children[j]).Duplicate? ==> Adopt(n, c, j).Duplicate?
    ensures Add(c, n.children[j]).Added? && Nested(Add(c, n.children[j]).tree) ==>
      Adopt(n, c, j).Added? && Nested(Adopt(n, c, j).tree)
  {
    var r := Add(c, n.children[j]);
    if r.Added? && Nested(r.tree) {
      NestedAppend(n, r.tree);
      NestedRemove(AddChild(n, r.tree), j);
    }
  }

  // ---------------------------------------------------------------------------
  // The overlap `add` leaves behind

  /** Two disjoint leaves `a` and `b` under a root `r`, and a new leaf `c` inside `r`
      that contains both: `add` moves `a` under `c` and leaves `b` beside `c`, although
      `c` contains it.  The tree before is a correct hierarchy; the tree after is not. */
  lemma AddLeavesOverlap(r: Prefix, a: Prefix, b: Prefix, c: Prefix)
    requires Valid(r) && Valid(a) && Valid(b) && Valid(c)
    requires Contains(r, c) && Contains(c, a) && Contains(c, b) && Apart(a, b)
    ensures WF(Node(r, [Node(a, []), Node(b, [])]))
    ensures Add(Node(r, [Node(a, []), Node(b, [])]), Node(c, []))
      == Added(Node(r, [Node(b, []), Node(c, [Node(a, [])])]))
    ensures !WF(Node(r, [Node(b, []), Node(c, [Node(a, [])])]))
  {
    var la, lb, lc := Node(a, []), Node(b, []), Node(c, []);
    var n := Node(r, [la, lb]);
    ContainsTransitive(r, c, a);
    ContainsTransitive(r, c, b);
    TwoLeaves(r, a, b);
    ContainsStrictOrder(c, a, c);
    ContainsStrictOrder(c, b, c);
    assert Add(la, lc).NotAdded? && Add(lb, lc).NotAdded?;
    PassesLeaves(n, lc);
    LeafTakesLeaf(c, a);
    assert !Parenting(n, c) by {
      assert n.children[0].prefix == a && n.children[1].prefix == b;
    }
    AdoptsFirst(n, lc, Node(c, [la]));
    OverlapNotWF(r, b, Node(c, [la]));
  }

  lemma TwoLeaves(r: Prefix, a: Prefix, b: Prefix)
    requires Valid(r) && Valid(a) && Valid(b) && Contains(r, a) && Contains(r, b) && Apart(a, b)
    ensures WF(Node(r, [Node(a, []), Node(b, [])]))
  {
    var n := Node(r, [Node(a, []), Node(b, [])]);
    assert WF(Node(a, [])) && WF(Node(b, []));
    assert SiblingsApart(n.children);
  }

  lemma OverlapNotWF(r: Prefix, b: Prefix, t: Node)
    requires Contains(t.prefix, b)
    ensures !WF(Node(r, [Node(b, []), t]))
  {
    var n := Node(r, [Node(b, []), t]);
    assert !Apart(n.children[0].prefix, n.children[1].prefix);
  }

  /** Neither child of `n` takes `c`, so `c` arrives at `n` itself. */
  lemma PassesLeaves(n: Node, c: Node)
    requires |n.children| == 2 && Contains(n.prefix, c.prefix) && !IsHost(n.prefix)
    requires Add(n.children[0], c).NotAdded? && Add(n.children[1], c).NotAdded?
    ensures Add(n, c) == AddHere(n, c)
  {
    assert AddBelow(n, c, 2) == AddHere(n, c);
    assert AddBelow(n, c, 1) == AddBelow(n, c, 2);
  }

  /** A leaf added to a leaf that contains it becomes its only child. */
  lemma LeafTakesLeaf(c: Prefix, a: Prefix)
    requires Contains(c, a)
    ensures Add(Node(c, []), Node(a, [])) == Added(Node(c, [Node(a, [])]))
  {
    var lc, la := Node(c, []), Node(a, []);
    assert !IsHost(c);
    assert !Parenting(lc, a);
    assert AddHere(lc, la) == Added(AddChild(lc, la));
    assert AddBelow(lc, la, 0) == AddHere(lc, la);
  }

  /** When the first child goes under `c`, `c` replaces it and becomes the last child. */
  lemma AdoptsFirst(n: Node, c: Node, c2: Node)
    requires |n.children| == 2 && Contains(n.prefix, c.prefix) && Len(c.prefix) < 32
    requires !Parenting(n, c.prefix) && Add(c, n.children[0]) == Added(c2)
    ensures AddHere(n, c) == Added(Node(n.prefix, [n.children[1], c2]))
  {
    assert AddHere(n, c) == Adopt(n, c, 0);
    var grown := AddChild(n, c2);
    assert grown.children == [n.children[0], n.children[1], c2];
    assert RmChild(grown, 0).children == [n.children[1], c2];
  }

  /** An instance of `AddLeavesOverlap`: the root 0.0.0.0/0 with the children
      0.0.0.0/2 and 64.0.0.0/2 (64.0.0.0 is the address 2^30, the size of a /2), to
      which the leaf 0.0.0.0/1 is added. */
  lemma AddOverlapExample(m0: Mask, m1: Mask, m2: Mask) returns (r: Prefix, a: Prefix, b: Prefix, c: Prefix)
    requires PrefixLen(m0) == 0 && PrefixLen(m1) == 1 && PrefixLen(m2) == 2
    ensures r == Prefix(0, m0) && c == Prefix(0, m1) && a == Prefix(0, m2)
    ensures b.addr == Netsize(m2) && b.mask == m2
    ensures WF(Node(r, [Node(a, []), Node(b, [])]))
    ensures Add(Node(r, [Node(a, []), Node(b, [])]), Node(c, []))
      == Added(Node(r, [Node(b, []), Node(c, [Node(a, [])])]))
    ensures !WF(Node(r, [Node(b, []), Node(c, [Node(a, [])])]))
  {
    r, c, a := Prefix(0, m0), Prefix(0, m1), Prefix(0, m2);
    var s := Netsize(m2);
    assert s <= MaxAddress && Netsize(m1) == 2 * s by {
      NetsizeIsPow2(m1);
      NetsizeIsPow2(m2);
      Pow2Below32(30);
    }
    b := Prefix(s, m2);
    ExampleContains(r, a, b, c);
    AddLeavesOverlap(r, a, b, c);
  }

  lemma ExampleContains(r: Prefix, a: Prefix, b: Prefix, c: Prefix)
    requires r.addr == 0 && c.addr == 0 && a.addr == 0 && b.addr == Size(b) && b.mask == a.mask
    requires Len(r) == 0 && Len(c) == 1 && Len(a) == 2 && Size(c) == 2 * Size(b)
    ensures Valid(r) && Valid(a) && Valid(b) && Valid(c)
    ensures Contains(r, c) && Contains(c, a) && Contains(c, b) && Apart(a, b)
  {
    ValidIffAligned(b);
    ContainsInterval(r, c);
    ContainsInterval(c, a);
    ContainsInterval(c, b);
  }
}

=== FILE: tree_add_all.dfy ===
/** The insertion `PrefixNode.add` evidently intends: the same descent and the same
    duplicate check, but the new subtree adopts every child of the landing node that
    lies inside it, not only the first one.  Each adopted child is itself inserted into
    the new subtree, so a child that covers part of the new subtree's own branch takes
    that part under it.

    `InsertKeepsWF` is the promise the class documentation makes: inserting into a
    correct CIDR hierarchy gives a correct CIDR hierarchy.  `InsertReportsShared` shows
    the duplicate error is raised exactly when the two trees share a prefix.
 */
module TreeAddAll {
  import opened Netmasks
  import opened Prefixes
  import opened Trees
  import opened TreeAdd

  /** `n.add(c)` with full adoption: a /32 node and a node that does not contain `c`
      refuse it; otherwise the subtree goes below `n` and the new tree holds the
      prefixes of both.  A reported duplicate occurs twice among them. */
  function Insert(n: Node, c: Node): (r: AddOutcome)
    ensures r.NotAdded? <==> IsHost(n.prefix) || !Contains(n.prefix, c.prefix)
    ensures r.Added? ==> r.tree.prefix == n.prefix && Members(r.tree) == Members(n) + Members(c)
    ensures r.Duplicate? ==> (Members(n) + Members(c))[r.prefix] >= 2
    decreases |Members(n)| + |Members(c)|, 3
  {
    if IsHost(n.prefix) || !Contains(n.prefix, c.prefix) then NotAdded
    else InsertBelow(n, c, 0)
  }

  /** The descent: children shorter than /32 are offered the subtree in turn, from
      child `i` on. */
  function InsertBelow(n: Node, c: Node, i: nat): (r: AddOutcome)
    requires i <= |n.children| && Contains(n.prefix, c.prefix)
    ensures !r.NotAdded?
    ensures r.Added? ==> r.tree.prefix == n.prefix && Members(r.tree) == Members(n) + Members(c)
    ensures r.Duplicate? ==> (Members(n) + Members(c))[r.prefix] >= 2
    decreases |Members(n)| + |Members(c)|, 2, |n.children| - i
  {
    if i == |n.children| then InsertHere(n, c)
    else if IsHost(n.children[i].prefix) then InsertBelow(n, c, i + 1)
    else
      MemberOfChild(n.children, i);
      match Insert(n.children[i], c)
      case Added(t) =>
        GrowChild(n, i, t, c);
        Added(Node(n.prefix, n.children[i := t]))
      case Duplicate(q) => Duplicate(q)
      case NotAdded => InsertBelow(n, c, i + 1)
  }

  /** No child took the subtree: an equal child is a duplicate, a /32 becomes a child,
      anything else gathers the children inside it first. */
  function InsertHere(n: Node, c: Node): (r: AddOutcome)
    requires Contains(n.prefix, c.prefix)
    ensures !r.NotAdded?
    ensures r.Added? ==> r.tree.prefix == n.prefix && Members(r.tree) == Members(n) + Members(c)
    ensures r.Duplicate? ==> (Members(n) + Members(c))[r.prefix] >= 2
    decreases |Members(n)| + |Members(c)|, 1
  {
    if Parenting(n, c.prefix) then
      ParentingMember(n, c.prefix);
      Duplicate(c.prefix)
    else if Len(c.prefix) < 32 then AdoptAll(n, c, 0, c, [])
    else Added(AddChild(n, c))
  }

  /** The adoption loop from child `i` on.  `acc` is the new subtree with the children
      adopted so far, `rest` the children it refused; between them they hold the
      prefixes of `c` and of the children already visited. */
  function AdoptAll(n: Node, c: Node, i: nat, acc: Node, rest: seq<Node>): (r: AddOutcome)
    requires i <= |n.children| && Contains(n.prefix, c.prefix) && acc.prefix == c.prefix
    requires Members(acc) + MembersOf(rest) == Members(c) + MembersOf(n.children[..i])
    ensures !r.NotAdded?
    ensures r.Added? ==> r.tree.prefix == n.prefix && Members(r.tree) == Members(n) + Members(c)
    ensures r.Duplicate? ==> (Members(n) + Members(c))[r.prefix] >= 2
    decreases |Members(n)| + |Members(c)|, 0, |n.children| - i
  {
    if i == |n.children| then
      Gathered(n, c, acc, rest);
      Added(Node(n.prefix, rest + [acc]))
    else
      AdoptBound(n, c, i, acc, rest);
      match Insert(acc, n.children[i])
      case Added(t) => AdoptAll(n, c, i + 1, t, rest)
      case Duplicate(q) => Duplicate(q)
      case NotAdded =>
        MembersOfAppend(rest, n.children[i]);
        AdoptAll(n, c, i + 1, acc, rest + [n.children[i]])
  }

  /** After the last child, the gathered subtree and the refused children hold the
      prefixes of `n`'s children and of `c`. */
  lemma Gathered(n: Node, c: Node, acc: Node, rest: seq<Node>)
    requires Members(acc) + MembersOf(rest) == Members(c) + MembersOf(n.children[..|n.children|])
    ensures Members(Node(n.prefix, rest + [acc])) == Members(n) + Members(c)
  {
    assert n.children[..|n.children|] == n.children;
    var a, r, m := Members(acc), MembersOf(rest), Members(c);
    var f := MembersOf(n.children);
    assert MembersOf(rest + [acc]) == r + a by {
      MembersOfAppend(rest, acc);
    }
    Regroup(a, r, m, f, multiset{n.prefix});
  }

  /** Offering child `i` to the gathered subtree stays below the measure, and the
      prefixes of the two are among those of `n` and `c`. */
  lemma AdoptBound(n: Node, c: Node, i: nat, acc: Node, rest: seq<Node>)
    requires i < |n.children|
    requires Members(acc) + MembersOf(rest) == Members(c) + MembersOf(n.children[..i])
    ensures Members(acc) + Members(n.children[i]) + MembersOf(rest)
      == Members(c) + MembersOf(n.children[..i + 1])
    ensures Members(acc) + Members(n.children[i]) <= Members(n) + Members(c)
    ensures |Members(acc)| + |Members(n.children[i])| < |Members(n)| + |Members(c)|
  {
    var a, r, m, y := Members(acc), MembersOf(rest), Members(c), Members(n.children[i]);
    var f, f1, all := MembersOf(n.children[..i]), MembersOf(n.children[..i + 1]), MembersOf(n.children);
    MembersOfFront(n.children, i);
    Regroup(a, r, m, f, y);
    assert Members(n) == multiset{n.prefix} + all;
    Within(a + y, r, m, f1, all, multiset{n.prefix});
  }

  /** Regrouping a multiset equation after adding `y` to both sides. */
  lemma Regroup(a: multiset<Prefix>, r: multiset<Prefix>, m: multiset<Prefix>, f: multiset<Prefix>,
                y: multiset<Prefix>)
    requires a + r == m + f
    ensures a + y + r == m + (f + y)
    ensures y + (r + a) == y + f + m
  {
    forall q
      ensures (a + y + r)[q] == (m + (f + y))[q] && (y + (r + a))[q] == (y + f + m)[q]
    {
      assert (a + r)[q] == (m + f)[q];
    }
  }

  /** A part of `m + f1`, with `f1` a part of `all`, is a part of `m + (p + all)`, and
      smaller than it once `p` is not empty. */
  lemma Within(a: multiset<Prefix>, r: multiset<Prefix>, m: multiset<Prefix>, f1: multiset<Prefix>,
               all: multiset<Prefix>, p: multiset<Prefix>)
    requires a + r == m + f1 && f1 <= all && |f1| <= |all| && |p| == 1
    ensures a <= (p + all) + m
    ensures |a| < |p + all| + |m|
  {
    forall q
      ensures a[q] <= ((p + all) + m)[q]
    {
      assert (a + r)[q] == (m + f1)[q];
    }
    assert |a + r| == |m + f1|;
  }

  // ---------------------------------------------------------------------------
  // The result is a correct CIDR hierarchy

  /** No child of `n` contains `p`. */
  predicate NoneContains(cs: seq<Node>, p: Prefix)
  {
    forall k :: 0 <= k < |cs| ==> !Contains(cs[k].prefix, p)
  }

  /** The refused children so far: distinct children among the first `i`, each apart
      from the new prefix `p`. */
  predicate Refused(n: Node, p: Prefix, i: nat, rest: seq<Node>)
    requires i <= |n.children|
  {
    && SiblingsApart(rest)
    && forall x :: x in rest ==> x in n.children[..i] && Apart(x.prefix, p)
  }

  /** Inserting into a correct hierarchy a correct hierarchy gives a correct hierarchy. */
  lemma {:induction false} InsertKeepsWF(n: Node, c: Node)
    requires WF(n) && WF(c)
    ensures Insert(n, c).Added? ==> WF(Insert(n, c).tree)
    decreases |Members(n)| + |Members(c)|, 3
  {
    if !IsHost(n.prefix) && Contains(n.prefix, c.prefix) {
      InsertBelowKeepsWF(n, c, 0);
    }
  }

  lemma {:induction false} InsertBelowKeepsWF(n: Node, c: Node, i: nat)
    requires WF(n) && WF(c) && i <= |n.children| && Contains(n.prefix, c.prefix)
    requires NoneContains(n.children[..i], c.prefix)
    ensures InsertBelow(n, c, i).Added? ==> WF(InsertBelow(n, c, i).tree)
    decreases |Members(n)| + |Members(c)|, 2, |n.children| - i
  {
    if i == |n.children| {
      assert n.children[..i] == n.children;
      InsertHereKeepsWF(n, c);
    } else {
      InsertBelowStep(n, c, i);
    }
  }

  lemma {:induction false} InsertBelowStep(n: Node, c: Node, i: nat)
    requires WF(n) && WF(c) && i < |n.children| && Contains(n.prefix, c.prefix)
    requires NoneContains(n.children[..i], c.prefix)
    ensures InsertBelow(n, c, i).Added? ==> WF(InsertBelow(n, c, i).tree)
    decreases |Members(n)| + |Members(c)|, 2, |n.children| - i, 0
  {
    var y := n.children[i];
    MemberOfChild(n.children, i);
    InsertKeepsWF(y, c);
    BelowCases(n, c, i);
    var r := Insert(y, c);
    if !IsHost(y.prefix) && r.Added? {
      WFReplace(n, i, r.tree);
    }
    if IsHost(y.prefix) || r.NotAdded? {
      NoneContainsGrow(n.children, i, c.prefix);
      InsertBelowKeepsWF(n, c, i + 1);
    }
  }

  /** One round of the descent: child `i` takes the subtree, reports a duplicate, or
      the loop moves on because that child does not contain the new prefix. */
  lemma BelowCases(n: Node, c: Node, i: nat)
    requires i < |n.children| && Contains(n.prefix, c.prefix)
    ensures var y := n.children[i];
      (IsHost(y.prefix) || Insert(y, c).NotAdded?) ==>
        !Contains(y.prefix, c.prefix) && InsertBelow(n, c, i) == InsertBelow(n, c, i + 1)
    ensures var y := n.children[i];
      !IsHost(y.prefix) && Insert(y, c).Added? ==>
        InsertBelow(n, c, i) == Added(Node(n.prefix, n.children[i := Insert(y, c).tree]))
  {
  }

  lemma NoneContainsGrow(cs: seq<Node>, i: nat, p: Prefix)
    requires i < |cs| && NoneContains(cs[..i], p) && !Contains(cs[i].prefix, p)
    ensures NoneContains(cs[..i + 1], p)
  {
    assert cs[..i + 1] == cs[..i] + [cs[i]];
  }

  lemma {:induction false} InsertHereKeepsWF(n: Node, c: Node)
    requires WF(n) && WF(c) && Contains(n.prefix, c.prefix) && NoneContains(n.children, c.prefix)
    ensures InsertHere(n, c).Added? ==> WF(InsertHere(n, c).tree)
    decreases |Members(n)| + |Members(c)|, 1
  {
    if !Parenting(n, c.prefix) {
      if Len(c.prefix) < 32 {
        assert n.children[..0] == [];
        AdoptAllKeepsWF(n, c, 0, c, []);
      } else {
        HostNextTo(n, c);
      }
    }
  }

  /** A /32 that no child equals or contains is apart from all of them. */
  lemma HostNextTo(n: Node, c: Node)
    requires WF(n) && WF(c) && Contains(n.prefix, c.prefix) && NoneContains(n.children, c.prefix)
    requires !Parenting(n, c.prefix) && IsHost(c.prefix)
    ensures WF(AddChild(n, c))
  {
    var r := AddChild(n, c);
    forall k | 0 <= k < |n.children|
      ensures Apart(r.children[k].prefix, c.prefix)
    {
      assert r.children[k] == n.children[k];
    }
  }

  lemma {:induction false} AdoptAllKeepsWF(n: Node, c: Node, i: nat, acc: Node, rest: seq<Node>)
    requires i <= |n.children| && Contains(n.prefix, c.prefix) && acc.prefix == c.prefix
    requires Members(acc) + MembersOf(rest) == Members(c) + MembersOf(n.children[..i])
    requires WF(n) && WF(acc) && Len(c.prefix) < 32
    requires NoneContains(n.children, c.prefix) && !Parenting(n, c.prefix)
    requires Refused(n, c.prefix, i, rest)
    ensures AdoptAll(n, c, i, acc, rest).Added? ==> WF(AdoptAll(n, c, i, acc, rest).tree)
    decreases |Members(n)| + |Members(c)|, 0, |n.children| - i
  {
    if i == |n.children| {
      GatheredWF(n, acc, rest);
    } else {
      AdoptAllStep(n, c, i, acc, rest);
    }
  }

  lemma {:induction false} AdoptAllStep(n: Node, c: Node, i: nat, acc: Node, rest: seq<Node>)
    requires i < |n.children| && Contains(n.prefix, c.prefix) && acc.prefix == c.prefix
    requires Members(acc) + MembersOf(rest) == Members(c) + MembersOf(n.children[..i])
    requires WF(n) && WF(acc) && Len(c.prefix) < 32
    requires NoneContains(n.children, c.prefix) && !Parenting(n, c.prefix)
    requires Refused(n, c.prefix, i, rest)
    ensures AdoptAll(n, c, i, acc, rest).Added? ==> WF(AdoptAll(n, c, i, acc, rest).tree)
    decreases |Members(n)| + |Members(c)|, 0, |n.children| - i, 0
  {
    var y := n.children[i];
    AdoptBound(n, c, i, acc, rest);
    InsertKeepsWF(acc, y);
    AdoptCases(n, c, i, acc, rest);
    RefusedStep(n, c.prefix, i, rest);
    var r := Insert(acc, y);
    if r.Added? {
      AdoptAllKeepsWF(n, c, i + 1, r.tree, rest);
    } else if r.NotAdded? {
      AdoptAllKeepsWF(n, c, i + 1, acc, rest + [y]);
    }
  }

  /** One round of the adoption loop: child `i` joins the gathered subtree, or is
      refused because it is not inside the new prefix. */
  lemma AdoptCases(n: Node, c: Node, i: nat, acc: Node, rest: seq<Node>)
    requires i < |n.children| && Contains(n.prefix, c.prefix) && acc.prefix == c.prefix
    requires Members(acc) + MembersOf(rest) == Members(c) + MembersOf(n.children[..i])
    requires Len(c.prefix) < 32
    ensures var y := n.children[i];
      Insert(acc, y).Added? ==>
        && Members(Insert(acc, y).tree) + MembersOf(rest) == Members(c) + MembersOf(n.children[..i + 1])
        && AdoptAll(n, c, i, acc, rest) == AdoptAll(n, c, i + 1, Insert(acc, y).tree, rest)
    ensures var y := n.children[i];
      Insert(acc, y).NotAdded? ==>
        && !Contains(c.prefix, y.prefix)
        && Members(acc) + MembersOf(rest + [y]) == Members(c) + MembersOf(n.children[..i + 1])
        && AdoptAll(n, c, i, acc, rest) == AdoptAll(n, c, i + 1, acc, rest + [y])
  {
    AdoptBound(n, c, i, acc, rest);
    MembersOfAppend(rest, n.children[i]);
  }

  /** One more child visited: a refused child joins the refused list, an adopted one
      leaves it as it was. */
  lemma RefusedStep(n: Node, p: Prefix, i: nat, rest: seq<Node>)
    requires WF(n) && i < |n.children| && Refused(n, p, i, rest)
    requires NoneContains(n.children, p) && !Parenting(n, p) && !IsHost(p)
    ensures Refused(n, p, i + 1, rest)
    ensures !Contains(p, n.children[i].prefix) ==> Refused(n, p, i + 1, rest + [n.children[i]])
  {
    var cs, y := n.children, n.children[i];
    assert cs[..i + 1] == cs[..i] + [y];
    if !Contains(p, y.prefix) {
      var r2 := rest + [y];
      assert y.prefix != p;
      forall k | 0 <= k < |rest|
        ensures Apart(rest[k].prefix, y.prefix)
      {
        assert rest[k] in cs[..i];
        var o :| 0 <= o < i && cs[o] == rest[k];
      }
      forall x | x in r2
        ensures x in cs[..i + 1] && Apart(x.prefix, p)
      {
        if x != y {
          assert x in rest;
        }
      }
    }
  }

  /** The gathered subtree next to the refused children is a correct hierarchy. */
  lemma GatheredWF(n: Node, acc: Node, rest: seq<Node>)
    requires WF(n) && WF(acc) && Contains(n.prefix, acc.prefix)
    requires Refused(n, acc.prefix, |n.children|, rest)
    ensures WF(Node(n.prefix, rest + [acc]))
  {
    var ds := rest + [acc];
    assert n.children[..|n.children|] == n.children;
    forall k | 0 <= k < |ds|
      ensures Contains(n.prefix, ds[k].prefix) && WF(ds[k])
    {
      if k < |rest| {
        assert ds[k] in rest;
      }
    }
    forall k1, k2 | 0 <= k1 < k2 < |ds|
      ensures Apart(ds[k1].prefix, ds[k2].prefix)
    {
      assert ds[k1] in rest;
    }
  }

  // ---------------------------------------------------------------------------
  // Duplicates

  /** Between correct hierarchies, the duplicate error is raised exactly when the two
      trees share a prefix, and otherwise the insertion succeeds with a correct
      hierarchy. */
  lemma InsertReportsShared(n: Node, c: Node)
    requires WF(n) && WF(c) && Contains(n.prefix, c.prefix) && !IsHost(n.prefix)
    ensures Insert(n, c).Duplicate? <==> exists q :: q in Members(n) && q in Members(c)
    ensures Insert(n, c).Duplicate? ==> Insert(n, c).prefix in Members(n) && Insert(n, c).prefix in Members(c)
    ensures Insert(n, c).Added? ==> WF(Insert(n, c).tree)
  {
    NoDuplicates(n);
    NoDuplicates(c);
    InsertKeepsWF(n, c);
    var r := Insert(n, c);
    if r.Added? {
      NoDuplicates(r.tree);
      forall q | q in Members(n)
        ensures q !in Members(c)
      {
        assert Members(r.tree)[q] == Members(n)[q] + Members(c)[q];
      }
    } else {
      var q := r.prefix;
      assert Members(n)[q] + Members(c)[q] >= 2;
    }
  }
}

=== FILE: tree_find.dfy ===
/** Searching and cutting the CIDR tree: `PrefixNode.find`, `find_loose` and `prune` in
    src/ipcidrtree/__init__.py.

    All three look at a node, give up when the key is not inside it, and otherwise try
    the children in order.  `prune` cuts out exactly the node `find` returns
    (`CutIsFind`); in a nested tree `find` succeeds exactly for the prefixes the tree
    holds (`FindExact`); and in a correct hierarchy `find_loose` returns the closest
    node covering the key (`FindLooseClosest`).
 */
module TreeFind {
  import opened Wrappers
  import opened Prefixes
  import opened Trees

  // ---------------------------------------------------------------------------
  // find

  /** `n.find(key)`: the node itself when its prefix is `key`, nothing when `key` is not
      inside it, else the first child subtree where the search succeeds. */
  function Find(n: Node, key: Prefix): (r: Option<Node>)
    ensures r.Some? ==> r.value.prefix == key && Members(r.value) <= Members(n)
    ensures r.Some? ==> Covers(n.prefix, key)
    decreases n, 1
  {
    if n.prefix == key then Some(n)
    else if !Contains(n.prefix, key) then None
    else FindFrom(n, key, 0)
  }

  /** The loop over the children of `n`, from child `i` on. */
  function FindFrom(n: Node, key: Prefix, i: nat): (r: Option<Node>)
    requires i <= |n.children|
    ensures r.Some? ==> r.value.prefix == key && Members(r.value) <= Members(n)
    decreases n, 0, |n.children| - i
  {
    if i == |n.children| then None
    else
      match Find(n.children[i], key)
      case Some(t) =>
        ChildWithin(n, i);
        Some(t)
      case None => FindFrom(n, key, i + 1)
  }

  /** A child's prefixes are among its parent's. */
  lemma ChildWithin(n: Node, i: nat)
    requires i < |n.children|
    ensures Members(n.children[i]) <= Members(n)
  {
    MemberOfChild(n.children, i);
    Part(Members(n), multiset{n.prefix}, MembersOf(n.children));
    SubsetTrans(Members(n.children[i]), MembersOf(n.children), Members(n));
  }

  lemma SubsetTrans(a: multiset<Prefix>, b: multiset<Prefix>, c: multiset<Prefix>)
    requires a <= b && b <= c
    ensures a <= c
  {
  }

  /** In a nested tree, `find` succeeds exactly for the prefixes the tree holds. */
  lemma {:induction false} FindExact(n: Node, key: Prefix)
    requires Nested(n)
    ensures Find(n, key).Some? <==> key in Members(n)
    decreases n, 1
  {
    if key in Members(n) && n.prefix != key {
      StrictlyBelow(n, key);
      var k := MemberOfSome(n.children, key);
      FindFromReaches(n, key, 0, k);
    }
  }

  /** Once child `k` holds the key, the loop started at or before `k` succeeds. */
  lemma {:induction false} FindFromReaches(n: Node, key: Prefix, i: nat, k: nat)
    requires Nested(n) && i <= k < |n.children| && key in Members(n.children[k])
    ensures FindFrom(n, key, i).Some?
    decreases n, 0, k - i
  {
    if i == k {
      FindExact(n.children[k], key);
    } else {
      FindFromReaches(n, key, i + 1, k);
    }
  }

  // ---------------------------------------------------------------------------
  // find_loose

  /** `n.find_loose(key)`: like `find`, but when no child succeeds the node itself is
      the answer; nothing only when `key` is not covered at all. */
  function FindLoose(n: Node, key: Prefix): (r: Option<Node>)
    ensures r.None? <==> !Covers(n.prefix, key)
    ensures r.Some? ==> Covers(r.value.prefix, key) && Members(r.value) <= Members(n)
    decreases n, 1
  {
    if n.prefix == key then Some(n)
    else if !Contains(n.prefix, key) then None
    else
      match FindLooseFrom(n, key, 0)
      case Some(t) => Some(t)
      case None => Some(n)
  }

  function FindLooseFrom(n: Node, key: Prefix, i: nat): (r: Option<Node>)
    requires i <= |n.children|
    ensures r.None? <==> forall k :: i <= k < |n.children| ==> !Covers(n.children[k].prefix, key)
    ensures r.Some? ==> Covers(r.value.prefix, key) && Members(r.value) <= Members(n)
    decreases n, 0, |n.children| - i
  {
    if i == |n.children| then None
    else
      match FindLoose(n.children[i], key)
      case Some(t) =>
        ChildWithin(n, i);
        Some(t)
      case None => FindLooseFrom(n, key, i + 1)
  }

  /** In a correct hierarchy the answer of `find_loose` is the closest covering node:
      every prefix of the tree that covers the key also covers the answer. */
  lemma {:induction false} FindLooseClosest(n: Node, key: Prefix, q: Prefix)
    requires WF(n) && Covers(n.prefix, key) && q in Members(n) && Covers(q, key)
    ensures Covers(q, FindLoose(n, key).value.prefix)
    decreases n
  {
    var r := FindLoose(n, key).value;
    WFNested(n);
    if n.prefix == key {
      NoneCoverBelowKey(n, q);
    } else if q == n.prefix {
      NestedCovers(n, r.prefix) by {
        assert r.prefix in Members(r);
      }
    } else {
      StrictlyBelow(n, q);
      var k := MemberOfSome(n.children, q);
      var y := n.children[k];
      NestedCovers(y, q) by {
        WFNested(y);
      }
      CoverTrans(y.prefix, q, key);
      OnlyCoveringChild(n, key, k);
      FindLooseFromAt(n, key, 0, k);
      FindLooseClosest(y, key, q);
    }
  }

  /** In a nested tree whose root is the key, only the root covers the key. */
  lemma NoneCoverBelowKey(n: Node, q: Prefix)
    requires Nested(n) && q in Members(n) && Covers(q, n.prefix)
    ensures q == n.prefix
  {
    if q != n.prefix {
      StrictlyBelow(n, q);
      ContainsStrictOrder(n.prefix, q, n.prefix);
    }
  }

  lemma CoverTrans(a: Prefix, b: Prefix, c: Prefix)
    requires Covers(a, b) && Covers(b, c)
    ensures Covers(a, c)
  {
    if a != b && b != c {
      ContainsTransitive(a, b, c);
    }
  }

  /** Siblings are apart, so when child `k` covers the key no other child does. */
  lemma OnlyCoveringChild(n: Node, key: Prefix, k: nat)
    requires WF(n) && k < |n.children| && Covers(n.children[k].prefix, key)
    ensures forall j :: 0 <= j < |n.children| && j != k ==> !Covers(n.children[j].prefix, key)
  {
    forall j | 0 <= j < |n.children| && j != k
      ensures !Covers(n.children[j].prefix, key)
    {
      var a, b := n.children[j].prefix, n.children[k].prefix;
      assert Apart(a, b) by {
        if j > k {
          assert Apart(b, a);
        }
      }
      ApartCoverNotBoth(a, b, key);
    }
  }

  /** Two prefixes apart from each other never cover the same prefix. */
  lemma ApartCoverNotBoth(a: Prefix, b: Prefix, x: Prefix)
    requires Covers(b, x)
    ensures Apart(a, b) ==> !Covers(a, x)
  {
    if Covers(a, x) {
      CommonCover(a, b, x);
    }
  }

  /** With child `k` the only one covering the key, the loop answers with that child's
      answer. */
  lemma {:induction false} FindLooseFromAt(n: Node, key: Prefix, i: nat, k: nat)
    requires i <= k < |n.children| && Covers(n.children[k].prefix, key)
    requires forall j :: 0 <= j < |n.children| && j != k ==> !Covers(n.children[j].prefix, key)
    ensures FindLooseFrom(n, key, i) == FindLoose(n.children[k], key)
    decreases k - i
  {
    if i < k {
      assert FindLoose(n.children[i], key).None?;
      FindLooseFromAt(n, key, i + 1, k);
    }
  }

  /** In a correct hierarchy that holds the key, `find_loose` and `find` agree. */
  lemma {:induction false} FindLooseExact(n: Node, key: Prefix)
    requires WF(n) && key in Members(n)
    ensures FindLoose(n, key) == Find(n, key)
    decreases n
  {
    if n.prefix != key {
      WFNested(n);
      StrictlyBelow(n, key);
      var k := MemberOfSome(n.children, key);
      var y := n.children[k];
      NestedCovers(y, key) by {
        WFNested(y);
      }
      OnlyCoveringChild(n, key, k);
      FindLooseFromAt(n, key, 0, k);
      FindFromAt(n, key, 0, k);
      FindLooseExact(y, key);
    }
  }

  /** The exact search skips every child that does not cover the key, and so answers
      with child `k`'s answer when that one succeeds. */
  lemma {:induction false} FindFromAt(n: Node, key: Prefix, i: nat, k: nat)
    requires i <= k < |n.children|
    requires forall j :: 0 <= j < |n.children| && j != k ==> !Covers(n.children[j].prefix, key)
    ensures Find(n.children[k], key).Some? ==> FindFrom(n, key, i) == Find(n.children[k], key)
    decreases k - i
  {
    if i < k {
      assert Find(n.children[i], key).None?;
      FindFromAt(n, key, i + 1, k);
    }
  }

  // ---------------------------------------------------------------------------
  // prune

  /** What `prune` leaves: the tree, and the cut-out branch if one was found. */
  datatype Pruned = Pruned(tree: Node, branch: Option<Node>)

  /** `n.prune(key)`: refused for the root itself; otherwise the first node with that
      prefix is cut out and returned, and the rest of the tree keeps every other
      prefix. */
  function Prune(n: Node, key: Prefix): (r: Result<Pruned>)
    ensures r.Err? <==> n.prefix == key
    ensures r.Err? ==> r.fault == RootPrune
    ensures r.Ok? ==> r.value.tree.prefix == n.prefix
    ensures r.Ok? && r.value.branch.None? ==> r.value.tree == n
    ensures r.Ok? && r.value.branch.Some? ==>
      r.value.branch.value.prefix == key && Members(r.value.tree) + Members(r.value.branch.value) == Members(n)
  {
    if n.prefix == key then Err(RootPrune) else Ok(Cut(n, key))
  }

  /** `prune` below a node whose prefix is not the key. */
  function Cut(n: Node, key: Prefix): (r: Pruned)
    requires n.prefix != key
    ensures r.tree.prefix == n.prefix
    ensures r.branch.None? ==> r.tree == n
    ensures r.branch.Some? ==> r.branch.value.prefix == key && Members(r.tree) + Members(r.branch.value) == Members(n)
    decreases n, 1
  {
    if !Contains(n.prefix, key) then Pruned(n, None) else CutFrom(n, key, 0)
  }

  /** The loop over the children from child `i` on: a child with the key is removed,
      any other child is pruned in turn. */
  function CutFrom(n: Node, key: Prefix, i: nat): (r: Pruned)
    requires i <= |n.children|
    ensures r.tree.prefix == n.prefix
    ensures r.branch.None? ==> r.tree == n
    ensures r.branch.Some? ==> r.branch.value.prefix == key && Members(r.tree) + Members(r.branch.value) == Members(n)
    decreases n, 0, |n.children| - i
  {
    if i == |n.children| then Pruned(n, None)
    else if n.children[i].prefix == key then
      RmChildMembers(n, i);
      Pruned(RmChild(n, i), Some(n.children[i]))
    else
      var sub := Cut(n.children[i], key);
      match sub.branch
      case Some(b) =>
        ShrinkChild(n, i, sub.tree, b);
        Pruned(Node(n.prefix, n.children[i := sub.tree]), Some(b))
      case None => CutFrom(n, key, i + 1)
  }

  lemma RmChildMembers(n: Node, i: nat)
    requires i < |n.children|
    ensures Members(RmChild(n, i)) + Members(n.children[i]) == Members(n)
  {
  }

  /** A child replaced by what is left of it after cutting out `b`. */
  lemma ShrinkChild(n: Node, i: nat, t: Node, b: Node)
    requires i < |n.children| && Members(t) + Members(b) == Members(n.children[i])
    ensures Members(Node(n.prefix, n.children[i := t])) + Members(b) == Members(n)
  {
    var ds := n.children[i := t];
    MembersOfUpdate(n.children, i, t);
    Cancel(MembersOf(ds), Members(t), Members(b), MembersOf(n.children), multiset{n.prefix});
  }

  lemma Cancel(d: multiset<Prefix>, t: multiset<Prefix>, b: multiset<Prefix>, c: multiset<Prefix>,
               p: multiset<Prefix>)
    requires d + (t + b) == c + t
    ensures p + d + b == p + c
  {
    forall q
      ensures (p + d + b)[q] == (p + c)[q]
    {
      assert (d + (t + b))[q] == (c + t)[q];
    }
  }

  /** `prune` cuts out exactly the node `find` returns. */
  lemma {:induction false} CutIsFind(n: Node, key: Prefix)
    requires n.prefix != key
    ensures Cut(n, key).branch == Find(n, key)
    decreases n, 1
  {
    if Contains(n.prefix, key) {
      CutFromIsFindFrom(n, key, 0);
    }
  }

  lemma {:induction false} CutFromIsFindFrom(n: Node, key: Prefix, i: nat)
    requires i <= |n.children|
    ensures CutFrom(n, key, i).branch == FindFrom(n, key, i)
    decreases n, 0, |n.children| - i
  {
    if i < |n.children| {
      var y := n.children[i];
      if y.prefix != key {
        CutIsFind(y, key);
        CutFromIsFindFrom(n, key, i + 1);
      }
    }
  }

  /** In a nested tree, `prune` finds a branch exactly when the tree holds the key
      below its root. */
  lemma PruneExact(n: Node, key: Prefix)
    requires Nested(n) && n.prefix != key
    ensures Prune(n, key).Ok?
    ensures Prune(n, key).value.branch.Some? <==> key in Members(n)
    ensures Prune(n, key).value.branch == Find(n, key)
  {
    CutIsFind(n, key);
    FindExact(n, key);
  }

  /** Pruning a correct hierarchy leaves two correct hierarchies, and the key is gone
      from the tree that remains. */
  lemma {:induction false} CutKeepsWF(n: Node, key: Prefix)
    requires WF(n) && n.prefix != key
    ensures WF(Cut(n, key).tree)
    ensures Cut(n, key).branch.Some? ==> WF(Cut(n, key).branch.value)
    decreases n, 1
  {
    if Contains(n.prefix, key) {
      CutFromKeepsWF(n, key, 0);
    }
  }

  lemma {:induction false} CutFromKeepsWF(n: Node, key: Prefix, i: nat)
    requires WF(n) && i <= |n.children|
    ensures WF(CutFrom(n, key, i).tree)
    ensures CutFrom(n, key, i).branch.Some? ==> WF(CutFrom(n, key, i).branch.value)
    decreases n, 0, |n.children| - i
  {
    if i < |n.children| {
      var y := n.children[i];
      if y.prefix == key {
        WFRemove(n, i);
      } else {
        CutKeepsWF(y, key);
        var sub := Cut(y, key);
        if sub.branch.Some? {
          WFReplace(n, i, sub.tree);
        } else {
          CutFromKeepsWF(n, key, i + 1);
        }
      }
    }
  }

  /** After a successful `prune` of a correct hierarchy, the remaining tree no longer
      holds the key, and both results are correct hierarchies. */
  lemma PruneRemovesKey(n: Node, key: Prefix)
    requires WF(n)
    ensures Prune(n, key).Ok? && Prune(n, key).value.branch.Some? ==>
      && key !in Members(Prune(n, key).value.tree)
      && WF(Prune(n, key).value.tree)
      && WF(Prune(n, key).value.branch.value)
  {
    if n.prefix != key {
      CutKeepsWF(n, key);
      var r := Cut(n, key);
      if r.branch.Some? {
        NoDuplicates(n);
        assert Members(n)[key] == Members(r.tree)[key] + Members(r.branch.value)[key];
      }
    }
  }
}

=== FILE: tree_renumber.dfy ===
/** Moving a branch of the CIDR tree to another part of the address space:
    `PrefixNode._rrenumber` and `PrefixNode.renumber` in src/ipcidrtree/__init__.py.

    `RenumberAll` renumbers every prefix of a branch with `Prefix.renumber`.  Below a
    common root it keeps the branch a correct hierarchy (`RenumberAllWF`), and renumbering
    back to the old root restores it (`RenumberAllRoundTrip`), which is what the rollback
    after a duplicate relies on.

    `RenumberNode` is the node operation: it checks both prefixes, cuts the old branch
    out, renumbers it and inserts it again.  As written, the source cuts the branch
    before the stricter-mask check of `Prefix.renumber` can fail, and the branch is then
    lost (`RenumberAsWrittenLosesBranch`).  `RenumberNode` leaves the tree as it was on
    every error but the duplicate one, and after a duplicate it puts the branch back;
    it keeps the tree a correct hierarchy (`RenumberNodeKeepsWF`).  Its insertion is the
    full-adoption `TreeAddAll.Insert`; `RenumberNodeAsWritten` inserts with the
    as-written `TreeAdd.Add`.

    `RenumberAll` recurses as the source evidently means to.  As written, `_rrenumber`
    calls `c.rrenumber` on each child, a method `PrefixNode` does not have
    (`RenumberAllAsWritten`), so a branch with children is cut out and then lost
    (`RenumberAsWrittenLosesChildren`).
 */
module TreeRenumber {
  import opened Bits
  import opened Wrappers
  import opened Netmasks
  import opened Addresses
  import opened Prefixes
  import opened PrefixRenumber
  import opened Trees
  import opened TreeAdd
  import opened TreeAddAll
  import opened TreeFind

  // ---------------------------------------------------------------------------
  // _rrenumber

  /** The evidently intended `b._rrenumber(np)`, recursing through `_rrenumber`: the
      node's prefix, then every child branch.  A prefix shorter than `np` cannot be
      renumbered and fails with `StricterMask`.  The code as written is
      `RenumberAllAsWritten`. */
  function RenumberAll(b: Node, np: Prefix): (r: Result<Node>)
    ensures r.Ok? <==> Len(np) <= Len(b.prefix) && RenumberEach(b.children, np).Ok?
    ensures r.Err? ==> r.fault == StricterMask
    ensures r.Ok? ==> r.value == Node(Renumber(b.prefix, np).value, RenumberEach(b.children, np).value)
    decreases b, 1
  {
    match Renumber(b.prefix, np)
    case Err(f) => Err(f)
    case Ok(p) =>
      match RenumberEach(b.children, np)
      case Err(f) => Err(f)
      case Ok(cs) => Ok(Node(p, cs))
  }

  /** The intended loop over a list of children, each renumbered with `RenumberAll`. */
  function RenumberEach(cs: seq<Node>, np: Prefix): (r: Result<seq<Node>>)
    ensures r.Ok? <==> forall k :: 0 <= k < |cs| ==> RenumberAll(cs[k], np).Ok?
    ensures r.Err? ==> r.fault == StricterMask
    ensures r.Ok? ==> |r.value| == |cs| && forall k :: 0 <= k < |cs| ==> RenumberAll(cs[k], np) == Ok(r.value[k])
    decreases cs, 0
  {
    if |cs| == 0 then Ok([])
    else
      var init, last := cs[..|cs| - 1], cs[|cs| - 1];
      match RenumberEach(init, np)
      case Err(f) => Err(f)
      case Ok(front) =>
        match RenumberAll(last, np)
        case Err(f) => Err(f)
        case Ok(t) => Ok(front + [t])
  }

  /** In a nested branch every prefix is at least as long as the root, so renumbering
      fails exactly when the root is shorter than `np`. */
  lemma {:induction false} RenumberAllExact(b: Node, np: Prefix)
    requires Nested(b)
    ensures RenumberAll(b, np).Ok? <==> Len(np) <= Len(b.prefix)
    decreases b
  {
    if Len(np) <= Len(b.prefix) {
      forall k | 0 <= k < |b.children|
        ensures RenumberAll(b.children[k], np).Ok?
      {
        RenumberAllExact(b.children[k], np);
      }
    }
  }

  /** Renumbering a correct hierarchy whose prefixes lie below `src`, with `np` no
      longer than `src`, gives a correct hierarchy. */
  lemma {:induction false} RenumberAllWF(t: Node, src: Prefix, np: Prefix)
    requires Valid(src) && Valid(np) && Len(np) <= Len(src)
    requires WF(t) && Covers(src, t.prefix)
    ensures RenumberAll(t, np).Ok? && WF(RenumberAll(t, np).value)
    decreases t
  {
    var cs := t.children;
    forall k | 0 <= k < |cs|
      ensures RenumberAll(cs[k], np).Ok? && WF(RenumberAll(cs[k], np).value)
    {
      CoverTrans(src, t.prefix, cs[k].prefix);
      RenumberAllWF(cs[k], src, np);
    }
    RenumberKeepsNesting(src, np, t.prefix, t.prefix);
    var r := RenumberAll(t, np).value;
    forall k | 0 <= k < |cs|
      ensures Contains(r.prefix, r.children[k].prefix)
    {
      CoverTrans(src, t.prefix, cs[k].prefix);
      RenumberKeepsNesting(src, np, t.prefix, cs[k].prefix);
    }
    forall i, j | 0 <= i < j < |cs|
      ensures Apart(r.children[i].prefix, r.children[j].prefix)
    {
      RenumberedApart(t, src, np, i, j);
    }
  }

  /** Two apart siblings stay apart. */
  lemma RenumberedApart(t: Node, src: Prefix, np: Prefix, i: nat, j: nat)
    requires Valid(src) && Valid(np) && Len(np) <= Len(src)
    requires WF(t) && Covers(src, t.prefix) && i < j < |t.children|
    requires RenumberAll(t.children[i], np).Ok? && RenumberAll(t.children[j], np).Ok?
    ensures Apart(RenumberAll(t.children[i], np).value.prefix, RenumberAll(t.children[j], np).value.prefix)
  {
    var x, y := t.children[i].prefix, t.children[j].prefix;
    CoverTrans(src, t.prefix, x);
    CoverTrans(src, t.prefix, y);
    RenumberKeepsNesting(src, np, x, y);
    RenumberKeepsNesting(src, np, y, x);
  }

  /** Renumbering a nested branch below `src` and then back to `src` restores it. */
  lemma {:induction false} RenumberAllRoundTrip(t: Node, src: Prefix, np: Prefix)
    requires Valid(src) && Valid(np) && Len(np) <= Len(src)
    requires Nested(t) && Covers(src, t.prefix)
    ensures RenumberAll(t, np).Ok? && RenumberAll(RenumberAll(t, np).value, src) == Ok(t)
    decreases t
  {
    var cs := t.children;
    forall k | 0 <= k < |cs|
      ensures RenumberAll(cs[k], np).Ok? && RenumberAll(RenumberAll(cs[k], np).value, src) == Ok(cs[k])
    {
      CoverTrans(src, t.prefix, cs[k].prefix);
      RenumberAllRoundTrip(cs[k], src, np);
    }
    RenumberRoundTrip(src, np, t.prefix);
    var r := RenumberAll(t, np).value;
    assert forall k :: 0 <= k < |r.children| ==> RenumberAll(r.children[k], src).Ok?;
    var back := RenumberEach(r.children, src).value;
    assert back == cs;
  }

  // ---------------------------------------------------------------------------
  // renumber

  /** What `renumber` leaves behind: the tree, and the exception it raised, if any. */
  datatype Renumbered = Renumbered(tree: Node, raised: Option<Fault>)

  /** `n.renumber(oldp, newp)` with the branch kept when it cannot be renumbered.
      Both prefixes must lie inside `n` and `newp` must not be in the tree; the branch at
      `oldp` is cut out, renumbered into `newp` and inserted again. */
  function RenumberNode(n: Node, oldp: Prefix, newp: Prefix): (r: Renumbered)
    ensures r.tree.prefix == n.prefix
    ensures r.raised == Some(NotContained) <==> !Contains(n.prefix, oldp) || !Contains(n.prefix, newp)
    ensures r.raised == Some(AlreadyExists) <==>
      Contains(n.prefix, oldp) && Contains(n.prefix, newp) && Find(n, newp).Some?
    ensures r.raised.Some? && r.raised.value in {NotContained, AlreadyExists, NotFound} ==> r.tree == n
    ensures r.raised.Some? ==> r.raised.value in {NotContained, AlreadyExists, NotFound, StricterMask, DuplicatePrefix}
  {
    if !Contains(n.prefix, oldp) || !Contains(n.prefix, newp) then Renumbered(n, Some(NotContained))
    else if Find(n, newp).Some? then Renumbered(n, Some(AlreadyExists))
    else
      var cut := Cut(n, oldp);
      match cut.branch
      case None => Renumbered(n, Some(NotFound))
      case Some(b) =>
        match RenumberAll(b, newp)
        case Err(f) => Renumbered(n, Some(f))
        case Ok(moved) => Reinsert(cut.tree, moved, oldp)
  }

  /** The insertion of the renumbered branch into the rest of the tree.  When it
      reports a duplicate the branch is renumbered back to `oldp`, inserted again, and
      the duplicate error is raised. */
  function Reinsert(t: Node, moved: Node, oldp: Prefix): (r: Renumbered)
    ensures r.tree.prefix == t.prefix
    ensures r.raised.Some? ==> r.raised.value == StricterMask || r.raised.value == DuplicatePrefix
    ensures r.raised.None? ==> Insert(t, moved).Added? || Insert(t, moved).NotAdded?
    ensures r.raised.None? && Insert(t, moved).Added? ==> Members(r.tree) == Members(t) + Members(moved)
  {
    match Insert(t, moved)
    case Added(t2) => Renumbered(t2, None)
    case NotAdded => Renumbered(t, None)
    case Duplicate(_) =>
      match RenumberAll(moved, oldp)
      case Err(f) => Renumbered(t, Some(f))
      case Ok(back) =>
        match Insert(t, back)
        case Added(t3) => Renumbered(t3, Some(DuplicatePrefix))
        case NotAdded => Renumbered(t, Some(DuplicatePrefix))
        case Duplicate(_) => Renumbered(t, Some(DuplicatePrefix))
  }

  /** `b._rrenumber(np)` as written: the node's own prefix is renumbered, and then the
      loop over the children calls `c.rrenumber`, a method `PrefixNode` does not have.
      Only a leaf gets through. */
  function RenumberAllAsWritten(b: Node, np: Prefix): (r: Result<Node>)
    ensures r.Ok? <==> Len(np) <= Len(b.prefix) && |b.children| == 0
    ensures Len(np) > Len(b.prefix) ==> r == Err(StricterMask)
    ensures Len(np) <= Len(b.prefix) && |b.children| > 0 ==> r == Err(MissingAttribute)
    ensures |b.children| == 0 ==> r == RenumberAll(b, np)
  {
    match Renumber(b.prefix, np)
    case Err(f) => Err(f)
    case Ok(p) => if |b.children| > 0 then Err(MissingAttribute) else Ok(Node(p, []))
  }

  /** The insertion of `renumber` as written: the same steps as `Reinsert`, through the
      as-written `add`, which adopts at most one existing child, and the as-written
      `_rrenumber` for the way back. */
  function ReinsertAsWritten(t: Node, moved: Node, oldp: Prefix): (r: Renumbered)
    ensures r.tree.prefix == t.prefix
    ensures r.raised.Some? ==>
      || r.raised.value == StricterMask
      || r.raised.value == DuplicatePrefix
      || (r.raised.value == MissingAttribute && |moved.children| > 0)
    ensures r.raised.None? ==> Add(t, moved).Added? || Add(t, moved).NotAdded?
    ensures r.raised.None? && Add(t, moved).Added? ==> Members(r.tree) == Members(t) + Members(moved)
    ensures r.raised == Some(DuplicatePrefix) ==> Add(t, moved).Duplicate?
  {
    match Add(t, moved)
    case Added(t2) => Renumbered(t2, None)
    case NotAdded => Renumbered(t, None)
    case Duplicate(_) =>
      match RenumberAllAsWritten(moved, oldp)
      case Err(f) => Renumbered(t, Some(f))
      case Ok(back) =>
        match Add(t, back)
        case Added(t3) => Renumbered(t3, Some(DuplicatePrefix))
        case NotAdded => Renumbered(t, Some(DuplicatePrefix))
        case Duplicate(_) => Renumbered(t, Some(DuplicatePrefix))
  }

  /** `n.renumber(oldp, newp)` as written: the branch is cut out before `_rrenumber` can
      fail, and on that failure the tree is left without it.  As written `_rrenumber`
      fails on every branch with children (`RenumberAllAsWritten`), so only a leaf can
      be moved; insertion is the as-written `add`. */
  function RenumberNodeAsWritten(n: Node, oldp: Prefix, newp: Prefix): (r: Renumbered)
    ensures r.tree.prefix == n.prefix
    ensures r.raised == Some(NotContained) <==> !Contains(n.prefix, oldp) || !Contains(n.prefix, newp)
    ensures r.raised == Some(AlreadyExists) <==>
      Contains(n.prefix, oldp) && Contains(n.prefix, newp) && Find(n, newp).Some?
    ensures r.raised.Some? && r.raised.value in {NotContained, AlreadyExists, NotFound} ==> r.tree == n
    ensures r.raised.Some? ==>
      r.raised.value in {NotContained, AlreadyExists, NotFound, StricterMask, DuplicatePrefix, MissingAttribute}
  {
    if !Contains(n.prefix, oldp) || !Contains(n.prefix, newp) then Renumbered(n, Some(NotContained))
    else if Find(n, newp).Some? then Renumbered(n, Some(AlreadyExists))
    else
      var cut := Cut(n, oldp);
      match cut.branch
      case None => Renumbered(n, Some(NotFound))
      case Some(b) =>
        match RenumberAllAsWritten(b, newp)
        case Err(f) => Renumbered(cut.tree, Some(f))
        case Ok(moved) => ReinsertAsWritten(cut.tree, moved, oldp)
  }

  /** In a correct hierarchy each error is raised exactly in its own situation:
      `newp` already in the tree, `oldp` not in it, or `newp` longer than `oldp`. */
  lemma RenumberNodeErrors(n: Node, oldp: Prefix, newp: Prefix)
    requires WF(n)
    ensures RenumberNode(n, oldp, newp).raised == Some(AlreadyExists) <==>
      Contains(n.prefix, oldp) && Contains(n.prefix, newp) && newp in Members(n)
    ensures RenumberNode(n, oldp, newp).raised == Some(NotFound) <==>
      Contains(n.prefix, oldp) && Contains(n.prefix, newp) && newp !in Members(n) && oldp !in Members(n)
    ensures RenumberNode(n, oldp, newp).raised == Some(StricterMask) <==>
      Contains(n.prefix, oldp) && Contains(n.prefix, newp) && newp !in Members(n) && oldp in Members(n)
      && Len(oldp) < Len(newp)
  {
    WFNested(n);
    FindExact(n, newp);
    FindExact(n, oldp);
    if Contains(n.prefix, oldp) && Contains(n.prefix, newp) && Find(n, newp).None? {
      CutIsFind(n, oldp);
      var cut := Cut(n, oldp);
      if cut.branch.Some? {
        var b := cut.branch.value;
        CutKeepsWF(n, oldp);
        WFNested(b);
        RenumberAllExact(b, newp);
        if RenumberAll(b, newp).Ok? {
          RenumberBack(b, newp, oldp);
          ReinsertRaises(cut.tree, RenumberAll(b, newp).value, oldp);
        }
      }
    }
  }

  /** `Reinsert` raises only the duplicate error, or the error of renumbering back. */
  lemma ReinsertRaises(t: Node, moved: Node, oldp: Prefix)
    ensures Reinsert(t, moved, oldp).raised != Some(NotFound)
    ensures Reinsert(t, moved, oldp).raised != Some(AlreadyExists)
    ensures RenumberAll(moved, oldp).Ok? ==> Reinsert(t, moved, oldp).raised != Some(StricterMask)
  {
  }

  /** Renumbering keeps every mask, so a renumbered nested branch can always be
      renumbered back to a root no longer than its own. */
  lemma {:induction false} RenumberBack(t: Node, np: Prefix, src: Prefix)
    requires Nested(t) && Len(src) <= Len(t.prefix) && RenumberAll(t, np).Ok?
    ensures RenumberAll(RenumberAll(t, np).value, src).Ok?
    decreases t
  {
    var r := RenumberAll(t, np).value;
    forall k | 0 <= k < |t.children|
      ensures RenumberAll(r.children[k], src).Ok?
    {
      RenumberBack(t.children[k], np, src);
    }
  }

  /** Renumbering keeps a correct hierarchy correct.  After a duplicate the tree holds
      again what it held before; after success it holds the renumbered branch in place
      of the old one. */
  lemma RenumberNodeKeepsWF(n: Node, oldp: Prefix, newp: Prefix)
    requires WF(n) && Valid(newp)
    ensures WF(RenumberNode(n, oldp, newp).tree)
    ensures RenumberNode(n, oldp, newp).raised == Some(StricterMask) ==> RenumberNode(n, oldp, newp).tree == n
    ensures RenumberNode(n, oldp, newp).raised == Some(DuplicatePrefix) ==>
      Members(RenumberNode(n, oldp, newp).tree) == Members(n)
    ensures RenumberNode(n, oldp, newp).raised.None? ==>
      && Find(n, oldp).Some?
      && RenumberAll(Find(n, oldp).value, newp).Ok?
      && Members(RenumberNode(n, oldp, newp).tree) + Members(Find(n, oldp).value)
         == Members(n) + Members(RenumberAll(Find(n, oldp).value, newp).value)
  {
    if Contains(n.prefix, oldp) && Contains(n.prefix, newp) && Find(n, newp).None? {
      CutIsFind(n, oldp);
      CutKeepsWF(n, oldp);
      var cut := Cut(n, oldp);
      if cut.branch.Some? && RenumberAll(cut.branch.value, newp).Ok? {
        MovedBranch(n, oldp, newp, cut.tree, cut.branch.value);
      }
    }
  }

  /** The step after the cut: the renumbered branch lands inside the tree, and a
      duplicate is undone. */
  lemma MovedBranch(n: Node, oldp: Prefix, newp: Prefix, t: Node, b: Node)
    requires WF(n) && Valid(newp) && Contains(n.prefix, oldp) && Contains(n.prefix, newp)
    requires WF(t) && WF(b) && t.prefix == n.prefix && b.prefix == oldp
    requires Members(t) + Members(b) == Members(n)
    requires RenumberAll(b, newp).Ok?
    ensures WF(Reinsert(t, RenumberAll(b, newp).value, oldp).tree)
    ensures Reinsert(t, RenumberAll(b, newp).value, oldp).raised != Some(StricterMask)
    ensures Reinsert(t, RenumberAll(b, newp).value, oldp).raised == Some(DuplicatePrefix) ==>
      Members(Reinsert(t, RenumberAll(b, newp).value, oldp).tree) == Members(n)
    ensures Reinsert(t, RenumberAll(b, newp).value, oldp).raised.None? ==>
      Members(Reinsert(t, RenumberAll(b, newp).value, oldp).tree) + Members(b) == Members(n) + Members(RenumberAll(b, newp).value)
  {
    var moved := RenumberAll(b, newp).value;
    MovedInside(n, oldp, newp, b);
    InsertKeepsWF(t, moved);
    if Insert(t, moved).Duplicate? {
      RollBack(n, oldp, newp, t, b);
    } else {
      var x := Members(Insert(t, moved).tree);
      Exchange(x, Members(t), Members(b), Members(moved), Members(n));
    }
  }

  /** `x` holds `t` and `m`; adding `b` to it gives `t + b` with `m`. */
  lemma Exchange(x: multiset<Prefix>, t: multiset<Prefix>, b: multiset<Prefix>, m: multiset<Prefix>,
                 n: multiset<Prefix>)
    requires x == t + m && t + b == n
    ensures x + b == n + m
  {
    forall q
      ensures (x + b)[q] == (n + m)[q]
    {
      assert (x + b)[q] == t[q] + m[q] + b[q];
    }
  }

  /** The renumbered branch is a correct hierarchy inside `newp`, hence inside `n`. */
  lemma MovedInside(n: Node, oldp: Prefix, newp: Prefix, b: Node)
    requires WF(n) && Valid(newp) && Contains(n.prefix, newp)
    requires WF(b) && b.prefix == oldp && RenumberAll(b, newp).Ok?
    ensures WF(RenumberAll(b, newp).value) && Contains(n.prefix, RenumberAll(b, newp).value.prefix)
    ensures Len(newp) <= Len(oldp)
  {
    WFNested(b);
    RenumberAllExact(b, newp);
    RenumberAllWF(b, oldp, newp);
    RenumberInside(oldp, newp);
    CoverTrans(n.prefix, newp, RenumberAll(b, newp).value.prefix);
  }

  /** The rollback renumbers the branch back to what it was, and the branch shares
      nothing with the rest of the tree, so inserting it again succeeds and restores
      the tree's prefixes. */
  lemma RollBack(n: Node, oldp: Prefix, newp: Prefix, t: Node, b: Node)
    requires WF(n) && Valid(newp) && Contains(n.prefix, oldp)
    requires WF(t) && WF(b) && t.prefix == n.prefix && b.prefix == oldp
    requires Members(t) + Members(b) == Members(n)
    requires Len(newp) <= Len(oldp)
    ensures RenumberAll(b, newp).Ok? && RenumberAll(RenumberAll(b, newp).value, oldp) == Ok(b)
    ensures Insert(t, b).Added? && WF(Insert(t, b).tree) && Members(Insert(t, b).tree) == Members(n)
  {
    WFNested(b);
    RenumberAllRoundTrip(b, oldp, newp);
    NoDuplicates(n);
    Disjoint(Members(t), Members(b), Members(n));
    InsertReportsShared(t, b);
  }

  /** Two parts of a multiset in which nothing occurs twice share nothing. */
  lemma Disjoint(a: multiset<Prefix>, b: multiset<Prefix>, n: multiset<Prefix>)
    requires a + b == n && forall q :: n[q] <= 1
    ensures !exists q :: q in a && q in b
  {
    forall q | q in a
      ensures q !in b
    {
      assert n[q] == a[q] + b[q];
    }
  }

  /** The as-written operation loses the branch when `newp` is longer than `oldp`, while
      `RenumberNode` leaves the tree as it was. */
  lemma RenumberAsWrittenLosesBranch(n: Node, oldp: Prefix, newp: Prefix)
    requires WF(n) && Contains(n.prefix, oldp) && Contains(n.prefix, newp)
    requires oldp in Members(n) && newp !in Members(n) && Len(oldp) < Len(newp)
    ensures RenumberNodeAsWritten(n, oldp, newp).raised == Some(StricterMask)
    ensures oldp !in Members(RenumberNodeAsWritten(n, oldp, newp).tree)
    ensures RenumberNode(n, oldp, newp) == Renumbered(n, Some(StricterMask))
  {
    WFNested(n);
    FindExact(n, newp);
    FindExact(n, oldp);
    CutIsFind(n, oldp);
    PruneRemovesKey(n, oldp);
  }

  /** The smallest such loss: the tree 0.0.0.0/0 holding only 0.0.0.0/1, renumbered
      from 0.0.0.0/1 to 0.0.0.0/2, comes back as a bare 0.0.0.0/0. */
  lemma RenumberLossExample(m0: Mask, m1: Mask, m2: Mask) returns (r: Prefix, oldp: Prefix, newp: Prefix)
    requires PrefixLen(m0) == 0 && PrefixLen(m1) == 1 && PrefixLen(m2) == 2
    ensures r == Prefix(0, m0) && oldp == Prefix(0, m1) && newp == Prefix(0, m2)
    ensures WF(Node(r, [Node(oldp, [])]))
    ensures RenumberNodeAsWritten(Node(r, [Node(oldp, [])]), oldp, newp) == Renumbered(Node(r, []), Some(StricterMask))
    ensures RenumberNode(Node(r, [Node(oldp, [])]), oldp, newp) == Renumbered(Node(r, [Node(oldp, [])]), Some(StricterMask))
  {
    r, oldp, newp := Prefix(0, m0), Prefix(0, m1), Prefix(0, m2);
    var s := Netsize(m2);
    assert s <= MaxAddress && Netsize(m1) == 2 * s by {
      NetsizeIsPow2(m1);
      NetsizeIsPow2(m2);
      Pow2Below32(30);
    }
    ExampleContains(r, newp, Prefix(s, m2), oldp);
    ContainsTransitive(r, oldp, newp);
    var leaf := Node(oldp, []);
    var n := Node(r, [leaf]);
    assert Find(n, newp).None? by {
      assert Find(leaf, newp) == FindFrom(leaf, newp, 0) == None;
      assert FindFrom(n, newp, 0) == FindFrom(n, newp, 1) == None;
    }
    assert Cut(n, oldp) == Pruned(Node(r, []), Some(leaf)) by {
      assert RmChild(n, 0) == Node(r, []);
      assert Cut(n, oldp) == CutFrom(n, oldp, 0);
    }
    assert RenumberAll(leaf, newp) == Err(StricterMask);
    assert RenumberAllAsWritten(leaf, newp) == Err(StricterMask);
  }
  /** As written, a branch with children can never be moved: `_rrenumber` fails after
      the cut, the tree is left without the branch, and the corrected version never
      raises that error. */
  lemma RenumberAsWrittenLosesChildren(n: Node, oldp: Prefix, newp: Prefix)
    requires WF(n) && Contains(n.prefix, oldp) && Contains(n.prefix, newp)
    requires newp !in Members(n) && Len(newp) <= Len(oldp)
    requires Find(n, oldp).Some? && |Find(n, oldp).value.children| > 0
    ensures RenumberNodeAsWritten(n, oldp, newp).raised == Some(MissingAttribute)
    ensures Members(RenumberNodeAsWritten(n, oldp, newp).tree) + Members(Find(n, oldp).value) == Members(n)
    ensures oldp !in Members(RenumberNodeAsWritten(n, oldp, newp).tree)
    ensures RenumberNode(n, oldp, newp).raised != Some(MissingAttribute)
  {
    WFNested(n);
    FindExact(n, newp);
    CutIsFind(n, oldp);
    PruneRemovesKey(n, oldp);
  }

  /** The smallest such loss: 0.0.0.0/0 holding 0.0.0.0/1, which holds 0.0.0.0/2;
      renumbering 0.0.0.0/1 to 128.0.0.0/1 raises and leaves a bare 0.0.0.0/0. */
  lemma RenumberChildLossExample(m0: Mask, m1: Mask, m2: Mask) returns (n: Node, oldp: Prefix, newp: Prefix)
    requires PrefixLen(m0) == 0 && PrefixLen(m1) == 1 && PrefixLen(m2) == 2
    ensures n == Node(Prefix(0, m0), [Node(oldp, [Node(Prefix(0, m2), [])])])
    ensures oldp == Prefix(0, m1) && newp.addr == 0x8000_0000 && newp.mask == m1
    ensures WF(n) && Valid(newp) && Contains(n.prefix, newp)
    ensures RenumberNodeAsWritten(n, oldp, newp) == Renumbered(Node(Prefix(0, m0), []), Some(MissingAttribute))
  {
    var r, c := Prefix(0, m0), Prefix(0, m2);
    oldp, newp := ChildLossPrefixes(m0, m1, m2);
    n := Node(r, [Node(oldp, [Node(c, [])])]);
    ChainRenumberAsWritten(r, oldp, c, newp);
  }

  /** Renumbering the middle node of a chain of three nested prefixes, as written. */
  lemma ChainRenumberAsWritten(r: Prefix, a: Prefix, c: Prefix, np: Prefix)
    requires Valid(r) && Valid(a) && Valid(c) && Contains(r, a) && Contains(a, c)
    requires Contains(r, np) && np != a && np != c && Len(np) <= Len(a)
    ensures WF(Node(r, [Node(a, [Node(c, [])])]))
    ensures RenumberNodeAsWritten(Node(r, [Node(a, [Node(c, [])])]), a, np)
      == Renumbered(Node(r, []), Some(MissingAttribute))
  {
    var n := Node(r, [Node(a, [Node(c, [])])]);
    ChainWF(r, a, c);
    ChainCut(r, a, c);
    ChainMembers(r, a, c);
    ContainsStrictOrder(r, np, np);
    assert np !in Members(n);
    RenumberAsWrittenLosesChildren(n, a, np);
  }

  lemma ChainMembers(r: Prefix, a: Prefix, c: Prefix)
    ensures Members(Node(r, [Node(a, [Node(c, [])])])) == multiset{r, a, c}
  {
    var leaf := Node(c, []);
    var b := Node(a, [leaf]);
    assert MembersOf([]) == multiset{};
    assert [leaf][..0] == [] && [b][..0] == [];
    assert Members(leaf) == multiset{c};
    assert MembersOf([leaf]) == multiset{c};
    assert Members(b) == multiset{a, c};
    assert MembersOf([b]) == multiset{a, c};
  }

  /** The prefixes of the example: 0.0.0.0/0 holds 0.0.0.0/1 and 128.0.0.0/1, and
      0.0.0.0/1 holds 0.0.0.0/2. */
  lemma ChildLossPrefixes(m0: Mask, m1: Mask, m2: Mask) returns (oldp: Prefix, newp: Prefix)
    requires PrefixLen(m0) == 0 && PrefixLen(m1) == 1 && PrefixLen(m2) == 2
    ensures oldp == Prefix(0, m1) && newp.addr == 0x8000_0000 && newp.mask == m1
    ensures Valid(Prefix(0, m0)) && Valid(oldp) && Valid(Prefix(0, m2)) && Valid(newp)
    ensures Contains(Prefix(0, m0), oldp) && Contains(oldp, Prefix(0, m2))
    ensures Contains(Prefix(0, m0), newp) && Len(newp) <= Len(oldp)
  {
    var s1 := Netsize(m1);
    assert s1 == 0x8000_0000 && Netsize(m1) == 2 * Netsize(m2) by {
      NetsizeIsPow2(m1);
      NetsizeIsPow2(m2);
      Pow2Below32(30);
      assert Pow2(31) == 2 * Pow2(30);
      Pow2Of32();
      assert Pow2(32) == 2 * Pow2(31);
    }
    oldp, newp := Prefix(0, m1), Prefix(s1, m1);
    ExampleContains(Prefix(0, m0), Prefix(0, m2), Prefix(Netsize(m2), m2), oldp);
    ValidIffAligned(newp);
    ContainsInterval(Prefix(0, m0), newp);
  }

  /** A chain of three nested prefixes is a correct hierarchy. */
  lemma ChainWF(r: Prefix, a: Prefix, c: Prefix)
    requires Valid(r) && Valid(a) && Valid(c) && Contains(r, a) && Contains(a, c)
    ensures WF(Node(r, [Node(a, [Node(c, [])])]))
  {
    assert WF(Node(c, []));
    assert WF(Node(a, [Node(c, [])]));
  }

  /** In that chain the middle node is found and cut out with its child. */
  lemma ChainCut(r: Prefix, a: Prefix, c: Prefix)
    requires Contains(r, a)
    ensures Find(Node(r, [Node(a, [Node(c, [])])]), a) == Some(Node(a, [Node(c, [])]))
    ensures Cut(Node(r, [Node(a, [Node(c, [])])]), a) == Pruned(Node(r, []), Some(Node(a, [Node(c, [])])))
  {
    var b := Node(a, [Node(c, [])]);
    var n := Node(r, [b]);
    ContainsStrictOrder(r, a, a);
    assert FindFrom(n, a, 0) == Some(b);
    assert RmChild(n, 0) == Node(r, []);
    assert Cut(n, a) == CutFrom(n, a, 0);
  }
}

=== FILE: tree_sort.dfy ===
/** `PrefixNode.sort` in src/ipcidrtree/__init__.py: each node's children are sorted by
    the prefix order (`Prefix.__cmp__`, here `PrefixOrder.Less`) and every child is
    sorted in turn.

    Python's list sort is stable; `SortNodes` is a stable insertion sort.  Because
    sorting a subtree never changes its prefix, sorting the children before or after
    sorting below them gives the same tree; `SortTree` sorts below them first.

    Sorting keeps the prefixes of the tree (`SortTreeMembers`), keeps a correct CIDR
    hierarchy correct (`SortTreeKeepsWF`), leaves every list of children in order
    (`SortTreeSorted`) and changes nothing in a tree already in order
    (`SortTreeFixed`), so sorting twice is sorting once.
 */
module TreeSort {
  import opened Prefixes
  import opened PrefixOrder
  import opened Trees

  /** No child is smaller than the one before it. */
  predicate Ordered(s: seq<Node>)
  {
    forall k :: 0 < k < |s| ==> !Less(s[k].prefix, s[k - 1].prefix)
  }

  /** `x` placed into the ordered list `t` after every entry it is not smaller than. */
  function InsertNode(t: seq<Node>, x: Node): (r: seq<Node>)
    ensures |r| == |t| + 1 && multiset(r) == multiset(t) + multiset{x}
    ensures r[|t|] == x || (|t| > 0 && r[|t|] == t[|t| - 1])
    decreases |t|
  {
    if |t| == 0 then [x]
    else if Less(x.prefix, t[|t| - 1].prefix) then
      assert t == t[..|t| - 1] + [t[|t| - 1]];
      InsertNode(t[..|t| - 1], x) + [t[|t| - 1]]
    else t + [x]
  }

  /** Stable insertion sort of a list of children by prefix. */
  function SortNodes(s: seq<Node>): (r: seq<Node>)
    ensures |r| == |s| && multiset(r) == multiset(s)
    decreases |s|
  {
    if |s| == 0 then []
    else
      assert s == s[..|s| - 1] + [s[|s| - 1]];
      InsertNode(SortNodes(s[..|s| - 1]), s[|s| - 1])
  }

  lemma {:induction false} InsertNodeMembers(t: seq<Node>, x: Node)
    ensures MembersOf(InsertNode(t, x)) == MembersOf(t) + Members(x)
    decreases |t|
  {
    if |t| > 0 {
      var t0, y := t[..|t| - 1], t[|t| - 1];
      if Less(x.prefix, y.prefix) {
        var front := InsertNode(t0, x);
        InsertNodeMembers(t0, x);
        assert MembersOf(front + [y]) == MembersOf(front) + Members(y) by {
          MembersOfAppend(front, y);
        }
        assert MembersOf(t) == MembersOf(t0) + Members(y);
        Rotate(MembersOf(front + [y]), MembersOf(front), MembersOf(t), MembersOf(t0), Members(x), Members(y));
      } else {
        MembersOfAppend(t, x);
      }
    }
  }

  lemma Rotate(r: multiset<Prefix>, f: multiset<Prefix>, t: multiset<Prefix>, t0: multiset<Prefix>,
               x: multiset<Prefix>, y: multiset<Prefix>)
    requires r == f + y && f == t0 + x && t == t0 + y
    ensures r == t + x
  {
  }

  lemma {:induction false} SortNodesMembers(s: seq<Node>)
    ensures MembersOf(SortNodes(s)) == MembersOf(s)
    decreases |s|
  {
    if |s| > 0 {
      var s0, x := s[..|s| - 1], s[|s| - 1];
      SortNodesMembers(s0);
      InsertNodeMembers(SortNodes(s0), x);
      assert MembersOf(s) == MembersOf(s0) + Members(x);
    }
  }

  /** `n.sort()`. */
  function SortTree(n: Node): (r: Node)
    ensures r.prefix == n.prefix && |r.children| == |n.children|
    decreases n, 1
  {
    Node(n.prefix, SortNodes(SortEach(n.children)))
  }

  /** Every subtree of the list sorted. */
  function SortEach(cs: seq<Node>): (r: seq<Node>)
    ensures |r| == |cs|
    decreases cs, 0
  {
    seq(|cs|, k requires 0 <= k < |cs| => SortTree(cs[k]))
  }

  // ---------------------------------------------------------------------------
  // Order

  /** Inserting into an ordered list of valid prefixes keeps it ordered. */
  lemma {:induction false} InsertOrdered(t: seq<Node>, x: Node)
    requires Ordered(t) && Valid(x.prefix) && forall y :: y in t ==> Valid(y.prefix)
    ensures Ordered(InsertNode(t, x))
    decreases |t|
  {
    if |t| > 0 {
      var y := t[|t| - 1];
      if Less(x.prefix, y.prefix) {
        var t0 := t[..|t| - 1];
        OrderedFront(t);
        InsertOrdered(t0, x);
        var front := InsertNode(t0, x);
        LessStrictTotal(x.prefix, y.prefix, y.prefix);
        AppendOrdered(front, y);
      } else {
        AppendOrdered(t, x);
      }
    }
  }

  lemma OrderedFront(t: seq<Node>)
    requires Ordered(t) && |t| > 0
    ensures Ordered(t[..|t| - 1]) && forall z :: z in t[..|t| - 1] ==> z in t
    ensures |t| > 1 ==> t[..|t| - 1][|t| - 2] == t[|t| - 2]
  {
    var t0 := t[..|t| - 1];
    assert forall i :: 0 <= i < |t0| ==> t0[i] == t[i];
  }

  lemma AppendOrdered(s: seq<Node>, y: Node)
    requires Ordered(s) && (|s| > 0 ==> !Less(y.prefix, s[|s| - 1].prefix))
    ensures Ordered(s + [y])
  {
  }

  /** Sorting a list of valid prefixes leaves it ordered. */
  lemma {:induction false} SortOrdered(s: seq<Node>)
    requires forall y :: y in s ==> Valid(y.prefix)
    ensures Ordered(SortNodes(s))
    decreases |s|
  {
    if |s| > 0 {
      var s0 := s[..|s| - 1];
      assert forall z :: z in s0 ==> z in s;
      SortOrdered(s0);
      var t := SortNodes(s0);
      assert forall z :: z in t ==> z in s by {
        forall z | z in t
          ensures z in s
        {
          assert z in multiset(t);
        }
      }
      InsertOrdered(t, s[|s| - 1]);
    }
  }

  /** A list already in order is left as it is: the sort is stable. */
  lemma {:induction false} SortFixed(s: seq<Node>)
    requires Ordered(s)
    ensures SortNodes(s) == s
    decreases |s|
  {
    if |s| > 0 {
      var s0, x := s[..|s| - 1], s[|s| - 1];
      OrderedFront(s);
      SortFixed(s0);
      assert SortNodes(s) == InsertNode(s0, x);
      assert s == s0 + [x];
    }
  }

  // ---------------------------------------------------------------------------
  // The tree

  /** Every list of children in the tree is in order. */
  predicate SortedTree(n: Node)
    decreases n
  {
    Ordered(n.children) && forall k :: 0 <= k < |n.children| ==> SortedTree(n.children[k])
  }

  /** Sorting keeps the prefix of every subtree and all prefixes of the tree. */
  lemma {:induction false} SortTreeMembers(n: Node)
    ensures SortTree(n).prefix == n.prefix
    ensures Members(SortTree(n)) == Members(n)
    decreases n, 1
  {
    SortEachMembers(n.children);
    SortNodesMembers(SortEach(n.children));
  }

  lemma {:induction false} SortEachMembers(cs: seq<Node>)
    ensures forall k :: 0 <= k < |cs| ==> SortEach(cs)[k].prefix == cs[k].prefix
    ensures MembersOf(SortEach(cs)) == MembersOf(cs)
    decreases cs, 0
  {
    forall k | 0 <= k < |cs|
      ensures SortEach(cs)[k].prefix == cs[k].prefix
    {
      SortTreeMembers(cs[k]);
    }
    if |cs| > 0 {
      var c0 := cs[..|cs| - 1];
      SortEachMembers(c0);
      SortTreeMembers(cs[|cs| - 1]);
      assert SortEach(cs)[..|cs| - 1] == SortEach(c0);
    }
  }

  /** Sorting a nested tree leaves every list of children in order. */
  lemma {:induction false} SortTreeSorted(n: Node)
    requires Trees.Nested(n)
    ensures SortedTree(SortTree(n))
    decreases n, 1
  {
    var e := SortEach(n.children);
    SortEachMembers(n.children);
    forall k | 0 <= k < |e|
      ensures SortedTree(e[k]) && Valid(e[k].prefix)
    {
      SortTreeSorted(n.children[k]);
      NestedCovers(n.children[k], n.children[k].prefix);
    }
    assert forall y :: y in e ==> Valid(y.prefix);
    SortOrdered(e);
    var r := SortNodes(e);
    forall k | 0 <= k < |r|
      ensures SortedTree(r[k])
    {
      assert r[k] in multiset(e);
    }
  }

  /** A tree already in order is left as it is; so sorting twice is sorting once. */
  lemma {:induction false} SortTreeFixed(n: Node)
    requires SortedTree(n)
    ensures SortTree(n) == n
    decreases n, 1
  {
    forall k | 0 <= k < |n.children|
      ensures SortEach(n.children)[k] == n.children[k]
    {
      SortTreeFixed(n.children[k]);
    }
    assert SortEach(n.children) == n.children;
    SortFixed(n.children);
  }

  lemma SortTwice(n: Node)
    requires Trees.Nested(n)
    ensures SortTree(SortTree(n)) == SortTree(n)
  {
    SortTreeSorted(n);
    SortTreeFixed(SortTree(n));
  }

  // ---------------------------------------------------------------------------
  // Correct hierarchies

  /** Inserting a node apart from every entry into a list of pairwise apart nodes. */
  lemma {:induction false} InsertApart(t: seq<Node>, x: Node)
    requires SiblingsApart(t) && forall y :: y in t ==> Apart(y.prefix, x.prefix)
    ensures SiblingsApart(InsertNode(t, x))
    decreases |t|
  {
    if |t| > 0 && Less(x.prefix, t[|t| - 1].prefix) {
      var t0, y := t[..|t| - 1], t[|t| - 1];
      LastApart(t);
      InsertApart(t0, x);
      var front := InsertNode(t0, x);
      forall z | z in front
        ensures Apart(z.prefix, y.prefix)
      {
        assert z in multiset(front);
      }
      AppendApart(front, y);
    } else {
      AppendApart(t, x);
    }
  }

  /** The last of a list of pairwise apart nodes is apart from all the others. */
  lemma LastApart(t: seq<Node>)
    requires SiblingsApart(t) && |t| > 0
    ensures SiblingsApart(t[..|t| - 1])
    ensures forall z :: z in t[..|t| - 1] ==> z in t && Apart(z.prefix, t[|t| - 1].prefix)
  {
    var t0 := t[..|t| - 1];
    assert forall i :: 0 <= i < |t0| ==> t0[i] == t[i];
    forall z | z in t[..|t| - 1]
      ensures z in t && Apart(z.prefix, t[|t| - 1].prefix)
    {
      var i :| 0 <= i < |t| - 1 && t[i] == z;
    }
  }

  lemma AppendApart(s: seq<Node>, y: Node)
    requires SiblingsApart(s) && forall z :: z in s ==> Apart(z.prefix, y.prefix)
    ensures SiblingsApart(s + [y])
  {
    var r := s + [y];
    forall i, j | 0 <= i < j < |r|
      ensures Apart(r[i].prefix, r[j].prefix)
    {
      if j == |s| {
        assert r[i] in s;
      }
    }
  }

  /** Sorting a list of pairwise apart nodes keeps them pairwise apart. */
  lemma {:induction false} SortApart(s: seq<Node>)
    requires SiblingsApart(s)
    ensures SiblingsApart(SortNodes(s))
    decreases |s|
  {
    if |s| > 0 {
      var s0, x := s[..|s| - 1], s[|s| - 1];
      SortApart(s0);
      var t := SortNodes(s0);
      forall z | z in t
        ensures Apart(z.prefix, x.prefix)
      {
        assert z in multiset(s0);
        var i :| 0 <= i < |s0| && s0[i] == z;
        assert s[i] == z;
      }
      InsertApart(t, x);
    }
  }

  /** Sorting keeps a correct CIDR hierarchy correct. */
  lemma {:induction false} SortTreeKeepsWF(n: Node)
    requires WF(n)
    ensures WF(SortTree(n))
    decreases n, 1
  {
    var e := SortEach(n.children);
    SortEachMembers(n.children);
    forall k | 0 <= k < |e|
      ensures WF(e[k])
    {
      SortTreeKeepsWF(n.children[k]);
    }
    assert SiblingsApart(e);
    SortApart(e);
    var r := SortNodes(e);
    forall k | 0 <= k < |r|
      ensures WF(r[k]) && Contains(n.prefix, r[k].prefix)
    {
      assert r[k] in multiset(e);
    }
  }
}

=== FILE: tree_walk.dfy ===
/** Depth-first iteration over the CIDR tree: `PrefixNode.dfi` and `dfi_part` in
    src/ipcidrtree/__init__.py.  The generators become the sequences of what they
    yield.

    `dfi` visits every prefix of the tree exactly as often as the tree holds it
    (`WalkListsMembers`), the root first and everything else deeper.  `dfi_part` stops
    below nodes whose prefix is not in the filter; it yields only what `dfi` yields
    (`PartWithinWalk`), and with every prefix of the tree in the filter it is `dfi`
    with every entry marked as in the filter (`PartOfFullFilter`).
 */
module TreeWalk {
  import opened Prefixes
  import opened Trees

  /** One `(node, depth)` pair yielded by `dfi`. */
  datatype Visit = Visit(node: Node, depth: int)

  /** One `(node, depth, in_filter)` triple yielded by `dfi_part`. */
  datatype Step = Step(node: Node, depth: int, inFilter: bool)

  /** `n.dfi(depth)`: the node, then the walks of its children one level deeper. */
  function Walk(n: Node, depth: int): (r: seq<Visit>)
    ensures |r| >= 1 && r[0] == Visit(n, depth)
    ensures forall k :: 0 < k < |r| ==> r[k].depth > depth
    decreases n, 1
  {
    [Visit(n, depth)] + WalkOf(n.children, depth + 1)
  }

  /** The walks of a list of siblings, one after the other. */
  function WalkOf(cs: seq<Node>, depth: int): (r: seq<Visit>)
    ensures forall k :: 0 <= k < |r| ==> r[k].depth >= depth
    decreases cs, 0
  {
    if |cs| == 0 then []
    else WalkOf(cs[..|cs| - 1], depth) + Walk(cs[|cs| - 1], depth)
  }

  /** The prefixes of the visited nodes, in visiting order. */
  function Visited(vs: seq<Visit>): (r: seq<Prefix>)
    ensures |r| == |vs| && forall k :: 0 <= k < |vs| ==> r[k] == vs[k].node.prefix
  {
    seq(|vs|, k requires 0 <= k < |vs| => vs[k].node.prefix)
  }

  lemma VisitedConcat(a: seq<Visit>, b: seq<Visit>)
    ensures Visited(a + b) == Visited(a) + Visited(b)
  {
  }

  /** `dfi` lists every prefix of the tree as often as the tree holds it. */
  lemma {:induction false} WalkListsMembers(n: Node, depth: int)
    ensures multiset(Visited(Walk(n, depth))) == Members(n)
    decreases n, 1
  {
    VisitedConcat([Visit(n, depth)], WalkOf(n.children, depth + 1));
    WalkOfListsMembers(n.children, depth + 1);
  }

  lemma {:induction false} WalkOfListsMembers(cs: seq<Node>, depth: int)
    ensures multiset(Visited(WalkOf(cs, depth))) == MembersOf(cs)
    decreases cs, 0
  {
    if |cs| > 0 {
      var c0, last := cs[..|cs| - 1], cs[|cs| - 1];
      VisitedConcat(WalkOf(c0, depth), Walk(last, depth));
      WalkOfListsMembers(c0, depth);
      WalkListsMembers(last, depth);
    }
  }

  /** In a correct hierarchy `dfi` visits no prefix twice. */
  lemma WalkDistinct(n: Node, depth: int)
    requires WF(n)
    ensures forall q :: multiset(Visited(Walk(n, depth)))[q] <= 1
  {
    WalkListsMembers(n, depth);
    NoDuplicates(n);
  }

  // ---------------------------------------------------------------------------
  // dfi_part

  /** `n.dfi_part(depth, filter)`: the node with its filter flag, and the partial walks
      of its children only when its prefix is in the filter. */
  function WalkPart(n: Node, depth: int, filter: seq<Prefix>): (r: seq<Step>)
    ensures |r| >= 1 && r[0] == Step(n, depth, n.prefix in filter)
    ensures forall k :: 0 <= k < |r| ==> r[k].inFilter == (r[k].node.prefix in filter)
    decreases n, 1
  {
    [Step(n, depth, n.prefix in filter)]
      + (if n.prefix in filter then WalkPartOf(n.children, depth + 1, filter) else [])
  }

  function WalkPartOf(cs: seq<Node>, depth: int, filter: seq<Prefix>): (r: seq<Step>)
    ensures forall k :: 0 <= k < |r| ==> r[k].inFilter == (r[k].node.prefix in filter)
    decreases cs, 0
  {
    if |cs| == 0 then []
    else WalkPartOf(cs[..|cs| - 1], depth, filter) + WalkPart(cs[|cs| - 1], depth, filter)
  }

  /** A step without its filter flag. */
  function Unmarked(ss: seq<Step>): (r: seq<Visit>)
    ensures |r| == |ss| && forall k :: 0 <= k < |ss| ==> r[k] == Visit(ss[k].node, ss[k].depth)
  {
    seq(|ss|, k requires 0 <= k < |ss| => Visit(ss[k].node, ss[k].depth))
  }

  /** Every visit marked as in the filter. */
  function Marked(vs: seq<Visit>): (r: seq<Step>)
    ensures |r| == |vs| && forall k :: 0 <= k < |vs| ==> r[k] == Step(vs[k].node, vs[k].depth, true)
  {
    seq(|vs|, k requires 0 <= k < |vs| => Step(vs[k].node, vs[k].depth, true))
  }

  lemma UnmarkedConcat(a: seq<Step>, b: seq<Step>)
    ensures Unmarked(a + b) == Unmarked(a) + Unmarked(b)
  {
  }

  lemma MarkedConcat(a: seq<Visit>, b: seq<Visit>)
    ensures Marked(a + b) == Marked(a) + Marked(b)
  {
  }

  /** `dfi_part` yields nothing `dfi` does not: its visits are among those of `dfi`. */
  lemma {:induction false} PartWithinWalk(n: Node, depth: int, filter: seq<Prefix>)
    ensures multiset(Unmarked(WalkPart(n, depth, filter))) <= multiset(Walk(n, depth))
    decreases n, 1
  {
    var head := [Step(n, depth, n.prefix in filter)];
    var walk := WalkOf(n.children, depth + 1);
    assert multiset(Walk(n, depth)) == multiset([Visit(n, depth)]) + multiset(walk);
    if n.prefix in filter {
      var tail := WalkPartOf(n.children, depth + 1, filter);
      UnmarkedConcat(head, tail);
      PartOfWithinWalkOf(n.children, depth + 1, filter);
      assert multiset(Unmarked(WalkPart(n, depth, filter)))
        == multiset([Visit(n, depth)]) + multiset(Unmarked(tail));
    } else {
      assert Unmarked(WalkPart(n, depth, filter)) == [Visit(n, depth)];
    }
  }

  lemma {:induction false} PartOfWithinWalkOf(cs: seq<Node>, depth: int, filter: seq<Prefix>)
    ensures multiset(Unmarked(WalkPartOf(cs, depth, filter))) <= multiset(WalkOf(cs, depth))
    decreases cs, 0
  {
    if |cs| > 0 {
      var c0, last := cs[..|cs| - 1], cs[|cs| - 1];
      UnmarkedConcat(WalkPartOf(c0, depth, filter), WalkPart(last, depth, filter));
      PartOfWithinWalkOf(c0, depth, filter);
      PartWithinWalk(last, depth, filter);
    }
  }

  /** With every prefix of the tree in the filter, `dfi_part` is `dfi` with every entry
      marked as in the filter. */
  lemma {:induction false} PartOfFullFilter(n: Node, depth: int, filter: seq<Prefix>)
    requires forall q :: q in Members(n) ==> q in filter
    ensures WalkPart(n, depth, filter) == Marked(Walk(n, depth))
    decreases n, 1
  {
    MarkedConcat([Visit(n, depth)], WalkOf(n.children, depth + 1));
    PartOfFullFilterOf(n.children, depth + 1, filter);
  }

  lemma {:induction false} PartOfFullFilterOf(cs: seq<Node>, depth: int, filter: seq<Prefix>)
    requires forall q :: q in MembersOf(cs) ==> q in filter
    ensures WalkPartOf(cs, depth, filter) == Marked(WalkOf(cs, depth))
    decreases cs, 0
  {
    if |cs| > 0 {
      var c0, last := cs[..|cs| - 1], cs[|cs| - 1];
      MarkedConcat(WalkOf(c0, depth), Walk(last, depth));
      PartOfFullFilterOf(c0, depth, filter);
      PartOfFullFilter(last, depth, filter);
    }
  }
}

=== FILE: wrappers.dfy ===
/** Failure-carrying results for the operations of the IPv4 prefix library.

    Each constructor of `Fault` stands for one kind of exception the library raises;
    the library raises plain `ValueError`/`IndexError` objects and distinguishes the
    cases only by message, so the names below follow those messages.
 */
module Wrappers {

  datatype Option<+T> = None | Some(value: T)

  datatype Fault =
    | RangeError        // integer outside [0, 2^32-1], or address/prefix arithmetic leaving it
    | InvalidNetmask    // integer is not one of the 33 legal masks
    | InvalidPrefix     // network bits overflow the prefix length (host bits set)
    | IndexError        // prefix index out of range
    | ZeroStep          // a slice step of zero (Python's `range` refuses it)
    | SubnetTooLarge    // `subnet` asked for a mask shorter than the prefix's own
    | StricterMask      // renumber to a prefix with more bits than the renumbered one
    | NotContained      // renumber: the node does not contain the old or the new prefix
    | AlreadyExists     // renumber: the new prefix is already in the tree
    | NotFound          // renumber: the old prefix is not in the tree
    | RootPrune         // prune: the key is the root of the tree
    | DuplicatePrefix   // the tree already holds a node with the prefix being added
    | MissingAttribute  // a call to a method the object does not have (Python's AttributeError)

  datatype Result<+T> = Ok(value: T) | Err(fault: Fault)
}
